=== FILE: README.md ===
# orpyus chord and interval core, in Dafny

A functional model of the symbolic core of the orpyus music-theory library.
The model covers two source files.

From `src/intervals.py`:
- signed intervals with their diatonic degree and quality;
- interval construction, arithmetic, inversion and flattening;
- just-intonation ratios;
- interval lists: casting, sorting, deduplication, rotation, inversion, stacking, padding and flattening.

From `src/chords.py`:
- chord factors (degree → semitone offset) with qualifier addition and distance;
- abstract chords: argument parsing, inversion resolution, quality, suffix lookup and likelihood;
- chords on a root: inversion placement, transposition, containment, parallel and relative chords;
- the module-level naming registry that the two loops over the rarity table build;
- the filter-and-rank step of `matching_chords` and `most_likely_chord`.

Every operation is a pure function.
- Python exceptions become `Err` values of one `Result` type (`Errors`).
- Python dicts whose insertion order matters are modelled in one of two ways:
  - an ordered key list with a map (`Factors`, `Dicts`);
  - a map, where only lookups matter (`Names.Registry`).
- Pitch classes are integers 0..11. `note + semitones` is modelled as addition modulo 12.

Modules:
- `Errors`, `Qualities`, `Arith`: the result type, interval qualities and small arithmetic facts.
- `Intervals`, `IntervalLists`: `Interval` and `IntervalList`.
- `Factors`: `ChordFactors`, with qualifiers as records of additions, shifts and removals.
- `Dicts`: insertion-ordered dictionaries.
- `Names`: the lookup tables and `rarity`.
- `AbstractChords`, `Chords`: `AbstractChord` and `Chord`.
- `RarityTable`, `RegistryBuild`: the rarity table read back into a dict, and the two registry loops.
- `Matcher`: the candidate filter, the ranking sort and the cut to `max_results`.

## Model

| member | source | states |
|---|---|---|
| Qualities.OffsetRoundTrip | src/intervals.py:79-89 | the quality judged from an offset on the perfect or major scale gives that offset back, so a quality is a faithful stand-in for its offset |
| Qualities.QualityRoundTrip | src/intervals.py:153-158 | every quality of a scale is the quality of its own offset |
| Intervals.TablesAgree | src/intervals.py:616-640 | the canonical size of each degree 1..7 maps back to that degree; every width within the octave is either its default degree's canonical size or one semitone below it, and the tritone reads as a diminished fifth |
| Intervals.FromValue | src/intervals.py:21-45 | `Interval(v)` keeps `v`, splits `abs(v)` into whole octaves and a width below 12, and takes the default degree of that width |
| Intervals.DefaultFromValue | src/intervals.py:38-45 | any well-formed interval whose degree is the default one is `Interval(value)` |
| Intervals.WithDegree | src/intervals.py:47-77 | explicit-degree construction fails with its own error for a non-positive degree and never with the octave error; when it succeeds the interval is well-formed and keeps the given value and extended degree |
| Intervals.WithDegreeIffWellFormed | src/intervals.py:47-77 | explicit-degree construction succeeds exactly when its result is well-formed |
| Intervals.WithDefaultDegree | src/intervals.py:50-74 | construction with the default extended degree equals default construction, and a degree more than 2 away is refused |
| Intervals.Rebuild | src/intervals.py:47-77 | every well-formed interval is rebuilt by explicit construction from its value and extended degree |
| Intervals.ComplementWithDegree | src/intervals.py:47-77 | construction with the complemented degree 9 − d at the complementary width succeeds except for an augmented unison or a tritone spelled as a seventh |
| Intervals.OffsetFromDefault | src/intervals.py:153-158 | the offset read back through the quality is the width within the octave minus the canonical size of the degree |
| Intervals.FromDegree | src/intervals.py:122-151 | `from_degree(d, offset=o)` has extended degree `d` and value canonical(simple d) + 12·octaves + o; a degree below 1 is a key error |
| Intervals.FromDegreeWith | src/intervals.py:122-151 | quality and offset together are an assertion error; a quality gives its offset on the scale of the simple degree; neither gives no offset |
| Intervals.FromDegreeQuality | src/intervals.py:135-151 | a quality on the degree's scale comes back as the interval's quality exactly when the interval stays ascending |
| Intervals.FromDegreeCanonical | src/intervals.py:145-151 | with no offset every positive degree gives its perfect or major interval |
| Intervals.FromDegreeRecovers | src/intervals.py:122-158 | `from_degree(extended_degree, offset_from_default)` rebuilds every ascending interval |
| Intervals.Add | src/intervals.py:174-205 | `a + n` has value `a.value + n`; a unison or a non-octave amount re-derives the degree; whole octaves keep the degree, or complement it when the sign flips |
| Intervals.AddOctaves | src/intervals.py:188-201 | octaves added to a non-unison keep its width within the octave and degree, or complement both on a sign flip; only an irregular interval flipped over fails |
| Intervals.AddOctavesSame | src/intervals.py:188-201 | octaves added without a sign change keep the simple degree |
| Intervals.AddOctavesFlip | src/intervals.py:188-201 | octaves added across zero give degree 9 − d |
| Intervals.Sub | src/intervals.py:218-226 | `a - n` is `a + (-n)`, failing exactly when that addition fails |
| Intervals.AddDefault | src/intervals.py:174-205 | a default-degree interval moved without crossing zero is the default interval of its new value |
| Intervals.AddZero | src/intervals.py:174-205 | adding 0 gives back every well-formed interval |
| Intervals.AddSubRoundTrip | src/intervals.py:174-226 | `(a + n) - n == a` when `a` has its default degree or `n` is whole octaves |
| Intervals.Neg | src/intervals.py:232-236 | `-a` has the negated value and the same extended degree |
| Intervals.NegInvolution | src/intervals.py:232-236 | `-(-a) == a` |
| Intervals.Invert | src/intervals.py:238-250 | `~a` points the other way, spans the same octaves plus the complement of the width within the octave, has degree 9 − d, and fails only for an augmented unison or a tritone spelled as a seventh |
| Intervals.InvertOctaves | src/intervals.py:238-250 | whole octaves inverted gain one octave |
| Intervals.InvertNonUnison | src/intervals.py:238-250 | a non-unison keeps its octave span under `~` and complements its width within the octave and its degree |
| Intervals.InvertValue | src/intervals.py:238-250 | the value `~` computes, in closed form |
| Intervals.InvertComplements | src/intervals.py:238-250 | the two widths add up to an odd number of octaves; a simple ascending interval is complemented within its octave, as in `~Interval(7) == Interval(-5)` |
| Intervals.InvertInvolution | src/intervals.py:238-250 | `~~a == a` for every non-unison |
| Intervals.AbsInterval | src/intervals.py:252-256 | `abs(a)` keeps a positive interval and rebuilds a non-positive one from its negated value with the default degree |
| Intervals.FloorMod | src/intervals.py:228-230 | Python's `%`: the remainder lies between 0 and the divisor, on the divisor's side, and differs from the dividend by a multiple of the divisor |
| Intervals.FloorModUnique | src/intervals.py:228-230 | Python's remainder is the only number in that range with that property |
| Intervals.ModInterval | src/intervals.py:228-230 | `a % m` is the default interval of the value's Python remainder |
| Intervals.ModIntervalPeriodic | src/intervals.py:228-230 | `a % m` depends only on the value modulo `m` |
| Intervals.Flatten | src/intervals.py:258-264 | `flatten` gives a simple ascending interval of the same pitch class, complementing descending intervals first |
| Intervals.FlattenAscending | src/intervals.py:263-264 | an ascending interval flattens to its width within the octave at its simple degree |
| Intervals.FlattenSimple | src/intervals.py:258-264 | flattening is idempotent on simple ascending intervals |
| Intervals.ComparisonFacts | src/intervals.py:266-313 | value equality implies `&`; the interval and integer forms of `&` agree on non-negative integers; ordering by value is total |
| Intervals.EnharmonicToNegative | src/intervals.py:277-285 | with a negative integer the integer form of `&` reduces from below, so `Interval(7) & -5` holds while `Interval(7) & Interval(-5)` does not |
| Intervals.TableLowest | src/intervals.py:709-712 | every ratio of the just-intonation table is in lowest terms |
| Intervals.Ratio | src/intervals.py:92-103 | the ratio is in lowest terms and equals the table ratio of the width within the octave, doubled once per octave spanned |
| Intervals.GcdGreatest | src/intervals.py:99-103 | every common divisor divides `Gcd`, so the reduction divides by the greatest one |
| Intervals.ReducedLowest | src/intervals.py:99-103 | the reduced ratio is in lowest terms |
| Intervals.RatioOfTable | src/intervals.py:709-712 | the table entry for the octave is the unison doubled, consistent with the doubling rule |
| Intervals.RatioOctaveDoubles | src/intervals.py:92-103 | raising an ascending interval by an octave doubles its ratio |
| Intervals.RatioIgnoresDirection | src/intervals.py:92-103 | a descending interval has the ratio of its ascending mirror |
| IntervalLists.Defaults | src/intervals.py:396-408 | an integer item is cast to the default interval of its value |
| IntervalLists.Sort | src/intervals.py:515-521 | `sorted()` returns the same intervals, as a multiset, in ascending value order |
| IntervalLists.SortSorted | src/intervals.py:515-521 | sorting a sorted list changes nothing |
| IntervalLists.SortedCheck | src/intervals.py:534 | the check `self == self.sorted()` holds exactly for sorted lists |
| IntervalLists.Key | src/intervals.py:480-482 | a list hashes as the values of its sorted copy |
| IntervalLists.KeyIgnoresOrder | src/intervals.py:480-482 | lists holding the same values in any order hash alike |
| IntervalLists.Unique | src/intervals.py:505-513 | `unique()` keeps one interval per value, draws every member from the list and loses no value |
| IntervalLists.UniqueFirsts | src/intervals.py:505-513 | `unique()` is exactly the first interval of each value, in list order |
| IntervalLists.UniqueOfDistinct | src/intervals.py:505-513 | a list without repeated values is its own `unique()` |
| IntervalLists.Rotate | src/intervals.py:554-557 | `rotate(k)` keeps the length and the intervals, as a multiset, and starts at the element at `k` modulo the length |
| IntervalLists.RotateAt | src/intervals.py:554-557 | position `i` of the rotation holds position `(i + k) mod n` |
| IntervalLists.RotateZero | src/intervals.py:554-557 | rotating by 0 changes nothing |
| IntervalLists.ListAdd | src/intervals.py:431-435 | `list + n` adds `n` to each interval, failing exactly when one addition fails |
| IntervalLists.ListAddPointwise | src/intervals.py:436-438 | `list + other` needs equal lengths and adds point-wise |
| IntervalLists.ListAddZero | src/intervals.py:431-435 | adding 0 to a list of well-formed intervals changes nothing |
| IntervalLists.ListSub | src/intervals.py:456-466 | `list - n` is `list + (-n)` |
| IntervalLists.ListSubPointwise | src/intervals.py:456-466 | `list - other` is `list + (-other)` point-wise |
| IntervalLists.ListAddSubRoundTrip | src/intervals.py:431-466 | subtracting what was added gives the list back, for whole octaves or default degrees |
| IntervalLists.ListNeg | src/intervals.py:472-474 | `-list` negates each interval |
| IntervalLists.ListNegInvolution | src/intervals.py:472-474 | `-(-list) == list` |
| IntervalLists.ListAbs | src/intervals.py:476-478 | `abs(list)` replaces each descending interval by its complement, failing when one has none |
| IntervalLists.ListAbsFacts | src/intervals.py:476-478 | `abs(list)` succeeds unless a descending interval has no complement; its result is ascending and keeps every pitch class and every ascending interval |
| IntervalLists.ListAbsAscending | src/intervals.py:476-478 | `abs` leaves a list without descending intervals unchanged |
| IntervalLists.ListInvert | src/intervals.py:559-569 | `invert(p)` is sorted, without repeated values, non-negative, starts at the unison, and holds exactly the intervals of the list measured from the `p`-th |
| IntervalLists.MeasuredBackward | src/intervals.py:559-569 | every member of `invert(p)` is an interval of the list measured from the new root |
| IntervalLists.ContentForward | src/intervals.py:559-569 | every pitch class of the list, measured from the new root, and every interval above it survive `invert` |
| IntervalLists.ContentBackward | src/intervals.py:559-569 | `invert` introduces no other pitch class |
| IntervalLists.RecentreIdentity | src/intervals.py:562-564 | recentring a list already in inverted shape changes nothing |
| IntervalLists.InvertShape | src/intervals.py:565 | deduplicating and sorting a non-negative list that holds the unison gives the inverted shape |
| IntervalLists.ListInvertZero | src/intervals.py:559-569 | `invert(0)` of an ascending list without repeats that starts at the unison is the identity |
| IntervalLists.Stack | src/intervals.py:571-578 | `stack` gives the running totals of the values, keeping the first interval |
| IntervalLists.StackOntoOk | src/intervals.py:575-577 | stacking non-negative intervals never fails |
| IntervalLists.Unstack | src/intervals.py:580-588 | `unstack` refuses an unsorted list and otherwise gives the steps between successive values |
| IntervalLists.UnstackFromOk | src/intervals.py:585-587 | the steps of a sorted non-negative list are all defined |
| IntervalLists.StackThenUnstack | src/intervals.py:571-588 | `unstack(stack(xs))` gives the values of `xs` back for non-negative steps |
| IntervalLists.UnstackThenStack | src/intervals.py:571-588 | `stack(unstack(xs))` gives the values of `xs` back for sorted non-negative lists |
| IntervalLists.StackExample | src/intervals.py:572-574 | the documented example: [4, 3, 4, 4] stacks to [4, 7, 11, 15] |
| IntervalLists.Strip | src/intervals.py:523-531 | `strip()` drops a whole-octave interval at either end; an empty list is an index error |
| IntervalLists.Pad | src/intervals.py:533-544 | `pad` refuses an unsorted list; it adds a unison below when asked and the first width is not whole octaves; it adds the octave above the last interval when asked and the last width is not whole octaves |
| IntervalLists.PadEnds | src/intervals.py:533-544 | padding a sorted non-empty list succeeds; a requested end is then whole octaves, and at most two intervals are added |
| IntervalLists.PadIdempotent | src/intervals.py:533-544 | padding twice is padding once |
| IntervalLists.PadNothing | src/intervals.py:533-544 | a sorted list with the requested ends is not changed |
| IntervalLists.StripPadRoundTrip | src/intervals.py:523-544 | `pad(True, True).strip()` gives back a sorted list whose ends are not whole octaves |
| IntervalLists.FlattenEach | src/intervals.py:546-549 | flattening every interval succeeds exactly when each one does, and the result holds the flattened form of each interval at its own position |
| IntervalLists.ListFlatten | src/intervals.py:546-552 | `flatten` fails exactly when some descending interval has no complement; otherwise it gives sorted simple ascending intervals whose values are exactly the pitch classes of the list, one per member when duplicates are kept and without repeated values when they are not |
| Factors.NormaliseContents | src/chords.py:109-112 | re-keying in ascending order forgets the key order: equal contents normalise alike, and already ascending factors are unchanged |
| Factors.ApplyAllContents | src/chords.py:100-105 | what a list of qualifiers does to the contents does not depend on the key order |
| Factors.Plus | src/chords.py:92-112 | `factors + q` applies one qualifier or each of a list in turn and re-keys the result in ascending order; a list holding a non-qualifier and any other operand type fail |
| Factors.PlusIgnoresKeyOrder | src/chords.py:92-112 | factors that compare equal give identical sums, whatever their key order |
| Factors.PlusLists | src/chords.py:92-112 | a one-element list acts as its qualifier; an empty list returns a sorted copy |
| Factors.DistanceApplies | src/chords.py:114-131 | adding `a.distance(b)` to `b` gives `a` with sorted keys, as the docstring promises |
| Factors.DistanceSymmetry | src/chords.py:114-135 | the distance from factors to themselves is empty; the two directions swap additions and removals and negate the shifts |
| Factors.ToIntervals | src/chords.py:81-86 | `to_intervals()` is sorted and holds one interval per factor, at that factor's degree and offset; it fails exactly when some factor makes no interval |
| Factors.MajorTriadIntervals | src/chords.py:54-56 | the default factors are root, major third and perfect fifth, with intervals 0, 4 and 7 |
| Names.InversionString | src/chords.py:370-373 | `_inv_string` is empty exactly in root position, and otherwise `/` followed by digits that read back as the inversion |
| Names.RarityOf | src/chords.py:411-413 | `rarity` succeeds exactly when the factors are registered and their name has a tier, and is a key error otherwise |
| AbstractChords.Sanitise | src/chords.py:252-261 | a bare count keeps its value; 3 and 4 become thirds and 6, 7 and 8 become fifths |
| AbstractChords.SanitiseDegrees | src/chords.py:252-261 | sanitising is `Interval(n, degree=3)` for 3 and 4 and `Interval(n, degree=5)` for 6 to 8 |
| AbstractChords.SanitiseDefault | src/chords.py:252-261 | away from 8 semitones the forced degree is the default one |
| AbstractChords.Cast | src/chords.py:250-265 | only a list of nothing but bare counts is sanitised; in a mixed list a bare count takes its default interval and an interval is kept |
| AbstractChords.FactorsFrom | src/chords.py:288-297 | the factors hold the root plus every degree of an interval whose width within the octave is new, at the offset of the interval that decides it; the keys are the root first, then the other degrees in the order of their first such interval |
| AbstractChords.FactorsFromRecovers | src/chords.py:288-297 | every ascending interval that decides its degree is rebuilt from its degree and its factor's offset |
| AbstractChords.FactorsFromDistinct | src/chords.py:288-297 | with no two intervals of one width within the octave or one degree, the factors hold exactly the root and the list's degrees |
| AbstractChords.ByDegree | src/chords.py:192 | `{i.extended_degree: i for i in xs}` holds every degree of the list, mapped to its last interval of that degree |
| AbstractChords.ByDegreeDistinct | src/chords.py:192 | with one interval per degree the dict keeps the list in order |
| AbstractChords.ToIntervalsDistinct | src/chords.py:81-86 | the intervals of a chord's factors have one extended degree each |
| AbstractChords.ResolveInversion | src/chords.py:321-340 | a degree of the chord becomes its place among the sorted degrees; a number must lie in 1..order − 1; nothing or 0 is root position; a note name only for a chord on a root; other types are type errors |
| AbstractChords.FactorsOf | src/chords.py:212-241 | nothing or a major name gives the major triad; a name gives the major triad plus its qualifiers; factors are taken as given; an interval list is read into factors |
| AbstractChords.FromIntervals | src/chords.py:242-262 | an interval list is cast, refused when unsorted or empty, padded with a unison below, refused with repeated values, and read into factors |
| AbstractChords.ParseInput | src/chords.py:202-342 | the parsed factors are valid, the intervals from the root sorted; without an interval list they are the factors' intervals; the inversion resolves as `ResolveInversion` says |
| AbstractChords.DetermineQuality | src/chords.py:344-364 | no third: the fifth's quality; a major third over an augmented fifth is augmented, a minor third over a diminished fifth diminished; otherwise the third's quality; a missing factor interval is a key error |
| AbstractChords.Build | src/chords.py:186-197 | a built chord is well-built; unless its intervals were given, its root intervals are those of its factors; its inversion is the one the inversion argument resolves to; a note-name or other-typed inversion argument succeeds only with a degree the factors hold |
| AbstractChords.Invert | src/chords.py:507-510 | `invert` keeps the factors and resolves the new inversion against them |
| AbstractChords.InvertTwice | src/chords.py:507-510 | inverting twice equals inverting once |
| AbstractChords.InvertPosition | src/chords.py:507-510 | inverting to 0 gives root position; inverting to `n` puts the `n`-th interval at the bass |
| AbstractChords.ContainsMember | src/chords.py:600-607 | an interval is looked up by value among the inverted intervals, and anything other than an interval or an integer degree is a type error |
| AbstractChords.ContainsDegree | src/chords.py:600-607 | a chord built from factors contains a degree exactly when one of its intervals from the root has it |
| AbstractChords.InvertedContainsUnison | src/chords.py:600-607 | every inverted chord contains the unison, its bass |
| AbstractChords.EqualResolveAlike | src/chords.py:609-614 | equal chords resolve every inversion argument alike |
| AbstractChords.EqualInvertAlike | src/chords.py:507-614 | equal chords invert to equal chords |
| AbstractChords.SuffixLookup | src/chords.py:378-401 | the lookup fails only with a debugger break or a type error; a name not found under the factors means neither table keys the chord; finding nothing means the factors are unnamed and are not the major triad |
| AbstractChords.GetSuffixAsWritten | src/chords.py:378-407 | as written, the suffix fails exactly when the lookup fails or finds nothing, and finding nothing reads the never-set `assigned_name` |
| AbstractChords.GetSuffix | src/chords.py:378-407 | the suffix fails exactly when the lookup does; a chord named by its factors gets that name plus the inversion string; an unnamed chord gets `(?)` plus the inversion string |
| AbstractChords.SuffixReadingsAgree | src/chords.py:378-407 | both readings agree wherever the written one succeeds; they part exactly where it reads the missing attribute |
| AbstractChords.UnnamedChordSuffix | src/chords.py:400-407 | with empty tables, any chord other than the major triad reaches the missing attribute as written |
| AbstractChords.SuffixSplits | src/chords.py:370-384 | the suffix without the inversion is a prefix of the suffix with it, and the rest reads back as the inversion |
| AbstractChords.Likelihood | src/chords.py:415-422 | the likelihood in hundredths is at most 100, at most 85 when inverted, at least 15 for tiers up to 7, and a key error for unregistered factors |
| AbstractChords.LikelihoodOrder | src/chords.py:415-422 | likelihood falls exactly as rarity rises, and an inversion costs exactly 15 hundredths |
| Chords.Place | src/chords.py:766-867 | root position puts the root in the bass; position `n` puts the `n`-th root note in the bass at its degree; a bass note of the chord gives its degree's place among the sorted degrees; a foreign bass is refused |
| Chords.ThirdQuality | src/chords.py:714-715 | a chord's quality is its third's, perfect without a third, and a key error when the third has no interval |
| Chords.QualitiesAgree | src/chords.py:344-364 | a chord and its abstract chord agree on major-ish and minor-ish; they differ only over an augmented or diminished fifth |
| Chords.BuildChord | src/chords.py:627-718 | a chord on a root keeps its invariants; in root position its bass is the root, its intervals are the root intervals and its notes are the root notes, one per extended degree; inverted, its bass is the inverted factor's note and each note lies its interval above the bass |
| Chords.OnFactors | src/chords.py:1083-1086 | a chord from factors on a root at position `n` keeps both; its bass is the root or the `n`-th root note |
| Chords.OnRoot | src/chords.py:512-514 | `on_root` keeps the factors and inversion on the new root |
| Chords.OnRootKeepsShape | src/chords.py:512-514 | placed on a root, an abstract chord keeps its intervals, inverted and from the root |
| Chords.OnBass | src/chords.py:516-525 | `on_bass` in root position is `on_root`; otherwise the root lies the inverted factor's interval below the requested bass |
| Chords.OnBassBass | src/chords.py:516-525 | a chord placed on a bass has that bass |
| Chords.OnFactorsBass | src/chords.py:780-783 | at a position other than the root, the bass is that position's interval above the root |
| Chords.PlusSemitones | src/chords.py:556-559 | `chord + n` keeps the factors, moves the root up by `n` and returns to root position |
| Chords.MinusSemitones | src/chords.py:577-579 | `chord - n` keeps the factors and the inversion and moves the root down by `n` |
| Chords.TransposeRoundTrip | src/chords.py:556-579 | `(chord + n) - n` is the chord's factors in root position on its own root |
| Chords.ContainsChord | src/chords.py:967-978 | a note is looked up among the chord's notes, a degree among its factors, and anything other than an interval, degree or note is a type error |
| Chords.IntervalSoundsNote | src/chords.py:967-976 | every interval the chord contains sounds a note of the chord that far above the bass |
| Chords.NotesAligned | src/chords.py:949-952 | each note lies its interval above the bass in every inverted chord and in every chord with one interval per extended degree |
| Chords.RootNotesOnePerDegree | src/chords.py:700-707 | root notes are one per extended degree: two thirds above a root leave only the later one's note, so the chord holds an interval that sounds none of its notes |
| Chords.EqualTransposeAlike | src/chords.py:980-985 | equal chords transpose to equal chords |
| Chords.ReflectBack | src/chords.py:1020-1034 | lowering the third and raising it back restores the factors |
| Chords.Reflected | src/chords.py:1020-1023 | the new factors need a third and are a key error without one |
| Chords.ParallelMinor | src/chords.py:1046-1054 | only a major-ish chord has a parallel minor: same root and inversion, third one lower, altered fifth negated |
| Chords.ParallelMajor | src/chords.py:1056-1064 | only a minor-ish chord has a parallel major: same root and inversion, third one higher, altered fifth negated |
| Chords.RelativeMinor | src/chords.py:1015-1024 | only a major chord has a relative minor: root three semitones lower, third one lower |
| Chords.RelativeMajor | src/chords.py:1026-1035 | only a minor chord has a relative major: root three semitones higher, third one higher |
| Chords.Parallel | src/chords.py:1066-1073 | only a major or minor chord with a third has a parallel; it keeps the root and inversion, moves the third a semitone towards the other quality and turns an altered fifth the other way |
| Chords.Relative | src/chords.py:1037-1044 | only a major or minor chord with a third has a relative; it keeps the inversion, moves the root three semitones down from a major chord and up from a minor one, and moves the third a semitone towards the other quality |
| Chords.ParallelRoundTrip | src/chords.py:1046-1064 | going to the parallel minor and back rebuilds the chord's factors on its root at its inversion |
| Chords.RelativeRoundTrip | src/chords.py:1015-1035 | going to the relative minor and back rebuilds the chord's factors on its root at its inversion |
| Chords.RelativeMajorRoundTrip | src/chords.py:1015-1035 | going to the relative major and back rebuilds the chord's factors on its root at its inversion |
| Chords.ParallelTwice | src/chords.py:1066-1073 | the parallel of the parallel, when it lands on the other quality, rebuilds the chord's factors on its root at its inversion |
| Chords.RelativeTwice | src/chords.py:1037-1044 | the relative of the relative, when it lands on the other quality, rebuilds the chord's factors on its root at its inversion |
| RarityTable.Reverse | src/chords.py:1181 | reading a listing into a dict keys exactly the listed names |
| RarityTable.ReverseLast | src/chords.py:1181 | a name ends with the tier of its last listing |
| RarityTable.ReverseHighest | src/chords.py:1252 | when tiers never fall along the listing, a name ends at the highest tier it is listed at |
| RarityTable.ListingOrdered | src/chords.py:1247-1249 | the extended table, read tier by tier, never falls in tier |
| RarityTable.Rarities | src/chords.py:1247-1252 | every name of the extended table has a rarity at least its tier, and only those names have one; each rarity is a tier from 0 to 7 that the name is listed at |
| RegistryBuild.BaseStep | src/chords.py:1188-1196 | a base chord is registered under both keys when neither is taken, and skipped otherwise; the skip's log line is a key error when only its factors are taken |
| RegistryBuild.BaseLoop | src/chords.py:1185-1196 | the first loop never replaces a name and adds no name to the tier lists |
| RegistryBuild.BaseLoopProvenance | src/chords.py:1185-1196 | every factors key the first loop adds names a table chord with those factors |
| RegistryBuild.BaseLoopCoherent | src/chords.py:1185-1196 | over chords whose intervals their factors give, the first loop succeeds and keys every factors under its intervals too |
| RegistryBuild.BlockedStaysOut | src/chords.py:1192-1196 | factors whose interval key another chord holds are never keyed later |
| RegistryBuild.FirstWins | src/chords.py:1192-1196 | the first registrant wins: a factors key names the first table chord with those factors |
| RegistryBuild.BaseLoopListed | src/chords.py:1185-1196 | every name the first loop keys is a name of the table |
| RegistryBuild.TryRegister | src/chords.py:1215-1220 | modified factors are registered under both keys only when neither is taken; factors that make no intervals fail |
| RegistryBuild.ModifyOnce | src/chords.py:1206-1245 | one modifier, when it applies and its chord is new, registers base name + modifier name at base tier + modifier tier; with the second-level loop as written, that chord is the only factors the step keys |
| RegistryBuild.ModifyAll | src/chords.py:1198-1245 | the second loop never replaces a name, keeps every registered factors keyed under its intervals by the same name, and lists every name it adds at a tier; as written, every factors it adds is a chord of the table with one modifier added |
| RegistryBuild.SecondStep | src/chords.py:1228-1245 | a second step never replaces a name, keeps the tables coherent, lists every name it adds, and changes nothing when the second modifier is the first |
| RegistryBuild.SecondStepRegisters | src/chords.py:1228-1245 | such a second modifier registers its chord under the joined name, listed in tier 7 |
| RegistryBuild.SecondLevelAsWritten | src/chords.py:1228-1231 | as written, a second-level loop that finishes leaves the tables as they were |
| RegistryBuild.SecondLevelAsWrittenAddsNothing | src/chords.py:1228-1231 | as written, the second-level loop never registers anything |
| RegistryBuild.SecondLevel | src/chords.py:1228-1245 | the intended second-level loop never replaces a name, keeps the tables coherent, and lists every name it adds |
| RegistryBuild.SecondLevelDiffers | src/chords.py:1228-1245 | for any tables and two distinct modifiers where the second applies to the once-modified chord and its keys are free, the intended loop registers the doubly modified chord and the written one leaves the tables unchanged |
| RegistryBuild.Stages | src/chords.py:1184-1245 | after both loops, under either reading of the second-level loop, every tier that received new names is one of 0..7 |
| RegistryBuild.StagesProvenance | src/chords.py:1184-1245 | as written, every factors both loops key is a chord of the table or one with a single modifier added |
| RegistryBuild.Build | src/chords.py:1177-1252 | the registry as written: every registered factors is a chord of the table or one with a single modifier added; every registered name is a base name or a new name; when every base chord's intervals are its factors' intervals, every registered factors is keyed under its intervals by the same name; when every base tier is 0..7, every registered chord has a rarity |
| RegistryBuild.BuildIntended | src/chords.py:1228-1245 | the registry with the intended second-level loop: every registered name is a base name or a new name; factors and interval keys agree by name when every base chord's intervals are its factors'; with base tiers in 0..7 every registered chord has a rarity |
| RegistryBuild.StagesCoherent | src/chords.py:1185-1245 | when every base chord's intervals are its factors' intervals, the finished tables key every factors under its intervals by the same name |
| RegistryBuild.StagesListed | src/chords.py:1185-1249 | after both loops every registered name is a base name or a listed new name |
| RegistryBuild.StagesRarities | src/chords.py:1247-1252 | when every base tier is 0..7, every name in the finished tables has a rarity |
| Matcher.Search | src/chords.py:1280-1325 | a chord is a key of the candidates dict exactly when some trial keeps it |
| Matcher.SearchKeepsLast | src/chords.py:1321-1325 | a kept chord ends with the scores of the last trial that kept it |
| Matcher.Insert | src/chords.py:1328-1333 | inserting into ranked entries keeps them ranked and adds only the new entry |
| Matcher.InsertStable | src/chords.py:1328-1333 | inserting keeps the entries of each score in order, the new one last |
| Matcher.Sort | src/chords.py:1328-1333 | the sort ranks entries highest first by recall, precision, likelihood, consonance |
| Matcher.SortPermutes | src/chords.py:1328-1333 | sorting permutes the entries |
| Matcher.SortDistinct | src/chords.py:1328-1333 | sorting keeps one entry per chord |
| Matcher.SortStable | src/chords.py:1328-1333 | the sort is stable, as Python's is: entries with equal scores keep their order |
| Matcher.Truncate | src/chords.py:1333 | `[:n]` keeps a prefix of the entries: `n` of them, or all but the last `-n` for negative `n`, bounded by the length |
| Matcher.RankEntries | src/chords.py:1328-1333 | every ranked entry is an entry of the dict, no chord twice, as many as `[:n]` keeps |
| Matcher.RankTop | src/chords.py:1328-1333 | nothing the cut leaves out ranks above anything it keeps |
| Matcher.Matching | src/chords.py:1264-1378 | the matches come out ranked highest first by recall, then precision, likelihood and consonance; each is the candidate of a trial that reaches the minimums, which default to 0.8 recall, 0.7 precision and 0.5 likelihood |
| Matcher.MatchingKept | src/chords.py:1264-1378 | each match is a kept candidate, once, with the stored scores of its last keeping trial; as many as `[:max_results]` keeps; no kept candidate left out ranks above one shown |
| Matcher.MostLikely | src/chords.py:1380-1395 | `most_likely_chord` fails only with an index error |
| Matcher.MostLikelyBest | src/chords.py:1380-1395 | the most likely chord is kept, carries its stored scores, and nothing kept ranks above it; it is missing exactly when nothing is kept or the cut keeps nothing |

## Left out

- Factors.Apply: `ChordQualifier.apply` lives in a module outside this model. It is taken to remove the listed degrees, then shift each remaining listed degree, then add the new degrees at the end. Every result about qualifier addition rests on that order.
- Qualities.FromOffset and Qualities.OffsetOf: the quality tables `from_offset_wrt_perfect`/`_major` and `offset_wrt_perfect`/`_major` live outside this model. They are modelled as the usual mapping: 0 is perfect or major, −1 is minor, and larger offsets are augmented or diminished by one per semitone.
- Qualifier validity (`valid_on`) and the "indeterminate" flag of a modifier are parameters of the registry build (`Ops.validOn`, `indeterminate`). Their code is outside this model.
  - `modifier in ind_modifiers` compares a qualifier object with strings. Its outcome is taken to be that flag.
  - `base_chord.quality.minor` is read as the `Minor` quality.
- The qualifier history that `ChordFactors` carries (src/chords.py:63-66, 112) is dropped. It affects neither equality nor hashing.
- Re-casting an `Interval` from another interval (src/intervals.py:14-19) is not modelled. The model builds intervals from values only.
- IntervalLists.Rotate: `util.rotate_list` is outside this model. It is taken to be `xs[k:] + xs[:k]` with `k` reduced modulo the length.
- Intervals.Gcd: `util.euclidean_gcd` (src/intervals.py:3, 102) lives outside this model. The model defines its own Euclidean `Gcd`, and `Intervals.GcdGreatest` proves it is the greatest common divisor.
- Intervals.ComparisonFacts: covers ordering between two intervals only. `__le__` and `__gt__` (src/intervals.py:295-296, 306-307) return `other >= self` and `other < self`; with an integer `other`, Python's reflected call lands back in the same method, so `Interval(3) <= 5` and `Interval(3) > 5` recurse until the interpreter's recursion limit. Comparing an interval with an integer by `<=` or `>` is therefore not modelled.
- RarityTable.Reverse: `util.unpack_and_reverse_dict` is outside this model. It is taken to let the last listing of a name win.
- Name parsing (`parse_chord_qualifiers`, `note_split`, `_reparse_args`, slash-chord names) is not modelled. A name is given as the qualifiers it denotes (`AbstractChords.Source`).
- Base chords of the registry are given already built (`RegistryBuild.BaseChord`): parsing `AbstractChord(chord_name)` needs the name parser.
- The search for a more common inversion of a given interval list (`inversions_from_intervals`, src/chords.py:264-278, 475-486) is not modelled. `AbstractChords.FromIntervals` reads the list as given.
- Consonance (`Interval.consonance`, `AbstractChord.consonance`) is left out because it uses logarithms and floating-point rescaling. The matcher takes it as a given score.
- `precision_recall`, candidate generation over every note and name, and the third/fifth weights of `matching_chords` are left out. They need note arithmetic and `util` code outside this model, so the matcher takes a sequence of trials with their scores as given.
- AbstractChords.Likelihood: computed in integer hundredths rather than as a float. This is exact for the values the source can produce.
- Matcher.Stored: Python's `round` is a parameter (`Rounding`), and the scores are reals.
- String rendering is left out: `name`, `short_name`, `factor_name`, `__str__`, `__repr__` and the matcher's printed table. It depends on naming tables outside this model.
- `__hash__` of intervals, factors and chords is not modelled. Lookups use the model's keys instead (`Names`).
- Re-initialising a chord over a bass note that is not in it (src/chords.py:789-843) is not modelled. It recursively re-runs the constructor and the matcher with no bound; `Chords.Place` returns an error there.
- Chord + Chord, Chord + Note, Chord − Note and Chord − Chord are left out. They build chord lists or note lists from modules outside this model, or are unimplemented.
- Chords.IntervalSoundsNote: requires each note to lie its interval above the bass. `Chords.NotesAligned` proves this for every inverted chord and every chord with one interval per extended degree. In root position a chord's notes are its root notes, one per extended degree (src/chords.py:700-707, 772-775). So a chord whose intervals from the root hold two intervals of one degree contains an interval that sounds none of its notes (`Chords.RootNotesOnePerDegree`), and the check at src/chords.py:952 fails on it.
- `Chord.invert` is `Chords.BuildChord` on the chord's factors and root. `Chord.abstract` is `AbstractChords.Build` on its factors. Neither has a separate member.
- Sharp/flat spelling preference, notes and octaves are left out. Notes are pitch classes 0..11, and the relative minor's root is three semitones below (the source reads it from a table).
- `ChordVoicing`, the audio wrappers and the earlier root-level `chords.py` are not part of this model.
- A typo cannot run: `mod2_name` at src/chords.py:1235 is never assigned, and the branch is unreachable as written (see Findings). The intended loop names the chord after the modifier it is at. `RegistryBuild.Build` runs the loop as written; `RegistryBuild.BuildIntended` runs the intended one.

## Findings

| source | as written | input that shows it | evidently intended | confidence | as-written member | corrected member |
|---|---|---|---|---|---|---|
| src/chords.py:1228-1231 | the second modifier is fetched by the first modifier's name, so `modifier2 is not modifier` is always false and the second-level loop registers nothing | two modifiers where the second applies to the once-modified chord and makes a new chord (any tables and modifiers meeting the requirements of `SecondLevelDiffers`) | fetch the second modifier by `mod_name2` and register the doubly modified chord in tier 7 | not executed | RegistryBuild.SecondLevelAsWritten | RegistryBuild.SecondLevel |
| src/chords.py:400-407 | a chord no table names falls through to `self.assigned_name`, which is never set, so `get_suffix` raises an attribute error instead of returning the placeholder | with empty tables, any chord other than the major triad whose intervals flatten (`UnnamedChordSuffix`) | return the `(?)` placeholder plus the inversion string | not executed | AbstractChords.GetSuffixAsWritten | AbstractChords.GetSuffix |

=== FILE: abstract_chords.dfy ===
/** Abstract chords: chords on no particular root, identified by their
    factors and inversion, with their intervals from the root, their
    intervals in inverted position and their quality. */
module AbstractChords {
  import opened Errors
  import opened Qualities
  import opened Intervals
  import opened IntervalLists
  import opened Factors
  import opened Names
  import Dicts

  // ---------------------------------------------------------------------------
  // Interval-list input

  /** An item of an interval-list argument: a bare semitone count or an
      interval. */
  datatype Item = Semitones(n: int) | Given(i: Interval)

  predicate ItemsWellFormed(items: seq<Item>) {
    forall k :: 0 <= k < |items| ==> items[k].Given? ==> WellFormed(items[k].i)
  }

  predicate AllSemitones(items: seq<Item>) {
    forall k :: 0 <= k < |items| ==> items[k].Semitones?
  }

  /** The interval a bare semitone count stands for in a list of bare counts:
      three and four semitones are thirds, six to eight semitones are
      fifths, and every other count takes its default degree. */
  function Sanitise(n: int): (r: Interval)
    ensures WellFormed(r) && r.value == n
  {
    if n == 3 || n == 4 then Interval(n, 0, n, 3, 3)
    else if 6 <= n <= 8 then Interval(n, 0, n, 5, 5)
    else FromValue(n)
  }

  /** Sanitising is `Interval(n, degree=3)` for thirds and
      `Interval(n, degree=5)` for fifths; eight semitones, whose default
      degree is a sixth, become a fifth. */
  lemma SanitiseDegrees(n: int)
    ensures (n == 3 || n == 4) ==> WithDegree(n, 3) == Ok(Sanitise(n))
    ensures 6 <= n <= 8 ==> WithDegree(n, 5) == Ok(Sanitise(n))
  {
    if n == 3 || n == 4 {
      SanitiseForced(n, 3);
    } else if 6 <= n <= 8 {
      SanitiseFifth(n);
    }
  }

  /** Away from eight semitones sanitising changes nothing: the forced
      degrees are the default ones. */
  lemma SanitiseDefault(n: int)
    requires n != 8
    ensures Sanitise(n) == FromValue(n)
  {
    if n == 3 || n == 4 {
      SanitiseForced(n, 3);
    } else if 6 <= n <= 7 {
      SanitiseForced(n, 5);
    }
  }

  lemma SanitiseForced(n: int, d: int)
    requires (d == 3 && 3 <= n <= 4) || (d == 5 && 6 <= n <= 7)
    ensures Sanitise(n) == Interval(n, 0, n, d, d)
    ensures WithDegree(n, d) == Ok(Sanitise(n)) && Sanitise(n) == FromValue(n)
  {
    var i := Interval(n, 0, n, d, d);
    Rebuild(i);
    DefaultFromValue(i);
  }

  lemma SanitiseFifth(n: int)
    requires 6 <= n <= 8
    ensures Sanitise(n) == Interval(n, 0, n, 5, 5) && WithDegree(n, 5) == Ok(Sanitise(n))
    ensures QualityOf(Sanitise(n)) == if n == 6 then Diminished(0) else if n == 7 then Perfect else Augmented(0)
  {
    Rebuild(Interval(n, 0, n, 5, 5));
  }

  /** `IntervalList(items)` after the bare-count sanitising: only a list of
      nothing but bare counts is sanitised; in a mixed list every bare count
      takes its default interval. */
  function Cast(items: seq<Item>): (xs: seq<Interval>)
    requires ItemsWellFormed(items)
    ensures |xs| == |items| && AllWellFormed(xs)
    ensures forall k :: 0 <= k < |items| && items[k].Given? ==> xs[k] == items[k].i
    ensures AllSemitones(items) ==> forall k :: 0 <= k < |items| ==> xs[k] == Sanitise(items[k].n)
    ensures !AllSemitones(items) ==>
              forall k :: 0 <= k < |items| && items[k].Semitones? ==> xs[k] == FromValue(items[k].n)
  {
    var all := AllSemitones(items);
    seq(|items|, k requires 0 <= k < |items| =>
      match items[k]
      case Semitones(n) => if all then Sanitise(n) else FromValue(n)
      case Given(i) => i)
  }

  // ---------------------------------------------------------------------------
  // Factors read from intervals

  /** No earlier interval of the list has the same width within the octave. */
  predicate FreshMod(xs: seq<Interval>, k: int)
    requires 0 <= k < |xs|
  {
    forall j :: 0 <= j < k ==> xs[j].mod != xs[k].mod
  }

  /** The interval at `k` sets its degree's offset last: it is fresh, and no
      later fresh interval has the same extended degree. */
  predicate Decides(xs: seq<Interval>, k: int)
    requires 0 <= k < |xs|
  {
    && FreshMod(xs, k)
    && forall j :: k < j < |xs| && FreshMod(xs, j) ==> xs[j].extDegree != xs[k].extDegree
  }

  /** Some fresh interval of the list has extended degree `d`. */
  predicate Records(xs: seq<Interval>, d: int) {
    exists k :: 0 <= k < |xs| && FreshMod(xs, k) && xs[k].extDegree == d
  }

  /** The factors summarise the list: the root plus the degree of every fresh
      interval, each at the offset of the fresh interval that decides it,
      and the root at no offset unless an interval decides it. */
  ghost predicate Summarises(xs: seq<Interval>, f: Factors)
    requires AllWellFormed(xs)
  {
    && Valid(f) && f.order != [] && f.order[0] == 1
    && (forall d :: d in f.offsets ==> d == 1 || Records(xs, d))
    && (forall d :: Records(xs, d) ==> d in f.offsets)
    && 1 in f.offsets
    && (forall k :: 0 <= k < |xs| && Decides(xs, k) ==> f.offsets[xs[k].extDegree] == OffsetFromDefault(xs[k]))
    && (!Records(xs, 1) ==> f.offsets[1] == 0)
  }

  /** The interval at `k` is the first fresh one of extended degree `d`. */
  predicate FirstRecords(xs: seq<Interval>, d: int, k: int) {
    && 0 <= k < |xs| && FreshMod(xs, k) && xs[k].extDegree == d
    && forall j :: 0 <= j < k && FreshMod(xs, j) ==> xs[j].extDegree != d
  }

  /** After the root, the degrees come in the order of their first fresh
      intervals. */
  ghost predicate InFirstOrder(xs: seq<Interval>, order: seq<int>) {
    forall i, j, ki, kj :: 1 <= i < j < |order| && FirstRecords(xs, order[i], ki) && FirstRecords(xs, order[j], kj) ==> ki < kj
  }

  /** `factors[d] = o` on an ordered factors dict. */
  function SetFactor(f: Factors, d: int, o: int): (r: Factors)
    requires Valid(f)
    ensures Valid(r) && r.offsets == f.offsets[d := o]
    ensures d in f.offsets ==> r.order == f.order
    ensures d !in f.offsets ==> r.order == f.order + [d]
  {
    if d in f.offsets then Factors(f.order, f.offsets[d := o])
    else
      assert forall i :: 0 <= i < |f.order| ==> f.order[i] in f.order;
      Factors(f.order + [d], f.offsets[d := o])
  }

  /** The factors loop over an interval list: start from the root alone and
      let every interval whose width within the octave has not been seen
      set its extended degree to its offset from the default size; later
      octave equivalents are ignored. */
  function FactorsFrom(xs: seq<Interval>): (f: Factors)
    requires AllWellFormed(xs)
    ensures Summarises(xs, f)
    ensures InFirstOrder(xs, f.order)
    decreases |xs|
  {
    if xs == [] then Factors([1], map[1 := 0])
    else
      var init := xs[..|xs| - 1];
      var x := xs[|xs| - 1];
      assert xs == init + [x];
      var f := FactorsFrom(init);
      if !FreshMod(xs, |xs| - 1) then
        FactorsSeen(init, x, f);
        OrderAppend(init, x, f, f);
        f
      else
        var r := SetFactor(f, x.extDegree, OffsetFromDefault(x));
        FactorsFresh(init, x, f, r);
        OrderAppend(init, x, f, r);
        r
  }

  /** Appending an interval keeps the first fresh intervals of the earlier
      list, and the new one is first only for a degree not yet recorded. */
  lemma FirstRecordsAppend(init: seq<Interval>, x: Interval)
    ensures forall d, k :: 0 <= k < |init| ==> (FirstRecords(init + [x], d, k) <==> FirstRecords(init, d, k))
    ensures forall d :: FirstRecords(init + [x], d, |init|) ==> !Records(init, d)
  {
    var xs := init + [x];
    FreshPrefix(init, x);
    assert forall k :: 0 <= k < |init| ==> xs[k] == init[k];
    forall d | FirstRecords(xs, d, |init|) ensures !Records(init, d) {
      assert forall k :: 0 <= k < |init| && FreshMod(init, k) ==> init[k].extDegree != d;
    }
  }

  /** The key order stays the order of first fresh intervals when an
      interval is appended: unchanged, or extended by a degree recorded for
      the first time. */
  lemma OrderAppend(init: seq<Interval>, x: Interval, f: Factors, r: Factors)
    requires AllWellFormed(init) && Summarises(init, f) && InFirstOrder(init, f.order)
    requires r.order == f.order || (x.extDegree !in f.offsets && r.order == f.order + [x.extDegree])
    ensures InFirstOrder(init + [x], r.order)
  {
    var xs := init + [x];
    FirstRecordsAppend(init, x);
    forall i, j, ki, kj | 1 <= i < j < |r.order| && FirstRecords(xs, r.order[i], ki) && FirstRecords(xs, r.order[j], kj)
      ensures ki < kj
    {
      OrderedRecorded(init, f, i);
      assert r.order[i] == f.order[i];
      if j < |f.order| {
        OrderedRecorded(init, f, j);
        assert r.order[j] == f.order[j];
      } else {
        assert r.order[j] == x.extDegree && !Records(init, x.extDegree);
        assert forall k :: 0 <= k < |init| && FreshMod(init, k) ==> init[k].extDegree != x.extDegree;
      }
    }
  }

  /** Every key after the root is a recorded degree. */
  lemma OrderedRecorded(xs: seq<Interval>, f: Factors, i: int)
    requires AllWellFormed(xs) && Summarises(xs, f) && 1 <= i < |f.order|
    ensures Records(xs, f.order[i])
  {
    assert f.order[0] != f.order[i];
  }

  /** Appending an interval keeps freshness of the earlier ones. */
  lemma FreshPrefix(init: seq<Interval>, x: Interval)
    ensures forall k :: 0 <= k < |init| ==> (FreshMod(init + [x], k) <==> FreshMod(init, k))
  {
    var xs := init + [x];
    assert forall k :: 0 <= k < |init| ==> xs[k] == init[k];
  }

  /** Appending an interval whose width was seen records nothing new. */
  lemma RecordsSeen(init: seq<Interval>, x: Interval)
    requires !FreshMod(init + [x], |init|)
    ensures forall d :: Records(init + [x], d) <==> Records(init, d)
    ensures forall k :: 0 <= k < |init| ==> (Decides(init + [x], k) <==> Decides(init, k))
  {
    var xs := init + [x];
    FreshPrefix(init, x);
    assert forall k :: 0 <= k < |init| ==> xs[k] == init[k];
    forall d | Records(xs, d)
      ensures Records(init, d)
    {
      var k :| 0 <= k < |xs| && FreshMod(xs, k) && xs[k].extDegree == d;
      assert k < |init|;
    }
    forall d | Records(init, d)
      ensures Records(xs, d)
    {
      var k :| 0 <= k < |init| && FreshMod(init, k) && init[k].extDegree == d;
      assert FreshMod(xs, k) && xs[k].extDegree == d;
    }
  }

  /** Appending a fresh interval records its degree, and it decides its
      degree in place of any earlier interval. */
  lemma RecordsFresh(init: seq<Interval>, x: Interval)
    requires FreshMod(init + [x], |init|)
    ensures forall d :: Records(init + [x], d) <==> Records(init, d) || d == x.extDegree
    ensures Decides(init + [x], |init|)
    ensures forall k :: 0 <= k < |init| ==>
              (Decides(init + [x], k) <==> Decides(init, k) && init[k].extDegree != x.extDegree)
  {
    var xs := init + [x];
    FreshPrefix(init, x);
    assert forall k :: 0 <= k < |init| ==> xs[k] == init[k];
    forall d | Records(xs, d) && d != x.extDegree
      ensures Records(init, d)
    {
      var k :| 0 <= k < |xs| && FreshMod(xs, k) && xs[k].extDegree == d;
      assert k < |init|;
    }
    forall d | Records(init, d)
      ensures Records(xs, d)
    {
      var k :| 0 <= k < |init| && FreshMod(init, k) && init[k].extDegree == d;
      assert FreshMod(xs, k) && xs[k].extDegree == d;
    }
    assert Records(xs, x.extDegree);
  }

  lemma FactorsSeen(init: seq<Interval>, x: Interval, f: Factors)
    requires AllWellFormed(init + [x]) && AllWellFormed(init)
    requires !FreshMod(init + [x], |init|)
    requires Summarises(init, f)
    ensures Summarises(init + [x], f)
  {
    RecordsSeen(init, x);
    var xs := init + [x];
    assert forall k :: 0 <= k < |init| ==> xs[k] == init[k];
  }

  lemma FactorsFresh(init: seq<Interval>, x: Interval, f: Factors, r: Factors)
    requires AllWellFormed(init + [x]) && AllWellFormed(init) && WellFormed(x)
    requires FreshMod(init + [x], |init|)
    requires Summarises(init, f)
    requires Valid(r) && r.offsets == f.offsets[x.extDegree := OffsetFromDefault(x)]
    requires r.order == f.order || r.order == f.order + [x.extDegree]
    ensures Summarises(init + [x], r)
  {
    RecordsFresh(init, x);
    var xs := init + [x];
    assert forall k :: 0 <= k < |init| ==> xs[k] == init[k];
    assert r.order[0] == 1;
  }

  /** The factors read from an interval list give back, degree by degree,
      every ascending interval that decides its degree. */
  lemma FactorsFromRecovers(xs: seq<Interval>, k: int)
    requires AllWellFormed(xs) && 0 <= k < |xs| && Decides(xs, k) && xs[k].value >= 0
    ensures IntervalOf(FactorsFrom(xs).offsets, xs[k].extDegree, xs[k])
  {
    FromDegreeRecovers(xs[k]);
  }

  /** In a list with no two intervals of one width within the octave and no
      two of one extended degree, every interval decides its degree, so the
      factors hold exactly the root and the list's degrees. */
  lemma FactorsFromDistinct(xs: seq<Interval>)
    requires AllWellFormed(xs)
    requires forall i, j :: 0 <= i < j < |xs| ==> xs[i].mod != xs[j].mod && xs[i].extDegree != xs[j].extDegree
    ensures forall k :: 0 <= k < |xs| ==> FactorsFrom(xs).offsets[xs[k].extDegree] == OffsetFromDefault(xs[k])
    ensures forall d :: d in FactorsFrom(xs).offsets <==> d == 1 || exists k :: 0 <= k < |xs| && xs[k].extDegree == d
  {
    assert forall k :: 0 <= k < |xs| ==> Decides(xs, k);
    forall d | (exists k :: 0 <= k < |xs| && xs[k].extDegree == d)
      ensures Records(xs, d)
    {
      var k :| 0 <= k < |xs| && xs[k].extDegree == d;
      assert FreshMod(xs, k);
    }
  }

  // ---------------------------------------------------------------------------
  // Intervals keyed by degree

  predicate HasDegree(xs: seq<Interval>, d: int) {
    exists k :: 0 <= k < |xs| && xs[k].extDegree == d
  }

  /** No later interval has the same extended degree. */
  predicate LastOfDegree(xs: seq<Interval>, k: int)
    requires 0 <= k < |xs|
  {
    forall j :: k < j < |xs| ==> xs[j].extDegree != xs[k].extDegree
  }

  predicate DistinctDegrees(xs: seq<Interval>) {
    forall i, j :: 0 <= i < j < |xs| ==> xs[i].extDegree != xs[j].extDegree
  }

  /** The dict holds every extended degree of the list, mapped to the last
      interval with that degree, in the order the degrees first appear. */
  ghost predicate Keyed(xs: seq<Interval>, d: Dicts.Dict<int, Interval>) {
    && Dicts.Valid(d)
    && (forall e :: e in d.vals ==> HasDegree(xs, e))
    && (forall e :: HasDegree(xs, e) ==> e in d.vals)
    && (forall k :: 0 <= k < |xs| ==> xs[k].extDegree in d.vals)
    && (forall k :: 0 <= k < |xs| && LastOfDegree(xs, k) ==> d.vals[xs[k].extDegree] == xs[k])
  }

  /** `{i.extended_degree: i for i in xs}`. */
  function ByDegree(xs: seq<Interval>): (d: Dicts.Dict<int, Interval>)
    ensures Dicts.Valid(d)
    ensures forall e :: e in d.vals <==> HasDegree(xs, e)
    ensures forall k :: 0 <= k < |xs| ==> xs[k].extDegree in d.vals
    ensures forall k :: 0 <= k < |xs| && LastOfDegree(xs, k) ==> d.vals[xs[k].extDegree] == xs[k]
    decreases |xs|
  {
    if xs == [] then Dicts.Empty()
    else
      var d := ByDegree(xs[..|xs| - 1]);
      var r := Dicts.Put(d, xs[|xs| - 1].extDegree, xs[|xs| - 1]);
      ByDegreeStep(xs, d, r);
      r
  }

  lemma ByDegreeStep(xs: seq<Interval>, d: Dicts.Dict<int, Interval>, r: Dicts.Dict<int, Interval>)
    requires xs != [] && Keyed(xs[..|xs| - 1], d)
    requires Dicts.Valid(r) && r.vals == d.vals[xs[|xs| - 1].extDegree := xs[|xs| - 1]]
    ensures Keyed(xs, r)
  {
    HasDegreeStep(xs);
    var init := xs[..|xs| - 1];
    var n := |xs| - 1;
    forall k | 0 <= k < |xs|
      ensures xs[k].extDegree in r.vals
    {
      if k < n {
        assert init[k] == xs[k];
      }
    }
    forall k | 0 <= k < |xs| && LastOfDegree(xs, k)
      ensures r.vals[xs[k].extDegree] == xs[k]
    {
      if k < n {
        assert init[k] == xs[k];
        assert LastOfDegree(init, k);
      }
    }
  }

  /** The degrees of a list are those of all but its last interval and the
      last interval's. */
  lemma HasDegreeStep(xs: seq<Interval>)
    requires xs != []
    ensures forall e :: HasDegree(xs, e) <==> HasDegree(xs[..|xs| - 1], e) || e == xs[|xs| - 1].extDegree
  {
    var init := xs[..|xs| - 1];
    forall e | HasDegree(xs, e) && e != xs[|xs| - 1].extDegree
      ensures HasDegree(init, e)
    {
      var k :| 0 <= k < |xs| && xs[k].extDegree == e;
      assert init[k].extDegree == e;
    }
    forall e | HasDegree(init, e)
      ensures HasDegree(xs, e)
    {
      var k :| 0 <= k < |init| && init[k].extDegree == e;
      assert xs[k].extDegree == e;
    }
    assert HasDegree(xs, xs[|xs| - 1].extDegree);
  }

  /** With no two intervals of one extended degree the dict keeps the list:
      its keys are the degrees in list order and its values the list. */
  lemma {:induction false} ByDegreeDistinct(xs: seq<Interval>)
    requires DistinctDegrees(xs)
    ensures ByDegree(xs).keys == ExtDegrees(xs)
    ensures Dicts.Values(ByDegree(xs)) == xs
  {
    ByDegreeKeys(xs);
    var r := ByDegree(xs);
    forall k | 0 <= k < |xs|
      ensures r.vals[r.keys[k]] == xs[k]
    {
      assert LastOfDegree(xs, k);
    }
  }

  lemma {:induction false} ByDegreeKeys(xs: seq<Interval>)
    requires DistinctDegrees(xs)
    ensures ByDegree(xs).keys == ExtDegrees(xs)
  {
    if xs != [] {
      var init := xs[..|xs| - 1];
      assert DistinctDegrees(init);
      ByDegreeKeys(init);
      assert !HasDegree(init, xs[|xs| - 1].extDegree);
    }
  }

  /** The extended degrees of the list, in order. */
  function ExtDegrees(xs: seq<Interval>): (ds: seq<int>)
    ensures |ds| == |xs| && forall k :: 0 <= k < |xs| ==> ds[k] == xs[k].extDegree
  {
    if xs == [] then [] else ExtDegrees(xs[..|xs| - 1]) + [xs[|xs| - 1].extDegree]
  }

  /** The intervals of a chord's factors have one extended degree each. */
  lemma ToIntervalsDistinct(f: Factors)
    requires Valid(f) && ToIntervals(f).Ok?
    ensures DistinctDegrees(ToIntervals(f).value)
  {
    var each := DegreeIntervals(f.offsets, f.order).value;
    var r := ToIntervals(f).value;
    assert multiset(r) == multiset(each);
    if !DistinctDegrees(r) {
      var i, j :| 0 <= i < j < |r| && r[i].extDegree == r[j].extDegree;
      SameDegreeSameInterval(f, r, i, j);
      CountTwo(r, i, j);
      DegreeIntervalsDistinct(f);
      AtMostOnce(each, r[i]);
      assert false;
    }
  }

  /** Two intervals of a chord's factors at one degree are the same. */
  lemma SameDegreeSameInterval(f: Factors, r: seq<Interval>, i: int, j: int)
    requires Valid(f) && ToIntervals(f) == Ok(r)
    requires 0 <= i < |r| && 0 <= j < |r| && r[i].extDegree == r[j].extDegree
    ensures r[i] == r[j]
  {
    assert IntervalOf(f.offsets, r[i].extDegree, r[i]) && IntervalOf(f.offsets, r[j].extDegree, r[j]);
  }

  /** Each factor's interval is at that factor's degree. */
  lemma DegreeIntervalsDistinct(f: Factors)
    requires Valid(f) && DegreeIntervals(f.offsets, f.order).Ok?
    ensures DistinctDegrees(DegreeIntervals(f.offsets, f.order).value)
  {
    var each := DegreeIntervals(f.offsets, f.order).value;
    forall i, j | 0 <= i < j < |each|
      ensures each[i].extDegree != each[j].extDegree
    {
      assert IntervalOf(f.offsets, f.order[i], each[i]) && IntervalOf(f.offsets, f.order[j], each[j]);
    }
  }

  /** An interval at two places of a list is in it twice. */
  lemma CountTwo(r: seq<Interval>, i: int, j: int)
    requires 0 <= i < j < |r| && r[i] == r[j]
    ensures multiset(r)[r[i]] >= 2
  {
    assert r == r[..j] + r[j..];
    assert r[i] == r[..j][i];
    assert r[j] == r[j..][0];
  }

  /** In a list with one interval per degree no interval is there twice. */
  lemma {:induction false} AtMostOnce(xs: seq<Interval>, x: Interval)
    requires DistinctDegrees(xs)
    ensures multiset(xs)[x] <= 1
  {
    if xs != [] {
      var init := xs[..|xs| - 1];
      var last := xs[|xs| - 1];
      assert xs == init + [last];
      assert DistinctDegrees(init);
      AtMostOnce(init, x);
      if last == x {
        forall k | 0 <= k < |init|
          ensures init[k] != x
        {
          assert xs[k].extDegree != xs[|xs| - 1].extDegree;
        }
        assert x !in multiset(init);
      }
    }
  }

  // ---------------------------------------------------------------------------
  // Construction arguments

  /** The argument a chord is built from; the source's keyword arguments are
      mutually exclusive, so exactly one is given. */
  datatype Source =
    | NoArgument                         // nothing: the major triad
    | MajorName                          // the empty name or an alias of `maj`
    | QualifiedName(qs: seq<Qualifier>)  // any other name, as the qualifiers it names
    | GivenFactors(f: Factors)
    | GivenIntervals(items: seq<Item>)

  predicate ValidSource(src: Source) {
    match src
    case QualifiedName(qs) => forall k :: 0 <= k < |qs| ==> ValidQualifier(qs[k])
    case GivenFactors(f) => Valid(f)
    case GivenIntervals(items) => ItemsWellFormed(items)
    case _ => true
  }

  /** The `inversion` argument.  A string stands for the pitch class of the
      note it names; a value outside 0..11 stands for a string that names no
      note. */
  datatype InversionArg =
    | NoInversion
    | Number(n: int)
    | NoteName(pc: int)
    | OtherType

  /** A resolved inversion: a position in the chord, or (for a chord on a
      root) the pitch class of a bass note still to be placed. */
  datatype Resolved = AtPosition(index: nat) | OverNote(pc: int)

  /** The position of the first occurrence of `d` in `ds`. */
  function DegreeIndex(ds: seq<int>, d: int): (x: Option<nat>)
    ensures x.Some? ==> x.value < |ds| && ds[x.value] == d && forall j :: 0 <= j < x.value ==> ds[j] != d
    ensures x.None? ==> d !in ds
  {
    if ds == [] then None
    else if ds[0] == d then Some(0)
    else
      match DegreeIndex(ds[1..], d)
      case None => None
      case Some(x) => Some(x + 1)
  }

  /** Resolution of the `inversion` and `inversion_degree` arguments: a
      degree of the chord replaces the inversion by its place among the
      sorted degrees (an unknown degree leaves the inversion as it was); a
      number must then lie in 1..order-1, and nothing or zero means root
      position.  A note name is accepted only for a chord on a root, and
      any other type is a type error. */
  function ResolveInversion(f: Factors, inv: InversionArg, deg: Option<int>, allowNoteName: bool): (r: Result<Resolved>)
    requires Valid(f)
    ensures r.Ok? && r.value.AtPosition? ==> r.value.index < |f.order| || r.value.index == 0
    ensures r.Ok? && r.value.OverNote? ==> allowNoteName && 0 <= r.value.pc < 12
    ensures deg.Some? && deg.value in f.offsets ==>
              r.Ok? && r.value.AtPosition? && SortedDegrees(f)[r.value.index] == deg.value
    ensures (deg.None? || deg.value !in f.offsets) && inv.Number? && inv.n != 0 ==>
              (r.Ok? <==> 0 < inv.n < |f.order|) && (r.Ok? ==> r.value == AtPosition(inv.n))
    ensures (deg.None? || deg.value !in f.offsets) && inv.Number? && !(0 < inv.n < |f.order|) && inv.n != 0 ==>
              r == Err(InvalidInversion)
    ensures (deg.None? || deg.value !in f.offsets) && (inv.NoInversion? || inv == Number(0)) ==> r == Ok(AtPosition(0))
    ensures (deg.None? || deg.value !in f.offsets) && (inv.OtherType? || (inv.NoteName? && !allowNoteName)) ==>
              r == Err(WrongType)
  {
    var ds := SortedDegrees(f);
    var byDegree := if deg.Some? then DegreeIndex(ds, deg.value) else None;
    var chosen := if byDegree.Some? then Number(byDegree.value) else inv;
    match chosen
    case NoInversion => Ok(AtPosition(0))
    case Number(n) =>
      if n == 0 then Ok(AtPosition(0))
      else if 0 < n <= |f.order| - 1 then Ok(AtPosition(n))
      else Err(InvalidInversion)
    case NoteName(pc) =>
      if !allowNoteName then Err(WrongType)
      else if 0 <= pc < 12 then Ok(OverNote(pc))
      else Err(NotANoteName)
    case OtherType => Err(WrongType)
  }

  /** The factors a source names, and the interval list when the source is
      one. */
  function FactorsOf(src: Source): (r: Result<(Factors, Option<seq<Interval>>)>)
    requires ValidSource(src)
    ensures r.Ok? ==> Valid(r.value.0)
    ensures r.Ok? && r.value.1.Some? ==>
              src.GivenIntervals? && AllWellFormed(r.value.1.value) && DistinctValues(r.value.1.value)
              && Summarises(r.value.1.value, r.value.0)
    ensures r.Ok? && r.value.1.None? ==> !src.GivenIntervals?
    ensures src.GivenFactors? ==> r == Ok((src.f, None))
    ensures src.NoArgument? || src.MajorName? ==> r == Ok((MajorTriad, None))
    ensures src.QualifiedName? ==> r.Ok? && r.value.0 == Plus(MajorTriad, Several(src.qs)).value
  {
    MajorTriadContents();
    match src
    case NoArgument => Ok((MajorTriad, None))
    case MajorName => Ok((MajorTriad, None))
    case QualifiedName(qs) => Ok((Plus(MajorTriad, Several(qs)).value, None))
    case GivenFactors(f) => Ok((f, None))
    case GivenIntervals(items) =>
      var (f, padded) :- FromIntervals(items);
      Ok((f, Some(padded)))
  }

  /** An interval list as a chord argument: cast, padded with a unison
      below, checked for repeated values and read into factors. */
  function FromIntervals(items: seq<Item>): (r: Result<(Factors, seq<Interval>)>)
    requires ItemsWellFormed(items)
    ensures r.Ok? ==> AllWellFormed(r.value.1) && DistinctValues(r.value.1) && Summarises(r.value.1, r.value.0)
    ensures !Sorted(Cast(items)) ==> r == Err(NotSorted)
    ensures items == [] ==> r == Err(EmptyList)
    ensures r.Ok? ==> var cast := Cast(items);
                      Sorted(cast) && cast != [] && r.value.1 == Padding(cast[0].mod != 0, Unison) + cast
  {
    var cast := Cast(items);
    var padded :- Pad(cast, true, false);
    PadWellFormed(cast, true, false);
    assert padded == Padding(cast[0].mod != 0, Unison) + cast by {
      assert Padding(false, PadAbove(cast[|cast| - 1])) == [];
    }
    if !DistinctValues(padded) then Err(RepeatedIntervals)
    else Ok((FactorsFrom(padded), padded))
  }

  /** The parsed arguments: factors, intervals from the root in ascending
      order, and the resolved inversion. */
  datatype Parsed = Parsed(factors: Factors, rootIntervals: seq<Interval>, inversion: Resolved)

  /** `_parse_input`: the factors of the source, with the qualifiers applied
      after them; the interval list when one was given, otherwise the
      interval of every factor; the inversion resolved against the factors.
      The interval list is returned sorted. */
  function ParseInput(src: Source, quals: Option<Operand>, inv: InversionArg, deg: Option<int>, allowNoteName: bool)
    : (r: Result<Parsed>)
    requires ValidSource(src) && (quals.Some? ==> ValidOperand(quals.value))
    ensures r.Ok? ==> Valid(r.value.factors) && Sorted(r.value.rootIntervals) && AllWellFormed(r.value.rootIntervals)
    ensures r.Ok? && !src.GivenIntervals? ==> ToIntervals(r.value.factors) == Ok(r.value.rootIntervals)
    ensures r.Ok? && src.GivenIntervals? ==> DistinctValues(r.value.rootIntervals)
    ensures r.Ok? ==> ResolveInversion(r.value.factors, inv, deg, allowNoteName) == Ok(r.value.inversion)
    ensures r.Ok? && quals.None? ==> FactorsOf(src).Ok? && r.value.factors == FactorsOf(src).value.0
    ensures quals.Some? && (quals.value.SeveralWithStray? || quals.value.NotQualifier?) ==> r.Err?
  {
    var (f0, given) :- FactorsOf(src);
    var f :- if quals.Some? then Plus(f0, quals.value) else Ok(f0);
    var ri :- if given.Some? then Ok(given.value) else ToIntervals(f);
    var inversion :- ResolveInversion(f, inv, deg, allowNoteName);
    if given.Some? then
      SortedGiven(given.value);
      Ok(Parsed(f, Sort(ri), inversion))
    else
      SortSorted(ri);
      Ok(Parsed(f, Sort(ri), inversion))
  }

  /** Sorting a list of well-formed intervals without repeats keeps both. */
  lemma SortedGiven(xs: seq<Interval>)
    requires AllWellFormed(xs) && DistinctValues(xs)
    ensures AllWellFormed(Sort(xs)) && DistinctValues(Sort(xs)) && Sorted(Sort(xs))
  {
    SortDistinct(xs);
    var r := Sort(xs);
    forall i | 0 <= i < |r|
      ensures WellFormed(r[i])
    {
      assert r[i] in multiset(xs);
    }
  }

  // ---------------------------------------------------------------------------
  // Quality

  predicate AllWellFormedValues(fi: map<int, Interval>) {
    forall d :: d in fi ==> WellFormed(fi[d])
  }

  /** `_determine_quality`, reading intervals from the degree-keyed dict
      `fi`: with no third, the fifth's quality; a major third makes the chord
      augmented over an augmented fifth and major otherwise, a minor third
      diminished over a diminished fifth and minor otherwise; any other third
      gives its own quality.  A degree missing from the dict is a key
      error. */
  function DetermineQuality(f: Factors, fi: map<int, Interval>): (r: Result<Quality>)
    requires AllWellFormedValues(fi)
    ensures 3 !in f.offsets ==> (r.Ok? <==> 5 in fi) && (r.Ok? ==> r.value == QualityOf(fi[5]))
    ensures 3 in f.offsets && 3 !in fi ==> r == Err(MissingKey)
    ensures 3 in f.offsets && 3 in fi ==>
              var third := QualityOf(fi[3]);
              && (r.Err? <==> (third.Major? || third.Minor?) && 5 in f.offsets && 5 !in fi)
              && (r.Ok? ==> (r.value.MajorIsh() <==> third.MajorIsh()) && (r.value.MinorIsh() <==> third.MinorIsh()))
              && (r.Ok? && r.value != third ==>
                    5 in f.offsets && 5 in fi
                    && ((third.Major? && QualityOf(fi[5]).Augmented? && r.value == Augmented(0))
                        || (third.Minor? && QualityOf(fi[5]).Diminished? && r.value == Diminished(0))))
    ensures r.Err? ==> r.error == MissingKey
  {
    if 3 !in f.offsets then
      if 5 in fi then Ok(QualityOf(fi[5])) else Err(MissingKey)
    else if 3 !in fi then Err(MissingKey)
    else
      var third := QualityOf(fi[3]);
      if third.Major? then
        if 5 !in f.offsets then Ok(Major)
        else if 5 !in fi then Err(MissingKey)
        else if QualityOf(fi[5]).Augmented? then Ok(Augmented(0))
        else Ok(Major)
      else if third.Minor? then
        if 5 !in f.offsets then Ok(Minor)
        else if 5 !in fi then Err(MissingKey)
        else if QualityOf(fi[5]).Diminished? then Ok(Diminished(0))
        else Ok(Minor)
      else Ok(third)
  }

  /** Every value of the degree-keyed dict is an interval of the list. */
  lemma ByDegreeValues(xs: seq<Interval>)
    requires AllWellFormed(xs)
    ensures AllWellFormedValues(ByDegree(xs).vals)
  {
    var d := ByDegree(xs);
    forall e | e in d.vals
      ensures WellFormed(d.vals[e])
    {
      var k :| 0 <= k < |xs| && xs[k].extDegree == e;
      var last := LastIndexOfDegree(xs, k);
    }
  }

  /** The last interval of the list with the degree of `xs[k]`. */
  lemma {:induction false} LastIndexOfDegree(xs: seq<Interval>, k: int) returns (j: int)
    requires 0 <= k < |xs|
    ensures k <= j < |xs| && xs[j].extDegree == xs[k].extDegree && LastOfDegree(xs, j)
    decreases |xs| - k
  {
    if LastOfDegree(xs, k) {
      j := k;
    } else {
      var m :| k < m < |xs| && xs[m].extDegree == xs[k].extDegree;
      j := LastIndexOfDegree(xs, m);
    }
  }

  // ---------------------------------------------------------------------------
  // Abstract chords

  /** An abstract chord: its factors, its intervals from the root in
      ascending order, its inversion, its intervals in inverted position
      and its quality. */
  datatype AbstractChord = AbstractChord(
    factors: Factors,
    rootIntervals: seq<Interval>,
    inversion: nat,
    intervals: seq<Interval>,
    quality: Quality)

  /** The invariants every built abstract chord keeps: valid factors,
      well-formed root intervals in ascending order, an inversion that is a
      position of the chord, the inverted intervals measured from the bass,
      and the quality read from the root intervals by degree. */
  ghost predicate WellBuilt(c: AbstractChord) {
    && Valid(c.factors) && Sorted(c.rootIntervals) && AllWellFormed(c.rootIntervals)
    && (c.inversion == 0 || c.inversion < |c.factors.order|)
    && (c.inversion == 0 ==> c.intervals == c.rootIntervals)
    && (c.inversion != 0 ==>
          c.rootIntervals != [] && ListInvert(c.rootIntervals, c.inversion) == Ok(c.intervals) &&
          InvertedFrom(c.rootIntervals, Rotate(c.rootIntervals, c.inversion)[0].value, c.intervals))
    && AllWellFormedValues(ByDegree(c.rootIntervals).vals)
    && DetermineQuality(c.factors, ByDegree(c.rootIntervals).vals) == Ok(c.quality)
  }

  /** The chord of parsed arguments whose inversion is a position. */
  function Assemble(p: Parsed): (r: Result<AbstractChord>)
    requires Valid(p.factors) && Sorted(p.rootIntervals) && AllWellFormed(p.rootIntervals)
    requires p.inversion.AtPosition? && (p.inversion.index == 0 || p.inversion.index < |p.factors.order|)
    ensures r.Ok? ==> WellBuilt(r.value)
    ensures r.Ok? ==> r.value.factors == p.factors && r.value.rootIntervals == p.rootIntervals
                      && r.value.inversion == p.inversion.index
  {
    var n := p.inversion.index;
    var intervals :- if n != 0 then ListInvert(p.rootIntervals, n) else Ok(p.rootIntervals);
    ByDegreeValues(p.rootIntervals);
    var quality :- DetermineQuality(p.factors, ByDegree(p.rootIntervals).vals);
    Ok(AbstractChord(p.factors, p.rootIntervals, n, intervals, quality))
  }

  /** `AbstractChord(...)`: the parsed arguments, the root intervals
      inverted when the chord is inverted, and the quality read from the
      root intervals keyed by degree. */
  function Build(src: Source, quals: Option<Operand>, inv: InversionArg, deg: Option<int>): (r: Result<AbstractChord>)
    requires ValidSource(src) && (quals.Some? ==> ValidOperand(quals.value))
    ensures r.Ok? ==> WellBuilt(r.value)
    ensures r.Ok? && !src.GivenIntervals? ==> ToIntervals(r.value.factors) == Ok(r.value.rootIntervals)
    ensures r.Ok? ==> ResolveInversion(r.value.factors, inv, deg, false) == Ok(AtPosition(r.value.inversion))
    ensures inv.NoteName? || inv.OtherType? ==> r.Err? || (deg.Some? && deg.value in r.value.factors.offsets)
  {
    var p :- ParseInput(src, quals, inv, deg, false);
    Assemble(p)
  }

  /** `AbstractChord.invert`: the chord of the same factors with a new
      inversion. */
  function Invert(c: AbstractChord, inv: InversionArg, deg: Option<int>): (r: Result<AbstractChord>)
    requires Valid(c.factors)
    ensures r.Ok? ==> WellBuilt(r.value) && r.value.factors == c.factors
    ensures r.Ok? ==> ToIntervals(c.factors) == Ok(r.value.rootIntervals)
    ensures r.Ok? ==> ResolveInversion(c.factors, inv, deg, false) == Ok(AtPosition(r.value.inversion))
  {
    Build(GivenFactors(c.factors), None, inv, deg)
  }

  /** Inverting twice is inverting once: the first inversion is forgotten. */
  lemma InvertTwice(c: AbstractChord, inv1: InversionArg, deg1: Option<int>, inv2: InversionArg, deg2: Option<int>)
    requires Valid(c.factors) && Invert(c, inv1, deg1).Ok?
    ensures Invert(Invert(c, inv1, deg1).value, inv2, deg2) == Invert(c, inv2, deg2)
  {
    var once := Invert(c, inv1, deg1).value;
    assert once.factors == c.factors;
  }

  /** Inverting to nothing or to position zero gives the chord in root
      position, its intervals those from the root; inverting to a position
      1..order-1 puts that position's interval at the bass. */
  lemma InvertPosition(c: AbstractChord, n: int)
    requires Valid(c.factors) && Invert(c, Number(n), None).Ok?
    ensures n == 0 ==> Invert(c, Number(n), None).value.intervals == Invert(c, Number(n), None).value.rootIntervals
    ensures n != 0 ==>
              var r := Invert(c, Number(n), None).value;
              0 < n < |c.factors.order| && r.inversion == n
              && InvertedFrom(r.rootIntervals, Rotate(r.rootIntervals, n)[0].value, r.intervals)
  {
    var r := Invert(c, Number(n), None).value;
    assert ResolveInversion(c.factors, Number(n), None, false) == Ok(AtPosition(r.inversion));
  }

  /** What `item in chord` may ask about. */
  datatype Member = AnInterval(i: Interval) | ADegree(d: int) | OtherMember

  /** `AbstractChord.__contains__`: an interval is looked for by value among
      the inverted intervals, a number among the degrees of the factors, and
      anything else is a type error. */
  function ContainsMember(c: AbstractChord, m: Member): (r: Result<bool>)
    ensures r.Err? <==> m.OtherMember?
    ensures r.Err? ==> r.error == WrongType
    ensures m.AnInterval? ==> r == Ok(exists j :: 0 <= j < |c.intervals| && c.intervals[j].value == m.i.value)
  {
    match m
    case AnInterval(i) => Ok(Contains(c.intervals, i.value))
    case ADegree(d) => Ok(d in c.factors.offsets)
    case OtherMember => Err(WrongType)
  }

  /** A chord built from factors contains a degree exactly when one of its
      intervals from the root has that degree. */
  lemma ContainsDegree(c: AbstractChord, d: int)
    requires Valid(c.factors) && ToIntervals(c.factors) == Ok(c.rootIntervals)
    ensures ContainsMember(c, ADegree(d)) == Ok(true) <==>
              exists i :: 0 <= i < |c.rootIntervals| && c.rootIntervals[i].extDegree == d
  {
    var ri := c.rootIntervals;
    var m := c.factors.offsets;
    assert forall i :: 0 <= i < |ri| ==> IntervalOf(m, ri[i].extDegree, ri[i]);
    assert forall e :: e in m ==> exists i :: 0 <= i < |ri| && ri[i].extDegree == e;
    assert ContainsMember(c, ADegree(d)) == Ok(d in m);
  }

  /** An inverted chord contains the unison: its bass measured from itself. */
  lemma InvertedContainsUnison(c: AbstractChord)
    requires WellBuilt(c) && c.inversion != 0
    ensures ContainsMember(c, AnInterval(Unison)) == Ok(true)
  {
    assert c.intervals[0].value == 0;
  }

  /** `AbstractChord.__eq__`: the same factor contents, in whatever key
      order, and the same inversion. */
  predicate Equal(a: AbstractChord, b: AbstractChord) {
    a.factors.offsets == b.factors.offsets && a.inversion == b.inversion
  }

  /** Equal chords resolve any inversion argument alike. */
  lemma EqualResolveAlike(a: AbstractChord, b: AbstractChord, inv: InversionArg, deg: Option<int>, allowNoteName: bool)
    requires Valid(a.factors) && Valid(b.factors) && Equal(a, b)
    ensures ResolveInversion(a.factors, inv, deg, allowNoteName) == ResolveInversion(b.factors, inv, deg, allowNoteName)
  {
    NormaliseContents(a.factors, b.factors);
    SameResolution(a.factors, b.factors, inv, deg, allowNoteName);
  }

  /** Resolution reads only the sorted degrees and the number of factors. */
  lemma SameResolution(f: Factors, g: Factors, inv: InversionArg, deg: Option<int>, allowNoteName: bool)
    requires Valid(f) && Valid(g)
    requires SortedDegrees(f) == SortedDegrees(g) && |f.order| == |g.order| && f.offsets == g.offsets
    ensures ResolveInversion(f, inv, deg, allowNoteName) == ResolveInversion(g, inv, deg, allowNoteName)
  {
  }

  /** Equal chords invert to equal chords whenever both inversions
      succeed. */
  lemma EqualInvertAlike(a: AbstractChord, b: AbstractChord, inv: InversionArg, deg: Option<int>)
    requires Valid(a.factors) && Valid(b.factors) && Equal(a, b)
    requires Invert(a, inv, deg).Ok? && Invert(b, inv, deg).Ok?
    ensures Equal(Invert(a, inv, deg).value, Invert(b, inv, deg).value)
  {
    EqualResolveAlike(a, b, inv, deg, false);
  }

  // ---------------------------------------------------------------------------
  // Naming

  /** `P5`, the interval the `(no5)` test adds. */
  const PerfectFifth := Interval(7, 0, 7, 5, 5)

  lemma PerfectFifthIsDefault()
    ensures WellFormed(PerfectFifth) && PerfectFifth == FromValue(7)
  {
    DefaultFromValue(PerfectFifth);
  }

  /** The name the tables give a chord and whether the inversion string
      follows it; `None` when nothing names it.  Looked up by factors, then
      by intervals from the root, then by inverted intervals (where the
      source stops in the debugger), then with a perfect fifth added when the
      chord has none, then by flattened inverted intervals (named without
      the inversion), and the plain major triad has the empty name. */
  function SuffixLookup(reg: Registry, c: AbstractChord): (r: Result<Option<(Name, bool)>>)
    requires AllWellFormed(c.intervals)
    ensures r.Err? ==> r.error == DebuggerBreak || r.error == WrongType
    ensures r.Ok? && r.value.Some? && !r.value.value.1 ==>
              c.factors !in reg.byFactors && IntervalKey(c.rootIntervals) !in reg.byIntervals
    ensures r == Ok(None) ==> c.factors !in reg.byFactors && c.factors.offsets != MajorTriad.offsets
  {
    if c.factors in reg.byFactors then Ok(Some((reg.byFactors[c.factors], true)))
    else if IntervalKey(c.rootIntervals) in reg.byIntervals then Ok(Some((reg.byIntervals[IntervalKey(c.rootIntervals)], true)))
    else if IntervalKey(c.intervals) in reg.byIntervals then Err(DebuggerBreak)
    else if 5 !in c.factors.offsets && IntervalKey(Sort(c.rootIntervals + [PerfectFifth])) in reg.byIntervals then
      Ok(Some((reg.byIntervals[IntervalKey(Sort(c.rootIntervals + [PerfectFifth]))] + "(no5)", true)))
    else if ListFlatten(c.intervals, false).Err? then Err(WrongType)
    else if IntervalKey(ListFlatten(c.intervals, false).value) in reg.byIntervals then
      Ok(Some((reg.byIntervals[IntervalKey(ListFlatten(c.intervals, false).value)], false)))
    else if c.factors.offsets == MajorTriad.offsets then Ok(Some(("", false)))
    else Ok(None)
  }

  /** The inversion string when asked for and the name carries it. */
  function Tag(c: AbstractChord, carries: bool, withInversion: bool): (s: string)
    ensures s == "" || s == InversionString(c.inversion)
  {
    if carries && withInversion then InversionString(c.inversion) else ""
  }

  /** `get_suffix` as written: a chord no table names falls through to the
      `assigned_name` attribute, which abstract chords never set. */
  function GetSuffixAsWritten(reg: Registry, c: AbstractChord, withInversion: bool): (r: Result<string>)
    requires AllWellFormed(c.intervals)
    ensures r.Err? <==> SuffixLookup(reg, c).Err? || SuffixLookup(reg, c) == Ok(None)
    ensures SuffixLookup(reg, c) == Ok(None) ==> r == Err(AttributeMissing)
  {
    var found :- SuffixLookup(reg, c);
    if found.None? then Err(AttributeMissing)
    else Ok(found.value.0 + Tag(c, found.value.1, withInversion))
  }

  /** `get_suffix` with the placeholder `(?)` for a chord no table names,
      which is what the fallback is evidently meant to reach. */
  function GetSuffix(reg: Registry, c: AbstractChord, withInversion: bool): (r: Result<string>)
    requires AllWellFormed(c.intervals)
    ensures r.Err? <==> SuffixLookup(reg, c).Err?
    ensures r.Ok? && c.factors in reg.byFactors ==> r.value == reg.byFactors[c.factors] + Tag(c, true, withInversion)
    ensures SuffixLookup(reg, c) == Ok(None) ==> r == Ok("(?)" + Tag(c, true, withInversion))
  {
    var found :- SuffixLookup(reg, c);
    if found.None? then Ok("(?)" + Tag(c, true, withInversion))
    else Ok(found.value.0 + Tag(c, found.value.1, withInversion))
  }

  /** The two readings of `get_suffix` agree wherever the written one
      succeeds; they part only where the written one reads the missing
      attribute, and there the corrected one gives the placeholder. */
  lemma SuffixReadingsAgree(reg: Registry, c: AbstractChord, withInversion: bool)
    requires AllWellFormed(c.intervals)
    ensures GetSuffixAsWritten(reg, c, withInversion).Ok? ==>
              GetSuffix(reg, c, withInversion) == GetSuffixAsWritten(reg, c, withInversion)
    ensures GetSuffixAsWritten(reg, c, withInversion) == Err(AttributeMissing) <==>
              GetSuffix(reg, c, withInversion) == Ok("(?)" + Tag(c, true, withInversion))
                && SuffixLookup(reg, c) == Ok(None)
  {
  }

  /** With empty tables, every chord other than the major triad whose
      intervals flatten reaches the missing attribute as written, and gets
      the placeholder once corrected. */
  lemma UnnamedChordSuffix(c: AbstractChord)
    requires AllWellFormed(c.intervals) && ListFlatten(c.intervals, false).Ok?
    requires c.factors.offsets != MajorTriad.offsets
    ensures GetSuffixAsWritten(Registry(map[], map[], map[]), c, true) == Err(AttributeMissing)
    ensures GetSuffix(Registry(map[], map[], map[]), c, true) == Ok("(?)" + InversionString(c.inversion))
  {
    assert SuffixLookup(Registry(map[], map[], map[]), c) == Ok(None);
  }

  /** The suffix without the inversion is the suffix with it, less an
      inversion string that reads back as the chord's inversion. */
  lemma SuffixSplits(reg: Registry, c: AbstractChord)
    requires AllWellFormed(c.intervals) && GetSuffix(reg, c, true).Ok?
    ensures GetSuffix(reg, c, false).Ok?
    ensures var whole := GetSuffix(reg, c, true).value;
            var bare := GetSuffix(reg, c, false).value;
            && |bare| <= |whole| && whole[..|bare|] == bare
            && (whole[|bare|..] == "" || whole[|bare|..] == InversionString(c.inversion))
            && (c.inversion == 0 ==> whole == bare)
            && (whole[|bare|..] != "" ==> whole[|bare|] == '/' && ReadDigits(whole[|bare| + 1..]) == c.inversion)
  {
    var found := SuffixLookup(reg, c).value;
    var bare := GetSuffix(reg, c, false).value;
    var whole := GetSuffix(reg, c, true).value;
    var base := if found.None? then "(?)" else found.value.0;
    var carries := found.None? || found.value.1;
    assert bare == base + Tag(c, carries, false);
    assert whole == base + Tag(c, carries, true);
    assert whole[..|bare|] == bare;
    assert whole[|bare|..] == Tag(c, carries, true);
  }

  /** `likelihood`, in hundredths: ten less for every rarity tier below ten
      tenths, and fifteen less for an inverted chord.  Unregistered factors
      are a key error. */
  function Likelihood(reg: Registry, c: AbstractChord): (r: Result<int>)
    ensures r.Ok? <==> RarityOf(reg, c.factors).Ok?
    ensures r.Err? ==> r.error == MissingKey
    ensures r.Ok? ==> r.value <= 100 && (c.inversion != 0 ==> r.value <= 85)
    ensures r.Ok? && RarityOf(reg, c.factors).value <= 7 ==> r.value >= 15
  {
    var rarity :- RarityOf(reg, c.factors);
    var score := 100 - 10 * rarity;
    if c.inversion != 0 then Ok(score - 15) else Ok(score)
  }

  /** Likelihood falls as rarity rises, and an inversion costs exactly
      fifteen hundredths. */
  lemma LikelihoodOrder(reg: Registry, a: AbstractChord, b: AbstractChord)
    requires Likelihood(reg, a).Ok? && Likelihood(reg, b).Ok?
    ensures (a.inversion == 0 <==> b.inversion == 0) ==>
              (Likelihood(reg, a).value < Likelihood(reg, b).value <==>
                 RarityOf(reg, a.factors).value > RarityOf(reg, b.factors).value)
    ensures a.factors == b.factors && a.inversion == 0 && b.inversion != 0 ==>
              Likelihood(reg, a).value - Likelihood(reg, b).value == 15
  {
  }
}

=== FILE: arith.dfy ===
/** Small arithmetic facts the solver needs spelled out: division by the
    constants 12 and 7, and cancellation of products. */
module Arith {

  /** Quotient and remainder of a number written as 12q + r. */
  lemma DivMod12(x: int, q: int, r: int)
    requires 0 <= r < 12 && x == 12 * q + r
    ensures x / 12 == q && x % 12 == r
  {}
  lemma DivMod7(x: int, q: int, r: int)
    requires 0 <= r < 7 && x == 7 * q + r
    ensures x / 7 == q && x % 7 == r
  {}
  /** Adding whole octaves leaves the remainder mod 12 unchanged. */
  lemma ModShift12(x: int, k: int)
    ensures (x + 12 * k) % 12 == x % 12
  {
    DivMod12(x + 12 * k, x / 12 + k, x % 12);
  }

  /** A multiple of g leaves no remainder. */
  lemma MulMod(g: int, k: int)
    requires g > 0
    ensures (g * k) % g == 0 && (g * k) / g == k
  {
    var x := g * k;
    var q := x / g;
    var r := x % g;
    assert x == g * q + r;
    assert g * (k - q) == r;
    MulAwayFromZero(g, k - q);
  }

  /** A non-zero multiple of g is at least g away from zero. */
  lemma MulAwayFromZero(g: int, t: int)
    requires g > 0
    ensures t >= 1 ==> g * t >= g
    ensures t <= -1 ==> g * t <= -g
  {
    if t >= 1 {
      assert g * t == g * (t - 1) + g;
    } else if t <= -1 {
      assert g * t == g * (t + 1) - g;
    }
  }
  lemma CancelRight(x: int, y: int, c: int)
    requires c > 0 && x * c == y * c
    ensures x == y
  {
    assert (x - y) * c == 0;
  }
  /** Two ratios equal to the same k/e are equal to each other. */
  lemma CrossMultiply(a: int, b: int, c: int, d: int, e: int, k: int)
    requires e > 0 && a * e == k * b && c * e == k * d
    ensures a * d == c * b
  {
    calc {
      (a * d) * e;
      == (a * e) * d;
      == (k * b) * d;
      == (k * d) * b;
      == (c * e) * b;
      == (c * b) * e;
    }
    CancelRight(a * d, c * b, e);
  }

  /** A multiple of a non-zero number leaves no remainder, whatever the
      sign of the divisor. */
  lemma MulModAny(m: int, k: int)
    requires m != 0
    ensures (m * k) % m == 0
  {
    if m > 0 {
      MulMod(m, k);
    } else {
      MulMod(-m, -k);
      assert m * k == (-m) * (-k);
      var x := m * k;
      assert x % (-m) == 0;
      assert x == (-m) * (x / (-m));
      assert x == m * (-(x / (-m))) + 0;
    }
  }

  /** A positive multiple of a positive number is no smaller than it. */
  lemma DivisorBound(m: int, n: int)
    requires m > 0 && n > 0 && n % m == 0
    ensures m <= n
  {
    var q := n / m;
    assert n == m * q;
    MulAwayFromZero(m, q);
  }

  /** If `g` divides `n` and `h` divides `n / g`, then `g * h` divides `n`. */
  lemma ScaledDivisor(n: int, g: int, h: int)
    requires g > 0 && h > 0 && n % g == 0 && (n / g) % h == 0
    ensures n % (g * h) == 0
  {
    var x := n / g;
    var q := x / h;
    assert n == g * x;
    assert x == h * q;
    assert n == (g * h) * q;
    MulMod(g * h, q);
  }
}

=== FILE: chords.dfy ===
/** Chords on a root: an abstract chord placed on a pitch class, with the
    notes of its factors in root position, a bass, and its notes in
    inverted position measured up from the bass.

    Notes are pitch classes, 0 for C up to 11 for B; a note plus an interval
    is the pitch class that many semitones higher. */
module Chords {
  import opened Errors
  import opened Qualities
  import opened Intervals
  import opened IntervalLists
  import opened Factors
  import opened AbstractChords
  import Dicts

  predicate PitchClass(n: int) {
    0 <= n < 12
  }

  /** `note + semitones`, in no particular octave. */
  function Transpose(n: int, semitones: int): (r: int)
    ensures PitchClass(r) && (n + semitones - r) % 12 == 0
  {
    (n + semitones) % 12
  }

  /** Two transpositions make one of their sum. */
  lemma TransposeTwice(n: int, a: int, b: int)
    ensures Transpose(Transpose(n, a), b) == Transpose(n, a + b)
  {
    var m := Transpose(n, a);
    assert n + a == 12 * ((n + a) / 12) + m;
    assert (m + b) % 12 == (n + a + b - 12 * ((n + a) / 12)) % 12;
    ShiftByTwelves(n + a + b, (n + a) / 12);
  }

  lemma ShiftByTwelves(x: int, k: int)
    ensures (x - 12 * k) % 12 == x % 12
    decreases if k < 0 then -k else k
  {
    if k > 0 {
      ShiftByTwelves(x, k - 1);
      assert x - 12 * k == (x - 12 * (k - 1)) - 12;
    } else if k < 0 {
      ShiftByTwelves(x, k + 1);
      assert x - 12 * k == (x - 12 * (k + 1)) + 12;
    }
  }

  /** Transposing up and back down again returns the note. */
  lemma TransposeBack(n: int, s: int)
    requires PitchClass(n)
    ensures Transpose(Transpose(n, s), -s) == n
  {
    TransposeTwice(n, s, -s);
  }

  /** Transposing down and back up again returns the note. */
  lemma TransposeUndo(n: int, s: int)
    requires PitchClass(n)
    ensures Transpose(Transpose(n, -s), s) == n
  {
    TransposeTwice(n, -s, s);
  }

  /** The note of each interval above a note. */
  function NotesAbove(n: int, xs: seq<Interval>): (ns: seq<int>)
    ensures |ns| == |xs| && forall i :: 0 <= i < |xs| ==> ns[i] == Transpose(n, xs[i].value)
  {
    seq(|xs|, i requires 0 <= i < |xs| => Transpose(n, xs[i].value))
  }

  /** A chord on a root.  `rootNotes` holds the note of each factor in the
      order the degrees appear among the intervals from the root; `notes`
      holds the note of each inverted interval above the bass. */
  datatype Chord = Chord(
    root: int,
    factors: Factors,
    rootIntervals: seq<Interval>,
    rootNotes: seq<int>,
    inversion: nat,
    inversionDegree: Option<int>,
    bass: int,
    notes: seq<int>,
    intervals: seq<Interval>,
    quality: Quality)

  /** The abstract chord a chord is an instance of. */
  function Abstract(c: Chord): (a: AbstractChord)
    ensures a.factors == c.factors && a.rootIntervals == c.rootIntervals && a.inversion == c.inversion
    ensures a.intervals == c.intervals && a.quality == c.quality
  {
    AbstractChord(c.factors, c.rootIntervals, c.inversion, c.intervals, c.quality)
  }

  // ---------------------------------------------------------------------------
  // Inversion

  /** The inversion, the simple degree of the bass and the bass. */
  datatype Placement = Placement(inversion: nat, degree: Option<int>, bass: int)

  /** `_parse_inversion`: root position puts the root in the bass; a
      position puts that factor's note in the bass, read by index from the
      intervals and notes from the root; a bass note that belongs to the
      chord is found as the first factor sounding it, and the inversion is
      that factor's place among the sorted degrees.  A bass note that is no
      note of the chord re-identifies the chord, which is not modelled. */
  function Place(root: int, f: Factors, ri: seq<Interval>, keys: seq<int>, rootNotes: seq<int>, resolved: Resolved)
    : (r: Result<Placement>)
    requires Valid(f) && |keys| == |rootNotes|
    ensures resolved == AtPosition(0) ==> r == Ok(Placement(0, None, root))
    ensures resolved.AtPosition? && resolved.index != 0 ==>
              (r.Ok? <==> resolved.index < |ri| && resolved.index < |rootNotes|)
              && (r.Ok? ==> r.value == Placement(resolved.index, Some(ri[resolved.index].degree), rootNotes[resolved.index]))
              && (r.Err? ==> r.error == IndexOutOfRange)
    ensures resolved.OverNote? && resolved.pc !in rootNotes ==> r == Err(ForeignBass)
    ensures r.Ok? && resolved.OverNote? ==>
              && r.value.bass == resolved.pc && resolved.pc in rootNotes && r.value.degree.Some?
              && r.value.inversion < |f.order| && SortedDegrees(f)[r.value.inversion] == r.value.degree.value
              && exists j :: 0 <= j < |keys| && keys[j] == r.value.degree.value && rootNotes[j] == resolved.pc
    ensures r.Err? && resolved.OverNote? && resolved.pc in rootNotes ==> r.error == InvalidInversion
  {
    match resolved
    case AtPosition(n) =>
      if n == 0 then Ok(Placement(0, None, root))
      else if n >= |ri| || n >= |rootNotes| then Err(IndexOutOfRange)
      else Ok(Placement(n, Some(ri[n].degree), rootNotes[n]))
    case OverNote(pc) =>
      match DegreeIndex(rootNotes, pc)
      case None => Err(ForeignBass)
      case Some(j) =>
        match DegreeIndex(SortedDegrees(f), keys[j])
        case None => Err(InvalidInversion)
        case Some(x) => Ok(Placement(x, Some(keys[j]), pc))
  }

  // ---------------------------------------------------------------------------
  // Quality

  /** A chord's quality is its third's, and perfect without one; the
      third is read from the intervals keyed by degree. */
  function ThirdQuality(f: Factors, fi: map<int, Interval>): (r: Result<Quality>)
    requires AllWellFormedValues(fi)
    ensures 3 !in f.offsets ==> r == Ok(Perfect)
    ensures 3 in f.offsets ==> (r.Ok? <==> 3 in fi) && (r.Ok? ==> r.value == QualityOf(fi[3]))
    ensures r.Err? ==> r.error == MissingKey
  {
    if 3 !in f.offsets then Ok(Perfect)
    else if 3 !in fi then Err(MissingKey)
    else Ok(QualityOf(fi[3]))
  }

  /** A chord and its abstract chord agree on being major or minor; the
      abstract chord alone calls a major chord over an augmented fifth
      augmented and a minor chord over a diminished fifth diminished. */
  lemma QualitiesAgree(f: Factors, fi: map<int, Interval>)
    requires AllWellFormedValues(fi) && 3 in f.offsets
    requires ThirdQuality(f, fi).Ok? && DetermineQuality(f, fi).Ok?
    ensures ThirdQuality(f, fi).value.MajorIsh() <==> DetermineQuality(f, fi).value.MajorIsh()
    ensures ThirdQuality(f, fi).value.MinorIsh() <==> DetermineQuality(f, fi).value.MinorIsh()
    ensures ThirdQuality(f, fi).value != DetermineQuality(f, fi).value ==>
              DetermineQuality(f, fi).value in {Augmented(0), Diminished(0)} && 5 in fi
  {
  }

  // ---------------------------------------------------------------------------
  // Construction

  /** The intervals are those from the root inverted at the chord's
      inversion. */
  ghost predicate Inverted(c: Chord) {
    && AllWellFormed(c.rootIntervals) && c.rootIntervals != []
    && ListInvert(c.rootIntervals, c.inversion) == Ok(c.intervals)
    && InvertedFrom(c.rootIntervals, Rotate(c.rootIntervals, c.inversion)[0].value, c.intervals)
  }

  /** The invariants every built chord keeps: a pitch-class root and bass,
      the note of each factor above the root, and either root position,
      whose notes are the factors' notes, or the inverted intervals with the
      note of each above the bass; and the quality of the third. */
  ghost predicate WellBuiltChord(c: Chord) {
    && Valid(c.factors) && Sorted(c.rootIntervals) && AllWellFormed(c.rootIntervals)
    && PitchClass(c.root) && PitchClass(c.bass)
    && c.rootNotes == NotesAbove(c.root, Dicts.Values(ByDegree(c.rootIntervals)))
    && ((c.inversion == 0 && c.bass == c.root && c.intervals == c.rootIntervals && c.notes == c.rootNotes)
        || (Inverted(c) && c.notes == NotesAbove(c.bass, c.intervals)))
    && (c.inversion != 0 ==> c.bass in c.rootNotes && c.inversion < |c.factors.order|)
    && AllWellFormedValues(ByDegree(c.rootIntervals).vals)
    && ThirdQuality(c.factors, ByDegree(c.rootIntervals).vals) == Ok(c.quality)
  }

  /** The part of a chord that follows from its parsed arguments, its root
      and its placement. */
  function Finish(root: int, p: Parsed, place: Placement): (r: Result<Chord>)
    requires PitchClass(root) && PitchClass(place.bass)
    requires Valid(p.factors) && Sorted(p.rootIntervals) && AllWellFormed(p.rootIntervals)
    requires place.inversion != 0 ==> place.bass in NotesAbove(root, Dicts.Values(ByDegree(p.rootIntervals)))
    requires place.inversion != 0 ==> place.inversion < |p.factors.order|
    requires p.inversion == AtPosition(0) ==> place.inversion == 0 && place.bass == root
    ensures r.Ok? ==> WellBuiltChord(r.value)
    ensures r.Ok? ==> && r.value.root == root && r.value.factors == p.factors
                      && r.value.rootIntervals == p.rootIntervals && r.value.inversion == place.inversion
                      && r.value.inversionDegree == place.degree && r.value.bass == place.bass
    ensures r.Ok? && p.inversion == AtPosition(0) ==> r.value.intervals == p.rootIntervals && r.value.notes == r.value.rootNotes
    ensures r.Ok? && p.inversion != AtPosition(0) ==> r.value.notes == NotesAbove(r.value.bass, r.value.intervals)
  {
    var fi := ByDegree(p.rootIntervals);
    ByDegreeValues(p.rootIntervals);
    var rootNotes := NotesAbove(root, Dicts.Values(fi));
    var intervals :-
      if p.inversion == AtPosition(0) then Ok(p.rootIntervals)
      else ListInvert(p.rootIntervals, place.inversion);
    var notes := if p.inversion == AtPosition(0) then rootNotes else NotesAbove(place.bass, intervals);
    var quality :- ThirdQuality(p.factors, fi.vals);
    Ok(Chord(root, p.factors, p.rootIntervals, rootNotes, place.inversion, place.degree, place.bass,
             notes, intervals, quality))
  }

  /** `Chord(root=..., ...)`: the arguments parsed as for an abstract chord
      but with note names allowed as inversions, the note of every factor
      above the root, the inversion placed, the inverted intervals and their
      notes above the bass, and the quality of the third. */
  function BuildChord(root: int, src: Source, quals: Option<Operand>, inv: InversionArg, deg: Option<int>)
    : (r: Result<Chord>)
    requires PitchClass(root) && ValidSource(src) && (quals.Some? ==> ValidOperand(quals.value))
    ensures r.Ok? ==> WellBuiltChord(r.value) && r.value.root == root
    ensures r.Ok? && !src.GivenIntervals? ==> ToIntervals(r.value.factors) == Ok(r.value.rootIntervals)
    ensures r.Ok? && quals.None? && src.GivenFactors? ==> r.value.factors == src.f
    ensures r.Ok? ==> && ResolveInversion(r.value.factors, inv, deg, true).Ok?
                      && var resolved := ResolveInversion(r.value.factors, inv, deg, true).value;
                      && (resolved.AtPosition? ==> r.value.inversion == resolved.index)
                      && (resolved.OverNote? ==> r.value.bass == resolved.pc)
                      && (resolved == AtPosition(0) ==>
                            r.value.bass == root && r.value.intervals == r.value.rootIntervals && r.value.notes == r.value.rootNotes)
                      && (resolved != AtPosition(0) ==> r.value.notes == NotesAbove(r.value.bass, r.value.intervals))
                      && (resolved.AtPosition? && resolved.index != 0 ==>
                            resolved.index < |r.value.rootNotes| && r.value.bass == r.value.rootNotes[resolved.index])
  {
    var p :- ParseInput(src, quals, inv, deg, true);
    FromParsed(root, p)
  }

  /** The chord of parsed arguments on a root. */
  function FromParsed(root: int, p: Parsed): (r: Result<Chord>)
    requires PitchClass(root) && Valid(p.factors) && Sorted(p.rootIntervals) && AllWellFormed(p.rootIntervals)
    requires p.inversion.AtPosition? ==> p.inversion.index == 0 || p.inversion.index < |p.factors.order|
    requires p.inversion.OverNote? ==> PitchClass(p.inversion.pc)
    ensures r.Ok? ==> WellBuiltChord(r.value) && r.value.root == root
    ensures r.Ok? ==> r.value.factors == p.factors && r.value.rootIntervals == p.rootIntervals
    ensures r.Ok? && p.inversion.AtPosition? ==> r.value.inversion == p.inversion.index
    ensures r.Ok? && p.inversion.OverNote? ==> r.value.bass == p.inversion.pc
    ensures r.Ok? && p.inversion == AtPosition(0) ==>
              r.value.bass == root && r.value.intervals == p.rootIntervals && r.value.notes == r.value.rootNotes
    ensures r.Ok? && p.inversion != AtPosition(0) ==> r.value.notes == NotesAbove(r.value.bass, r.value.intervals)
    ensures r.Ok? && p.inversion.AtPosition? && p.inversion.index != 0 ==>
              p.inversion.index < |r.value.rootNotes| && r.value.bass == r.value.rootNotes[p.inversion.index]
  {
    var place :- PlaceParsed(root, p);
    Finish(root, p, place)
  }

  /** The placement of parsed arguments on a root. */
  function PlaceParsed(root: int, p: Parsed): (r: Result<Placement>)
    requires PitchClass(root) && Valid(p.factors)
    requires p.inversion.AtPosition? ==> p.inversion.index == 0 || p.inversion.index < |p.factors.order|
    requires p.inversion.OverNote? ==> PitchClass(p.inversion.pc)
    ensures r.Ok? ==> PitchClass(r.value.bass)
    ensures r.Ok? && r.value.inversion != 0 ==>
              && r.value.bass in NotesAbove(root, Dicts.Values(ByDegree(p.rootIntervals)))
              && r.value.inversion < |p.factors.order|
    ensures r.Ok? && p.inversion.AtPosition? ==> r.value.inversion == p.inversion.index
    ensures r.Ok? && p.inversion.OverNote? ==> r.value.bass == p.inversion.pc
    ensures r.Ok? && p.inversion == AtPosition(0) ==> r.value.inversion == 0 && r.value.bass == root
    ensures r.Ok? && p.inversion.AtPosition? && p.inversion.index != 0 ==>
              var notes := NotesAbove(root, Dicts.Values(ByDegree(p.rootIntervals)));
              p.inversion.index < |notes| && r.value.bass == notes[p.inversion.index]
  {
    var fi := ByDegree(p.rootIntervals);
    Place(root, p.factors, p.rootIntervals, fi.keys, NotesAbove(root, Dicts.Values(fi)), p.inversion)
  }

  // ---------------------------------------------------------------------------
  // Chords from abstract chords

  /** `Chord(factors=f, root=root, inversion=n)`: given factors, on a
      root, at a position. */
  function OnFactors(root: int, f: Factors, inversion: nat): (r: Result<Chord>)
    requires PitchClass(root) && Valid(f)
    ensures r.Ok? ==> WellBuiltChord(r.value)
    ensures r.Ok? ==> r.value.root == root && r.value.factors == f && r.value.inversion == inversion
    ensures r.Ok? ==> ToIntervals(f) == Ok(r.value.rootIntervals)
    ensures r.Ok? && inversion == 0 ==> r.value.bass == root && r.value.intervals == r.value.rootIntervals
    ensures r.Ok? && inversion != 0 ==> inversion < |r.value.rootNotes| && r.value.bass == r.value.rootNotes[inversion]
  {
    NumberResolves(f, inversion);
    BuildChord(root, GivenFactors(f), None, Number(inversion), None)
  }

  /** A number given as the inversion, with no degree, is that position
      when it is one, and rejected otherwise. */
  lemma NumberResolves(f: Factors, n: nat)
    requires Valid(f)
    ensures ResolveInversion(f, Number(n), None, true) ==
              if n == 0 then Ok(AtPosition(0)) else if n < |f.order| then Ok(AtPosition(n)) else Err(InvalidInversion)
  {
  }

  /** `AbstractChord.on_root`: the chord of the same factors and inversion
      on a root. */
  function OnRoot(a: AbstractChord, root: int): (r: Result<Chord>)
    requires Valid(a.factors) && PitchClass(root)
    ensures r.Ok? ==> WellBuiltChord(r.value) && r.value.root == root && r.value.factors == a.factors
    ensures r.Ok? ==> ToIntervals(a.factors) == Ok(r.value.rootIntervals) && r.value.inversion == a.inversion
  {
    OnFactors(root, a.factors, a.inversion)
  }

  /** Placed on a root, a chord built from its factors keeps its inversion
      and its inverted intervals: only the notes are new. */
  lemma OnRootKeepsShape(a: AbstractChord, root: int)
    requires WellBuilt(a) && ToIntervals(a.factors) == Ok(a.rootIntervals) && PitchClass(root)
    requires OnRoot(a, root).Ok?
    ensures Abstract(OnRoot(a, root).value).intervals == a.intervals
    ensures Abstract(OnRoot(a, root).value).rootIntervals == a.rootIntervals
  {
    var c := OnRoot(a, root).value;
    if a.inversion != 0 {
      assert Inverted(c);
    }
  }

  /** `AbstractChord.on_bass`: in root position the bass is the root;
      otherwise the root lies the inverted factor's interval below the
      bass. */
  function OnBass(a: AbstractChord, bass: int): (r: Result<Chord>)
    requires Valid(a.factors) && PitchClass(bass)
    ensures a.inversion == 0 ==> r == OnRoot(a, bass)
    ensures a.inversion != 0 && a.inversion >= |a.rootIntervals| ==> r == Err(IndexOutOfRange)
    ensures r.Ok? ==> WellBuiltChord(r.value) && r.value.factors == a.factors && r.value.inversion == a.inversion
    ensures r.Ok? ==> r == OnFactors(r.value.root, a.factors, a.inversion)
    ensures r.Ok? && a.inversion != 0 ==> a.inversion < |a.rootIntervals| && Transpose(r.value.root, a.rootIntervals[a.inversion].value) == bass
  {
    if a.inversion == 0 then OnRoot(a, bass)
    else if a.inversion >= |a.rootIntervals| then Err(IndexOutOfRange)
    else
      var v := a.rootIntervals[a.inversion].value;
      TransposeUndo(bass, v);
      OnRoot(a, Transpose(bass, -v))
  }

  /** At a position other than the root, the bass of a chord built from
      factors is the interval at that position above the root. */
  lemma OnFactorsBass(root: int, f: Factors, n: nat)
    requires PitchClass(root) && Valid(f) && n != 0 && OnFactors(root, f, n).Ok?
    ensures ToIntervals(f).Ok? && n < |ToIntervals(f).value|
    ensures OnFactors(root, f, n).value.bass == Transpose(root, ToIntervals(f).value[n].value)
  {
    var c := OnFactors(root, f, n).value;
    ToIntervalsDistinct(f);
    ByDegreeDistinct(c.rootIntervals);
    BassOfRootNotes(c, c.rootIntervals, n);
  }

  /** A chord placed on a bass has that bass. */
  lemma OnBassBass(a: AbstractChord, bass: int)
    requires Valid(a.factors) && ToIntervals(a.factors) == Ok(a.rootIntervals) && PitchClass(bass)
    requires OnBass(a, bass).Ok?
    ensures OnBass(a, bass).value.bass == bass
  {
    if a.inversion != 0 {
      var c := OnBass(a, bass).value;
      OnFactorsBass(c.root, a.factors, a.inversion);
    }
  }

  /** At a position of a chord whose degrees are distinct, the bass is that
      interval above the root. */
  lemma BassOfRootNotes(c: Chord, ri: seq<Interval>, n: nat)
    requires c.rootIntervals == ri && Dicts.Valid(ByDegree(ri)) && Dicts.Values(ByDegree(ri)) == ri
    requires c.rootNotes == NotesAbove(c.root, Dicts.Values(ByDegree(c.rootIntervals)))
    requires n < |c.rootNotes| && c.bass == c.rootNotes[n]
    ensures c.bass == Transpose(c.root, ri[n].value)
  {
  }

  // ---------------------------------------------------------------------------
  // Transposition

  /** `chord + n`: the same factors on a root `n` semitones higher, in root
      position. */
  function PlusSemitones(c: Chord, n: int): (r: Result<Chord>)
    requires Valid(c.factors) && PitchClass(c.root)
    ensures r.Ok? ==> WellBuiltChord(r.value) && r.value.factors == c.factors
    ensures r.Ok? ==> r.value.root == Transpose(c.root, n) && r.value.inversion == 0 && r.value.bass == r.value.root
  {
    OnFactors(Transpose(c.root, n), c.factors, 0)
  }

  /** `chord - n`: the same factors on a root `n` semitones lower, keeping
      the inversion. */
  function MinusSemitones(c: Chord, n: int): (r: Result<Chord>)
    requires Valid(c.factors) && PitchClass(c.root)
    ensures r.Ok? ==> WellBuiltChord(r.value) && r.value.factors == c.factors
    ensures r.Ok? ==> r.value.root == Transpose(c.root, -n) && r.value.inversion == c.inversion
  {
    OnFactors(Transpose(c.root, -n), c.factors, c.inversion)
  }

  /** Transposing up and back down gives the chord's factors in root
      position on its own root. */
  lemma TransposeRoundTrip(c: Chord, n: int)
    requires Valid(c.factors) && PitchClass(c.root) && PlusSemitones(c, n).Ok?
    ensures MinusSemitones(PlusSemitones(c, n).value, n) == OnFactors(c.root, c.factors, 0)
  {
    TransposeBack(c.root, n);
  }

  // ---------------------------------------------------------------------------
  // Membership and equality

  /** What `item in chord` may ask about: what an abstract chord may hold,
      or a note. */
  datatype ChordMember = AbstractMember(m: Member) | NoteMember(pc: int)

  /** `Chord.__contains__`: intervals and degrees as for the abstract chord,
      and a note among the inverted notes. */
  function ContainsChord(c: Chord, m: ChordMember): (r: Result<bool>)
    ensures r.Err? <==> m == AbstractMember(OtherMember)
    ensures m.NoteMember? ==> r == Ok(exists j :: 0 <= j < |c.notes| && c.notes[j] == m.pc)
    ensures m.AbstractMember? && m.m.ADegree? ==> r == Ok(m.m.d in c.factors.offsets)
  {
    match m
    case AbstractMember(a) => ContainsMember(Abstract(c), a)
    case NoteMember(pc) => Ok(pc in c.notes)
  }

  /** Every interval the chord contains sounds a note of the chord that far
      above the bass. */
  lemma IntervalSoundsNote(c: Chord, i: Interval)
    requires c.notes == NotesAbove(c.bass, c.intervals) && ContainsChord(c, AbstractMember(AnInterval(i))) == Ok(true)
    ensures ContainsChord(c, NoteMember(Transpose(c.bass, i.value))) == Ok(true)
  {
    var j :| 0 <= j < |c.intervals| && c.intervals[j].value == i.value;
    assert c.notes[j] == Transpose(c.bass, i.value);
  }

  /** The notes line up with the intervals, one note above the bass per
      interval, in every inverted chord and in every chord whose intervals
      from the root have distinct extended degrees. */
  lemma NotesAligned(c: Chord)
    requires WellBuiltChord(c) && (c.inversion != 0 || DistinctDegrees(c.rootIntervals))
    ensures c.notes == NotesAbove(c.bass, c.intervals)
  {
    if c.inversion == 0 && c.bass == c.root && c.intervals == c.rootIntervals && c.notes == c.rootNotes {
      ByDegreeDistinct(c.rootIntervals);
    }
  }

  /** In root position the notes are one per extended degree: intervals
      from the root that hold both thirds, as `[0, 3, 4, 7]` does, keep only
      the later one's note, so the chord holds the interval 3 but not the
      note three semitones above its root. */
  lemma RootNotesOnePerDegree(xs: seq<Interval>)
    requires |xs| == 2 && xs[0].value == 3 && xs[1].value == 4 && xs[0].extDegree == 3 && xs[1].extDegree == 3
    ensures Contains(xs, 3) && NotesAbove(0, Dicts.Values(ByDegree(xs))) == [4]
  {
    ThirdsKeepTheLater(xs);
    var vs := Dicts.Values(ByDegree(xs));
    var ns := NotesAbove(0, vs);
    assert ns[0] == Transpose(0, vs[0].value) == 4;
    assert xs[0].value == 3;
  }

  /** Keyed by degree, two intervals of degree 3 leave only the later. */
  lemma ThirdsKeepTheLater(xs: seq<Interval>)
    requires |xs| == 2 && xs[0].extDegree == 3 && xs[1].extDegree == 3
    ensures Dicts.Values(ByDegree(xs)) == [xs[1]]
  {
    var first := xs[..1];
    assert first[..|first| - 1] == [] && xs[..|xs| - 1] == first;
    var d0 := ByDegree(first[..|first| - 1]);
    assert d0.keys == [] && d0.vals == map[];
    var d1 := ByDegree(first);
    assert d1.keys == d0.keys + [3];
    var d := ByDegree(xs);
    assert d.keys == d1.keys && d.vals[3] == xs[1];
  }

  /** `Chord.__eq__`: the same factor contents, inversion and root. */
  predicate ChordEqual(a: Chord, b: Chord) {
    Equal(Abstract(a), Abstract(b)) && a.root == b.root
  }

  /** Equal chords transpose to equal chords. */
  lemma EqualTransposeAlike(a: Chord, b: Chord, n: int)
    requires Valid(a.factors) && Valid(b.factors) && PitchClass(a.root) && ChordEqual(a, b)
    requires MinusSemitones(a, n).Ok? && MinusSemitones(b, n).Ok?
    ensures ChordEqual(MinusSemitones(a, n).value, MinusSemitones(b, n).value)
  {
    EqualResolveAlike(Abstract(a), Abstract(b), Number(a.inversion), None, true);
  }

  // ---------------------------------------------------------------------------
  // Parallel and relative chords

  /** The factors with the third moved by `step` and an altered fifth
      turned the other way, keys in the same order. */
  function Reflect(f: Factors, step: int): (r: Factors)
    requires Valid(f) && 3 in f.offsets
    ensures Valid(r) && r.order == f.order && r.offsets.Keys == f.offsets.Keys
    ensures r.offsets[3] == f.offsets[3] + step
    ensures 5 in f.offsets ==> r.offsets[5] == -f.offsets[5]
    ensures forall d :: d in f.offsets && d != 3 && d != 5 ==> r.offsets[d] == f.offsets[d]
  {
    var m := f.offsets[3 := f.offsets[3] + step];
    Factors(f.order, if 5 in f.offsets then m[5 := -f.offsets[5]] else m)
  }

  /** Moving the third down and back up restores the factors. */
  lemma ReflectBack(f: Factors, step: int)
    requires Valid(f) && 3 in f.offsets
    ensures Reflect(Reflect(f, step), -step) == f
  {
    var r := Reflect(Reflect(f, step), -step);
    assert r.offsets == f.offsets;
  }

  /** The new factors of a parallel or relative chord: a key error without
      a third. */
  function Reflected(c: Chord, step: int): (r: Result<Factors>)
    requires Valid(c.factors)
    ensures r.Ok? <==> 3 in c.factors.offsets
    ensures r.Ok? ==> r.value == Reflect(c.factors, step)
    ensures r.Err? ==> r.error == MissingKey
  {
    if 3 !in c.factors.offsets then Err(MissingKey) else Ok(Reflect(c.factors, step))
  }

  /** `parallel_minor`: on the same root, the third a semitone lower and an
      altered fifth turned the other way; only a major or augmented chord
      has one. */
  function ParallelMinor(c: Chord): (r: Result<Chord>)
    requires Valid(c.factors) && PitchClass(c.root)
    ensures !c.quality.MajorIsh() ==> r == Err(WrongQuality)
    ensures r.Ok? ==> WellBuiltChord(r.value) && r.value.root == c.root && r.value.inversion == c.inversion
    ensures r.Ok? ==> 3 in c.factors.offsets && r.value.factors == Reflect(c.factors, -1)
  {
    if !c.quality.MajorIsh() then Err(WrongQuality)
    else
      var f :- Reflected(c, -1);
      OnFactors(c.root, f, c.inversion)
  }

  /** `parallel_major`: on the same root, the third a semitone higher and
      an altered fifth turned the other way; only a minor or diminished
      chord has one. */
  function ParallelMajor(c: Chord): (r: Result<Chord>)
    requires Valid(c.factors) && PitchClass(c.root)
    ensures !c.quality.MinorIsh() ==> r == Err(WrongQuality)
    ensures r.Ok? ==> WellBuiltChord(r.value) && r.value.root == c.root && r.value.inversion == c.inversion
    ensures r.Ok? ==> 3 in c.factors.offsets && r.value.factors == Reflect(c.factors, 1)
  {
    if !c.quality.MinorIsh() then Err(WrongQuality)
    else
      var f :- Reflected(c, 1);
      OnFactors(c.root, f, c.inversion)
  }

  /** `relative_minor`: the third a semitone lower on the root three
      semitones below; only a major chord has one. */
  function RelativeMinor(c: Chord): (r: Result<Chord>)
    requires Valid(c.factors) && PitchClass(c.root)
    ensures !c.quality.Major? ==> r == Err(WrongQuality)
    ensures r.Ok? ==> WellBuiltChord(r.value) && r.value.root == Transpose(c.root, -3) && r.value.inversion == c.inversion
    ensures r.Ok? ==> 3 in c.factors.offsets && r.value.factors == Reflect(c.factors, -1)
  {
    if !c.quality.Major? then Err(WrongQuality)
    else
      var f :- Reflected(c, -1);
      OnFactors(Transpose(c.root, -3), f, c.inversion)
  }

  /** `relative_major`: the third a semitone higher on the root three
      semitones above; only a minor chord has one. */
  function RelativeMajor(c: Chord): (r: Result<Chord>)
    requires Valid(c.factors) && PitchClass(c.root)
    ensures !c.quality.Minor? ==> r == Err(WrongQuality)
    ensures r.Ok? ==> WellBuiltChord(r.value) && r.value.root == Transpose(c.root, 3) && r.value.inversion == c.inversion
    ensures r.Ok? ==> 3 in c.factors.offsets && r.value.factors == Reflect(c.factors, 1)
  {
    if !c.quality.Minor? then Err(WrongQuality)
    else
      var f :- Reflected(c, 1);
      OnFactors(Transpose(c.root, 3), f, c.inversion)
  }

  /** `parallel`: the parallel minor of a major chord, the parallel major of
      a minor chord, and an error for any other quality. */
  function Parallel(c: Chord): (r: Result<Chord>)
    requires Valid(c.factors) && PitchClass(c.root)
    ensures !(c.quality.Major? || c.quality.Minor?) ==> r == Err(WrongQuality)
    ensures (c.quality.Major? || c.quality.Minor?) && 3 !in c.factors.offsets ==> r == Err(MissingKey)
    ensures r.Ok? ==> WellBuiltChord(r.value) && r.value.root == c.root && r.value.inversion == c.inversion
    ensures r.Ok? ==> 3 in c.factors.offsets && r.value.factors == Reflect(c.factors, if c.quality.Major? then -1 else 1)
  {
    if c.quality.Major? then ParallelMinor(c)
    else if c.quality.Minor? then ParallelMajor(c)
    else Err(WrongQuality)
  }

  /** `relative`: the relative minor of a major chord, the relative major of
      a minor chord, and an error for any other quality. */
  function Relative(c: Chord): (r: Result<Chord>)
    requires Valid(c.factors) && PitchClass(c.root)
    ensures !(c.quality.Major? || c.quality.Minor?) ==> r == Err(WrongQuality)
    ensures (c.quality.Major? || c.quality.Minor?) && 3 !in c.factors.offsets ==> r == Err(MissingKey)
    ensures r.Ok? ==> WellBuiltChord(r.value) && r.value.inversion == c.inversion
    ensures r.Ok? ==> r.value.root == Transpose(c.root, if c.quality.Major? then -3 else 3)
    ensures r.Ok? ==> 3 in c.factors.offsets && r.value.factors == Reflect(c.factors, if c.quality.Major? then -1 else 1)
  {
    if c.quality.Major? then RelativeMinor(c)
    else if c.quality.Minor? then RelativeMajor(c)
    else Err(WrongQuality)
  }

  /** Going to the parallel minor and back gives the chord rebuilt from its
      factors on its root, at its inversion. */
  lemma ParallelRoundTrip(c: Chord)
    requires Valid(c.factors) && PitchClass(c.root)
    requires ParallelMinor(c).Ok? && ParallelMinor(c).value.quality.MinorIsh()
    ensures ParallelMajor(ParallelMinor(c).value) == OnFactors(c.root, c.factors, c.inversion)
  {
    ReflectBack(c.factors, -1);
  }

  /** Going to the relative minor and back gives the chord rebuilt from its
      factors on its root, at its inversion. */
  lemma RelativeRoundTrip(c: Chord)
    requires Valid(c.factors) && PitchClass(c.root)
    requires RelativeMinor(c).Ok? && RelativeMinor(c).value.quality.Minor?
    ensures RelativeMajor(RelativeMinor(c).value) == OnFactors(c.root, c.factors, c.inversion)
  {
    var m := RelativeMinor(c).value;
    RelativeMajorOf(m);
    ReflectBack(c.factors, -1);
    TransposeUndo(c.root, 3);
  }

  /** The parallel of the parallel of a major or minor chord, when that
      lands on the other of the two qualities, is the chord rebuilt from its
      own factors on its own root at its own inversion. */
  lemma ParallelTwice(c: Chord)
    requires Valid(c.factors) && PitchClass(c.root) && Parallel(c).Ok?
    requires c.quality.Major? ==> Parallel(c).value.quality.Minor?
    requires c.quality.Minor? ==> Parallel(c).value.quality.Major?
    ensures Parallel(Parallel(c).value) == OnFactors(c.root, c.factors, c.inversion)
  {
    ReflectBack(c.factors, if c.quality.Major? then -1 else 1);
  }

  /** The relative of the relative of a major or minor chord, when that
      lands on the other of the two qualities, is the chord rebuilt from its
      own factors on its own root at its own inversion. */
  lemma RelativeTwice(c: Chord)
    requires Valid(c.factors) && PitchClass(c.root) && Relative(c).Ok?
    requires c.quality.Major? ==> Relative(c).value.quality.Minor?
    requires c.quality.Minor? ==> Relative(c).value.quality.Major?
    ensures Relative(Relative(c).value) == OnFactors(c.root, c.factors, c.inversion)
  {
    if c.quality.Major? {
      RelativeRoundTrip(c);
    } else {
      RelativeMajorRoundTrip(c);
    }
  }

  /** Going to the relative major and back gives the chord rebuilt from its
      factors on its root, at its inversion. */
  lemma RelativeMajorRoundTrip(c: Chord)
    requires Valid(c.factors) && PitchClass(c.root)
    requires RelativeMajor(c).Ok? && RelativeMajor(c).value.quality.Major?
    ensures RelativeMinor(RelativeMajor(c).value) == OnFactors(c.root, c.factors, c.inversion)
  {
    var m := RelativeMajor(c).value;
    RelativeMinorOf(m);
    ReflectBack(c.factors, 1);
    TransposeUndo(c.root, -3);
  }

  /** The relative minor of a major chord with a third, spelled out. */
  lemma RelativeMinorOf(m: Chord)
    requires Valid(m.factors) && PitchClass(m.root) && m.quality.Major? && 3 in m.factors.offsets
    ensures RelativeMinor(m) == OnFactors(Transpose(m.root, -3), Reflect(m.factors, -1), m.inversion)
  {
  }

  /** The relative major of a minor chord with a third, spelled out. */
  lemma RelativeMajorOf(m: Chord)
    requires Valid(m.factors) && PitchClass(m.root) && m.quality.Minor? && 3 in m.factors.offsets
    ensures RelativeMajor(m) == OnFactors(Transpose(m.root, 3), Reflect(m.factors, 1), m.inversion)
  {
  }
}

=== FILE: dicts.dfy ===
/** Insertion-ordered dictionaries, the way the source's dict comprehensions
    and keyed tables behave: assigning to a key already present replaces its
    value in place, and a new key goes to the end. */
module Dicts {

  datatype Dict<K, V> = Dict(keys: seq<K>, vals: map<K, V>)

  predicate Valid<K(!new), V>(d: Dict<K, V>) {
    && (forall i, j :: 0 <= i < j < |d.keys| ==> d.keys[i] != d.keys[j])
    && (forall k :: k in d.keys ==> k in d.vals)
    && (forall k :: k in d.vals ==> k in d.keys)
  }

  function Empty<K(!new), V>(): (d: Dict<K, V>)
    ensures Valid(d) && d.vals == map[]
  {
    Dict([], map[])
  }

  /** `d[k] = v`. */
  function Put<K(!new), V>(d: Dict<K, V>, k: K, v: V): (r: Dict<K, V>)
    requires Valid(d)
    ensures Valid(r) && r.vals == d.vals[k := v]
    ensures k in d.vals ==> r.keys == d.keys
    ensures k !in d.vals ==> r.keys == d.keys + [k]
  {
    if k in d.vals then Dict(d.keys, d.vals[k := v])
    else Dict(d.keys + [k], d.vals[k := v])
  }

  /** `d.values()`: the values in key order. */
  function Values<K(!new), V>(d: Dict<K, V>): (vs: seq<V>)
    requires Valid(d)
    ensures |vs| == |d.keys| && forall i :: 0 <= i < |vs| ==> vs[i] == d.vals[d.keys[i]]
  {
    seq(|d.keys|, i requires 0 <= i < |d.keys| && Valid(d) => d.vals[d.keys[i]])
  }
}

=== FILE: errors.dfy ===
/** Failure-compatible result type shared by every module of the chord model.
    Each constructor of `Error` stands for one exception the library raises;
    the model returns it instead of throwing. */
module Errors {

  datatype Error =
    // Interval construction with an explicit degree
    | DegreeNotPositive       // degree <= 0
    | UnisonDegreeNotOne      // a whole-octave interval given a degree other than a unison
    | DegreeOutOfOctave       // degree, reduced by the octave span, is not in 1..7
    | OctaveFromDefault       // requested degree is an octave away from the default one
    | TooFarFromDefault       // requested degree is more than 2 away from the default one
    // container and lookup failures
    | MissingKey              // KeyError
    | EmptyList               // IndexError on an empty list
    | IndexOutOfRange         // IndexError on a list index past its end
    | NotSorted               // assertion that an IntervalList is sorted
    | LengthMismatch          // point-wise list addition of unequal lengths
    | ZeroDivision            // modulo by zero
    | WrongType               // TypeError raised for an unsupported operand
    | NotAQualifier           // assertion that every item of a qualifier list is a qualifier
    | OffScale                // offset asked of a quality on the other scale (major/minor on a perfect degree, perfect on an imperfect one)
    // chord construction and editing
    | RepeatedIntervals       // explicit interval list with repeated values
    | InvalidInversion        // inversion index outside 1..order-1, or a bass on no factor's degree
    | NotANoteName            // a string inversion that names no note
    | ForeignBass             // a bass note outside the chord, which re-identifies the chord
    | ConflictingArguments    // mutually exclusive construction arguments
    | WrongQuality            // parallel/relative of a chord of the wrong quality
    | AttributeMissing        // read of an attribute that was never assigned
    | DebuggerBreak           // branch that stops in the debugger

  datatype Result<+T> = Ok(value: T) | Err(error: Error) {
    predicate IsFailure() {
      Err?
    }

    function PropagateFailure<U>(): Result<U>
      requires Err?
    {
      Err(error)
    }

    function Extract(): T
      requires Ok?
    {
      value
    }
  }

  datatype Option<+T> = None | Some(value: T)
}

=== FILE: factors.dfy ===
/** Chord factors: the degrees a chord is built from, each with a semitone
    offset from the perfect or major interval of that degree.

    The source keeps factors in a dict.  Two dicts are equal when their
    contents are, but a factors object is hashed by the tuple of its keys in
    insertion order, so the model keeps both: `offsets` is the contents and
    `order` the key order. */
module Factors {
  import opened Errors
  import opened Intervals
  import opened IntervalLists

  /** An insertion-ordered dict from degrees to offsets. */
  datatype Factors = Factors(order: seq<int>, offsets: map<int, int>)

  predicate Distinct(s: seq<int>) {
    forall i, j :: 0 <= i < j < |s| ==> s[i] != s[j]
  }

  /** The key order lists every key of the contents exactly once. */
  predicate Valid(f: Factors) {
    && Distinct(f.order)
    && (forall d :: d in f.order ==> d in f.offsets)
    && (forall d :: d in f.offsets ==> d in f.order)
  }

  /** `ChordFactors()` with no argument: the major triad, root, third and
      fifth at their default sizes. */
  const MajorTriad := Factors([1, 3, 5], map[1 := 0, 3 := 0, 5 := 0])

  lemma DistinctConcat(a: seq<int>, b: seq<int>)
    requires Distinct(a) && Distinct(b)
    requires forall i :: 0 <= i < |a| ==> a[i] !in b
    ensures Distinct(a + b)
  {
  }

  // ---------------------------------------------------------------------------
  // Sorted keys

  predicate Increasing(s: seq<int>) {
    forall i, j :: 0 <= i < j < |s| ==> s[i] < s[j]
  }

  /** In an ascending sequence the head lies below everything after it. */
  lemma HeadBelow(s: seq<int>)
    requires Increasing(s) && s != []
    ensures forall y :: y in s[1..] ==> s[0] < y
    ensures forall y :: y in s ==> y == s[0] || y in s[1..]
  {
    forall y | y in s[1..]
      ensures s[0] < y
    {
      var k :| 0 <= k < |s| - 1 && s[1..][k] == y;
      assert s[k + 1] == y;
    }
    assert s == [s[0]] + s[1..];
  }

  /** Insertion of a degree before the first one not smaller. */
  function InsertInt(x: int, s: seq<int>): (r: seq<int>)
    ensures |r| == |s| + 1 && forall y :: y in r <==> y == x || y in s
    ensures Increasing(s) && x !in s ==> Increasing(r)
  {
    if s == [] || x <= s[0] then [x] + s
    else
      var t := InsertInt(x, s[1..]);
      InsertStep(x, s, t);
      [s[0]] + t
  }

  /** The step of `InsertInt` that puts the head back in front. */
  lemma InsertStep(x: int, s: seq<int>, t: seq<int>)
    requires s != [] && x > s[0]
    requires forall y :: y in t <==> y == x || y in s[1..]
    ensures Increasing(s) && x !in s && (Increasing(s[1..]) && x !in s[1..] ==> Increasing(t))
            ==> Increasing([s[0]] + t)
  {
    if Increasing(s) && x !in s && (Increasing(s[1..]) && x !in s[1..] ==> Increasing(t)) {
      HeadBelow(s);
      assert Increasing(s[1..]);
      forall i | 0 <= i < |t|
        ensures s[0] < t[i]
      {
        assert t[i] in t;
      }
    }
  }

  /** `sorted(...)` of a list of degrees. */
  function SortInts(s: seq<int>): (r: seq<int>)
    ensures |r| == |s| && forall y :: y in r <==> y in s
    ensures Distinct(s) ==> Increasing(r)
  {
    if s == [] then []
    else
      assert s == [s[0]] + s[1..];
      assert Distinct(s) ==> s[0] !in s[1..];
      InsertInt(s[0], SortInts(s[1..]))
  }

  /** An ascending sequence is determined by its elements. */
  lemma {:induction false} IncreasingUnique(a: seq<int>, b: seq<int>)
    requires Increasing(a) && Increasing(b)
    requires forall x :: x in a <==> x in b
    ensures a == b
  {
    if a != [] {
      assert a[0] in a;
    }
    if b != [] {
      assert b[0] in b;
    }
    if a != [] && b != [] {
      HeadBelow(a);
      HeadBelow(b);
      assert a[0] == b[0];
      assert a == [a[0]] + a[1..] && b == [b[0]] + b[1..];
      forall x
        ensures x in a[1..] <==> x in b[1..]
      {
        if x in a[1..] {
          assert x in b && x != b[0];
        }
        if x in b[1..] {
          assert x in a && x != a[0];
        }
      }
      IncreasingUnique(a[1..], b[1..]);
      assert a == [a[0]] + a[1..] && b == [b[0]] + b[1..];
    }
  }

  /** `sorted(factors.keys())`. */
  function SortedDegrees(f: Factors): (ds: seq<int>)
    requires Valid(f)
    ensures Increasing(ds) && |ds| == |f.order|
    ensures forall d :: d in ds <==> d in f.offsets
  {
    SortInts(f.order)
  }

  /** The same contents with the keys in ascending order. */
  function Normalise(f: Factors): (r: Factors)
    requires Valid(f)
    ensures Valid(r) && Increasing(r.order) && r.offsets == f.offsets
  {
    Factors(SortedDegrees(f), f.offsets)
  }

  /** Normalising forgets the key order: equal contents normalise alike,
      and factors already in ascending key order are left as they are. */
  lemma NormaliseContents(f: Factors, g: Factors)
    requires Valid(f) && Valid(g) && f.offsets == g.offsets
    ensures Normalise(f) == Normalise(g)
    ensures Increasing(f.order) ==> Normalise(f) == f
  {
    IncreasingUnique(Normalise(f).order, Normalise(g).order);
    if Increasing(f.order) {
      IncreasingUnique(Normalise(f).order, f.order);
    }
  }

  // ---------------------------------------------------------------------------
  // Qualifiers

  /** The degrees of `ds`, in their order, that are not in `drop`. */
  function Without(ds: seq<int>, drop: set<int>): (r: seq<int>)
    ensures forall d :: d in r <==> d in ds && d !in drop
    ensures Distinct(ds) ==> Distinct(r)
    ensures (forall i :: 0 <= i < |ds| ==> ds[i] in drop) ==> r == []
  {
    if ds == [] then []
    else
      assert ds == [ds[0]] + ds[1..];
      assert Distinct(ds) ==> ds[0] !in ds[1..];
      (if ds[0] in drop then [] else [ds[0]]) + Without(ds[1..], drop)
  }

  /** A chord qualifier, reduced to the three alterations it carries:
      degrees to add with their offsets (itself an ordered dict), degrees
      whose offset to shift, and degrees to remove. */
  datatype Qualifier = Qualifier(add: Factors, shift: map<int, int>, remove: seq<int>)

  const NoChange := Qualifier(Factors([], map[]), map[], [])

  predicate ValidQualifier(q: Qualifier) {
    Valid(q.add)
  }

  /** The effect of a qualifier on factors.  `ChordQualifier.apply` is not
      part of this model; it is taken to remove the listed degrees, shift
      each remaining degree that `shift` names by the given amount, and then
      set the degrees of `add`, a degree new to the dict going to its end. */
  function Apply(q: Qualifier, f: Factors): (r: Factors)
    requires Valid(f) && ValidQualifier(q)
    ensures Valid(r)
    ensures forall d :: d in r.offsets <==> d in q.add.offsets || (d in f.offsets && d !in q.remove)
    ensures forall d :: d in r.offsets ==>
              r.offsets[d] == if d in q.add.offsets then q.add.offsets[d] else f.offsets[d] + ShiftOf(q, d)
  {
    var drop := set d | d in q.remove;
    var keptOrder := Without(f.order, drop);
    var kept := map d | d in f.offsets && d !in drop :: f.offsets[d] + ShiftOf(q, d);
    var added := Without(q.add.order, kept.Keys);
    assert forall i :: 0 <= i < |keptOrder| ==> keptOrder[i] in keptOrder && keptOrder[i] in kept;
    DistinctConcat(keptOrder, added);
    Factors(keptOrder + added, kept + q.add.offsets)
  }

  function ShiftOf(q: Qualifier, d: int): (shift: int) {
    if d in q.shift then q.shift[d] else 0
  }

  /** Qualifiers applied one after another, as the source's loop does. */
  function ApplyAll(qs: seq<Qualifier>, f: Factors): (r: Factors)
    requires Valid(f) && forall k :: 0 <= k < |qs| ==> ValidQualifier(qs[k])
    ensures Valid(r)
  {
    if qs == [] then f else ApplyAll(qs[1..], Apply(qs[0], f))
  }

  /** What a qualifier does to the contents does not depend on the key
      order. */
  lemma {:induction false} ApplyAllContents(qs: seq<Qualifier>, f: Factors, g: Factors)
    requires Valid(f) && Valid(g) && f.offsets == g.offsets
    requires forall k :: 0 <= k < |qs| ==> ValidQualifier(qs[k])
    ensures ApplyAll(qs, f).offsets == ApplyAll(qs, g).offsets
  {
    if qs != [] {
      ApplyAllContents(qs[1..], Apply(qs[0], f), Apply(qs[0], g));
    }
  }

  /** The right operand of `factors + other`. */
  datatype Operand =
    | One(q: Qualifier)
    | Several(qs: seq<Qualifier>)
    | SeveralWithStray   // a list or tuple holding something other than a qualifier
    | NotQualifier       // any other type

  predicate ValidOperand(other: Operand) {
    && (other.One? ==> ValidQualifier(other.q))
    && (other.Several? ==> forall k :: 0 <= k < |other.qs| ==> ValidQualifier(other.qs[k]))
  }

  /** `ChordFactors.__add__`: applies one qualifier or a list of them and
      returns new factors whose keys are in ascending order; a list with a
      non-qualifier in it fails its assertion, and any other operand is a
      type error. */
  function Plus(f: Factors, other: Operand): (r: Result<Factors>)
    requires Valid(f) && ValidOperand(other)
    ensures r.Err? <==> other.SeveralWithStray? || other.NotQualifier?
    ensures other.SeveralWithStray? ==> r == Err(NotAQualifier)
    ensures other.NotQualifier? ==> r == Err(WrongType)
    ensures r.Ok? ==> Valid(r.value) && Increasing(r.value.order)
    ensures other.One? ==> r.Ok? && r.value.offsets == Apply(other.q, f).offsets
    ensures other.Several? ==> r.Ok? && r.value.offsets == ApplyAll(other.qs, f).offsets
  {
    match other
    case One(q) => Ok(Normalise(Apply(q, f)))
    case Several(qs) => Ok(Normalise(ApplyAll(qs, f)))
    case SeveralWithStray => Err(NotAQualifier)
    case NotQualifier => Err(WrongType)
  }

  /** Addition looks only at the contents: factors that compare equal give
      identical results, whatever their key order. */
  lemma PlusIgnoresKeyOrder(f: Factors, g: Factors, other: Operand)
    requires Valid(f) && Valid(g) && ValidOperand(other)
    requires f.offsets == g.offsets
    ensures Plus(f, other) == Plus(g, other)
  {
    match other
    case One(q) =>
      NormaliseContents(Apply(q, f), Apply(q, g));
    case Several(qs) =>
      ApplyAllContents(qs, f, g);
      NormaliseContents(ApplyAll(qs, f), ApplyAll(qs, g));
    case SeveralWithStray =>
    case NotQualifier =>
  }

  /** A one-element list acts as its qualifier, and an empty list returns a
      sorted copy: factors already in ascending key order come back
      unchanged. */
  lemma PlusLists(f: Factors, q: Qualifier)
    requires Valid(f) && ValidQualifier(q)
    ensures Plus(f, Several([q])) == Plus(f, One(q))
    ensures Increasing(f.order) ==> Plus(f, Several([])) == Ok(f)
  {
    assert ApplyAll([q], f) == ApplyAll([], Apply(q, f));
    NormaliseContents(f, f);
  }

  // ---------------------------------------------------------------------------
  // Distance

  /** `a.distance(b)`, also `a - b`: the qualifier that turns `b` into `a`.
      It adds the degrees only `a` has with `a`'s offsets, in `a`'s order,
      shifts the shared degrees whose offsets differ by the difference, and
      removes the degrees only `b` has, in `b`'s order. */
  function Distance(a: Factors, b: Factors): (q: Qualifier)
    requires Valid(a) && Valid(b)
    ensures ValidQualifier(q)
  {
    Qualifier(
      Factors(Without(a.order, b.offsets.Keys), map d | d in a.offsets && d !in b.offsets :: a.offsets[d]),
      map d | d in a.offsets && d in b.offsets && a.offsets[d] != b.offsets[d] :: a.offsets[d] - b.offsets[d],
      Without(b.order, a.offsets.Keys))
  }

  /** Adding the distance from `b` to `a` to `b` gives `a`, with its keys
      sorted. */
  lemma DistanceApplies(a: Factors, b: Factors)
    requires Valid(a) && Valid(b)
    ensures Apply(Distance(a, b), b).offsets == a.offsets
    ensures Plus(b, One(Distance(a, b))) == Ok(Normalise(a))
  {
    DistanceContents(a, b);
    NormaliseContents(Apply(Distance(a, b), b), a);
  }

  lemma DistanceContents(a: Factors, b: Factors)
    requires Valid(a) && Valid(b)
    ensures Apply(Distance(a, b), b).offsets == a.offsets
  {
    var r := Apply(Distance(a, b), b).offsets;
    forall d | d in r
      ensures d in a.offsets && r[d] == a.offsets[d]
    {
      DistanceAt(a, b, d);
    }
    forall d | d in a.offsets
      ensures d in r
    {
      DistanceAt(a, b, d);
    }
    assert r.Keys == a.offsets.Keys;
  }

  /** One degree of `DistanceContents`. */
  lemma DistanceAt(a: Factors, b: Factors, d: int)
    requires Valid(a) && Valid(b)
    ensures d in Apply(Distance(a, b), b).offsets <==> d in a.offsets
    ensures d in a.offsets ==> Apply(Distance(a, b), b).offsets[d] == a.offsets[d]
  {
    var q := Distance(a, b);
    var r := Apply(q, b).offsets;
    if d in q.add.offsets {
      assert r[d] == q.add.offsets[d] == a.offsets[d];
    } else if d in b.offsets {
      assert d in a.offsets <==> d !in q.remove;
      if d in a.offsets {
        assert ShiftOf(q, d) == a.offsets[d] - b.offsets[d];
        assert r[d] == b.offsets[d] + ShiftOf(q, d);
      }
    }
  }

  /** Factors are no distance from themselves, and the distances each way
      swap additions with removals and negate the shifts. */
  lemma DistanceSymmetry(a: Factors, b: Factors)
    requires Valid(a) && Valid(b)
    ensures Distance(a, a) == NoChange
    ensures forall d :: d in Distance(a, b).add.offsets <==> d in Distance(b, a).remove
    ensures Distance(a, b).shift.Keys == Distance(b, a).shift.Keys
    ensures forall d :: d in Distance(a, b).shift ==> Distance(a, b).shift[d] == -Distance(b, a).shift[d]
  {
  }

  // ---------------------------------------------------------------------------
  // Intervals

  /** The degree `d` of `m` makes an interval at its offset. */
  predicate DegreeOk(m: map<int, int>, d: int) {
    d in m && FromDegree(d, m[d]).Ok?
  }

  /** `i` is the interval of degree `d` of `m` at its offset. */
  predicate IntervalOf(m: map<int, int>, d: int, i: Interval) {
    d in m && FromDegree(d, m[d]) == Ok(i)
  }

  /** The interval of each listed degree at its offset, in list order. */
  function DegreeIntervals(m: map<int, int>, ds: seq<int>): (r: Result<seq<Interval>>)
    requires forall d :: d in ds ==> d in m
    ensures r.Ok? <==> forall k :: 0 <= k < |ds| ==> DegreeOk(m, ds[k])
    ensures r.Ok? ==> |r.value| == |ds| && forall k :: 0 <= k < |ds| ==> IntervalOf(m, ds[k], r.value[k])
  {
    if ds == [] then Ok([])
    else
      var rest := DegreeIntervals(m, ds[1..]);
      var first := FromDegree(ds[0], m[ds[0]]);
      if first.Err? then Err(first.error)
      else if rest.Err? then
        assert exists k :: 0 <= k < |ds| - 1 && !DegreeOk(m, ds[1..][k]);
        Err(rest.error)
      else
        var r := [first.value] + rest.value;
        assert forall k :: 0 < k < |ds| ==> r[k] == rest.value[k - 1] && ds[k] == ds[1..][k - 1];
        Ok(r)
  }

  /** `to_intervals()`: each factor's interval, sorted by value.  It fails
      exactly when some factor's degree and offset make no interval, and
      otherwise holds one interval per factor, at that factor's degree. */
  function ToIntervals(f: Factors): (r: Result<seq<Interval>>)
    requires Valid(f)
    ensures r.Ok? <==> forall d :: d in f.offsets ==> DegreeOk(f.offsets, d)
    ensures r.Ok? ==> && Sorted(r.value) && AllWellFormed(r.value) && |r.value| == |f.order|
                      && (forall i :: 0 <= i < |r.value| ==> IntervalOf(f.offsets, r.value[i].extDegree, r.value[i]))
                      && (forall d :: d in f.offsets ==> exists i :: 0 <= i < |r.value| && r.value[i].extDegree == d)
  {
    var each :- DegreeIntervals(f.offsets, f.order);
    var r := Sort(each);
    SortedFromEach(f, each, r);
    Ok(r)
  }

  lemma SortedFromEach(f: Factors, each: seq<Interval>, r: seq<Interval>)
    requires Valid(f) && |each| == |f.order|
    requires forall k :: 0 <= k < |each| ==> IntervalOf(f.offsets, f.order[k], each[k])
    requires multiset(r) == multiset(each)
    ensures AllWellFormed(r)
    ensures forall i :: 0 <= i < |r| ==> IntervalOf(f.offsets, r[i].extDegree, r[i])
    ensures forall d :: d in f.offsets ==> exists i :: 0 <= i < |r| && r[i].extDegree == d
  {
    forall i | 0 <= i < |r|
      ensures IntervalOf(f.offsets, r[i].extDegree, r[i]) && WellFormed(r[i])
    {
      assert r[i] in multiset(each);
      var k :| 0 <= k < |each| && each[k] == r[i];
      assert IntervalOf(f.offsets, f.order[k], each[k]);
    }
    forall d | d in f.offsets
      ensures exists i :: 0 <= i < |r| && r[i].extDegree == d
    {
      var k :| 0 <= k < |f.order| && f.order[k] == d;
      assert IntervalOf(f.offsets, f.order[k], each[k]);
      assert each[k] in multiset(r);
      var i :| 0 <= i < |r| && r[i] == each[k];
    }
  }

  /** Root, third and fifth, each at its default size. */
  predicate TriadContents(f: Factors) {
    && 1 in f.offsets && 3 in f.offsets && 5 in f.offsets
    && (forall d :: d in f.offsets ==> d == 1 || d == 3 || d == 5)
    && (forall d :: d in f.offsets ==> f.offsets[d] == 0)
  }

  lemma MajorTriadContents()
    ensures Valid(MajorTriad) && TriadContents(MajorTriad)
  {
  }

  /** The major triad lists its degrees in order and has the intervals of a
      root, a major third and a perfect fifth, whatever its key order. */
  lemma MajorTriadIntervals(f: Factors)
    requires Valid(f) && TriadContents(f)
    ensures SortedDegrees(f) == [1, 3, 5]
    ensures ToIntervals(f).Ok? && Values(ToIntervals(f).value) == [0, 4, 7]
  {
    IncreasingUnique(SortedDegrees(f), [1, 3, 5]);
    TriadIntervalsOk(f);
    TriadValues(f, ToIntervals(f).value);
  }

  lemma TriadValues(f: Factors, r: seq<Interval>)
    requires Valid(f) && TriadContents(f) && ToIntervals(f) == Ok(r)
    ensures Values(r) == [0, 4, 7]
  {
    TriadFacts(f, r);
    assert 1 in f.offsets && 3 in f.offsets && 5 in f.offsets;
    ThreeCanonical(r);
  }

  /** Three sorted canonical intervals of the root, third and fifth. */
  lemma ThreeCanonical(r: seq<Interval>)
    requires |r| == 3 && Sorted(r)
    requires forall i :: 0 <= i < |r| ==> r[i].extDegree in {1, 3, 5} && r[i].value == CanonicalSemitones(r[i].extDegree)
    requires exists i :: 0 <= i < |r| && r[i].extDegree == 1
    requires exists i :: 0 <= i < |r| && r[i].extDegree == 3
    requires exists i :: 0 <= i < |r| && r[i].extDegree == 5
    ensures Values(r) == [0, 4, 7]
  {
    var e0 :| 0 <= e0 < |r| && r[e0].extDegree == 1;
    var e1 :| 0 <= e1 < |r| && r[e1].extDegree == 3;
    var e2 :| 0 <= e2 < |r| && r[e2].extDegree == 5;
    SortedThree(r, e0, e1, e2);
  }

  lemma TriadFacts(f: Factors, r: seq<Interval>)
    requires Valid(f) && TriadContents(f) && ToIntervals(f) == Ok(r)
    ensures |r| == 3 && Sorted(r)
    ensures forall i :: 0 <= i < |r| ==> r[i].extDegree in {1, 3, 5} && r[i].value == CanonicalSemitones(r[i].extDegree)
    ensures forall d :: d in f.offsets ==> exists i :: 0 <= i < |r| && r[i].extDegree == d
  {
    TriadOrderLength(f);
    forall i | 0 <= i < |r|
      ensures r[i].extDegree in {1, 3, 5} && r[i].value == CanonicalSemitones(r[i].extDegree)
    {
      TriadMember(f.offsets, r[i]);
    }
  }

  lemma TriadOrderLength(f: Factors)
    requires Valid(f) && TriadContents(f)
    ensures |f.order| == 3
  {
    IncreasingUnique(SortedDegrees(f), [1, 3, 5]);
  }

  /** An interval of a triad's degree is that degree's canonical interval. */
  lemma TriadMember(m: map<int, int>, i: Interval)
    requires forall d :: d in m ==> d == 1 || d == 3 || d == 5
    requires forall d :: d in m ==> m[d] == 0
    requires IntervalOf(m, i.extDegree, i)
    ensures i.extDegree in {1, 3, 5} && i.value == CanonicalSemitones(i.extDegree)
  {
    var d := i.extDegree;
    assert SimpleDegree(d) == d && DegreeOctaves(d) == 0;
  }

  lemma TriadIntervalsOk(f: Factors)
    requires Valid(f) && TriadContents(f)
    ensures ToIntervals(f).Ok?
  {
    forall d | d in f.offsets
      ensures DegreeOk(f.offsets, d)
    {
      FromDegreeCanonical(d);
    }
  }

  lemma SortedThree(r: seq<Interval>, e0: int, e1: int, e2: int)
    requires |r| == 3 && Sorted(r) && 0 <= e0 < 3 && 0 <= e1 < 3 && 0 <= e2 < 3
    requires forall i :: 0 <= i < |r| ==> r[i].extDegree in {1, 3, 5} && r[i].value == CanonicalSemitones(r[i].extDegree)
    requires r[e0].extDegree == 1 && r[e1].extDegree == 3 && r[e2].extDegree == 5
    ensures Values(r) == [0, 4, 7]
  {
    assert r[e0].value == 0 && r[e1].value == 4 && r[e2].value == 7;
    assert r[0].value <= r[1].value <= r[2].value;
  }
}

=== FILE: interval_lists.dfy ===
/** Lists of intervals: the interval content of chords and scales.

    A list is a plain sequence of intervals.  Equality, membership and hashing
    look at values only; sorting is Python's stable sort by value. */
module IntervalLists {
  import opened Errors
  import opened Intervals
  import opened Arith

  function Values(xs: seq<Interval>): (vs: seq<int>)
    ensures |vs| == |xs| && forall i :: 0 <= i < |xs| ==> vs[i] == xs[i].value
  {
    seq(|xs|, i requires 0 <= i < |xs| => xs[i].value)
  }

  /** Default-degree intervals of the given values, as an int list is cast. */
  function Defaults(vs: seq<int>): (xs: seq<Interval>)
    ensures Values(xs) == vs && AllWellFormed(xs)
    ensures forall i :: 0 <= i < |xs| ==> xs[i] == FromValue(vs[i])
  {
    seq(|vs|, i requires 0 <= i < |vs| => FromValue(vs[i]))
  }

  predicate AllWellFormed(xs: seq<Interval>) {
    forall i :: 0 <= i < |xs| ==> WellFormed(xs[i])
  }

  predicate Sorted(xs: seq<Interval>) {
    forall i, j :: 0 <= i < j < |xs| ==> xs[i].value <= xs[j].value
  }

  predicate DistinctValues(xs: seq<Interval>) {
    forall i, j :: 0 <= i < j < |xs| ==> xs[i].value != xs[j].value
  }

  /** `item in list`: membership by value, for an int or an interval. */
  predicate Contains(xs: seq<Interval>, v: int) {
    v in Values(xs)
  }

  // ---------------------------------------------------------------------------
  // Sorting

  predicate SortedInts(vs: seq<int>) {
    forall i, j :: 0 <= i < j < |vs| ==> vs[i] <= vs[j]
  }

  function InsertPoint(x: Interval, xs: seq<Interval>): (k: nat)
    ensures k <= |xs|
    ensures forall i :: 0 <= i < k ==> xs[i].value < x.value
    ensures k < |xs| ==> x.value <= xs[k].value
  {
    if xs == [] || x.value <= xs[0].value then 0 else 1 + InsertPoint(x, xs[1..])
  }

  /** Insertion before the first element that is not smaller: placed ahead of
      its equals, an element taken from the front keeps Python's stable order. */
  function Insert(x: Interval, xs: seq<Interval>): (r: seq<Interval>)
    requires Sorted(xs)
    ensures Sorted(r) && multiset(r) == multiset(xs) + multiset{x}
    ensures |r| == |xs| + 1
  {
    var k := InsertPoint(x, xs);
    InsertSorted(x, xs, k);
    assert xs == xs[..k] + xs[k..];
    xs[..k] + [x] + xs[k..]
  }

  lemma ValuesConcat(a: seq<Interval>, b: seq<Interval>)
    ensures Values(a + b) == Values(a) + Values(b)
  {
  }

  /** Lists holding the same intervals hold the same values. */
  lemma {:induction false} ValuesMultiset(a: seq<Interval>, b: seq<Interval>)
    requires multiset(a) == multiset(b)
    ensures multiset(Values(a)) == multiset(Values(b))
    decreases |a|
  {
    if a == [] {
      assert |b| == |multiset(b)| == 0;
    } else {
      var x := a[0];
      assert x in multiset(b);
      var j :| 0 <= j < |b| && b[j] == x;
      var rest := Without(b, j);
      assert multiset(a[1..]) == multiset(a) - multiset{x} by {
        assert a == [x] + a[1..];
      }
      ValuesMultiset(a[1..], rest);
      ValuesConcat([x], a[1..]);
      assert a == [x] + a[1..];
      assert Values([x]) == [x.value];
    }
  }

  /** The list with position `j` taken out. */
  function Without(b: seq<Interval>, j: int): (r: seq<Interval>)
    requires 0 <= j < |b|
    ensures multiset(r) == multiset(b) - multiset{b[j]}
    ensures multiset(Values(b)) == multiset(Values(r)) + multiset{b[j].value}
  {
    var r := b[..j] + b[j + 1..];
    assert b == b[..j] + [b[j]] + b[j + 1..];
    ValuesConcat(b[..j], [b[j]]);
    ValuesConcat(b[..j] + [b[j]], b[j + 1..]);
    ValuesConcat(b[..j], b[j + 1..]);
    assert Values([b[j]]) == [b[j].value];
    r
  }

  lemma InsertSorted(x: Interval, xs: seq<Interval>, k: nat)
    requires Sorted(xs) && k <= |xs|
    requires forall i :: 0 <= i < k ==> xs[i].value < x.value
    requires k < |xs| ==> x.value <= xs[k].value
    ensures Sorted(xs[..k] + [x] + xs[k..])
  {
    var r := xs[..k] + [x] + xs[k..];
    forall i, j | 0 <= i < j < |r|
      ensures r[i].value <= r[j].value
    {
      if j < k {
        assert r[i] == xs[i] && r[j] == xs[j];
      } else if j == k {
        assert r[i] == xs[i];
      } else if i < k {
        assert r[i] == xs[i] && r[j] == xs[j - 1];
      } else if i == k {
        assert r[j] == xs[j - 1];
        assert xs[k].value <= xs[j - 1].value || j - 1 == k;
      } else {
        assert r[i] == xs[i - 1] && r[j] == xs[j - 1];
      }
    }
  }

  /** `sorted()`: stable sort by value. */
  function Sort(xs: seq<Interval>): (r: seq<Interval>)
    ensures Sorted(r) && multiset(r) == multiset(xs) && |r| == |xs|
  {
    if xs == [] then []
    else
      assert xs == [xs[0]] + xs[1..];
      Insert(xs[0], Sort(xs[1..]))
  }

  /** Sorting an already sorted list changes nothing. */
  lemma {:induction false} SortSorted(xs: seq<Interval>)
    requires Sorted(xs)
    ensures Sort(xs) == xs
  {
    if xs != [] {
      SortSorted(xs[1..]);
      assert InsertPoint(xs[0], xs[1..]) == 0;
    }
  }

  /** The source's sortedness check (`self == self.sorted()`, comparing values)
      holds exactly for sorted lists. */
  lemma SortedCheck(xs: seq<Interval>)
    ensures Values(xs) == Values(Sort(xs)) <==> Sorted(xs)
  {
    if Sorted(xs) {
      SortSorted(xs);
    }
  }

  /** `hash`: a list hashes as the value sequence of its sorted copy. */
  function Key(xs: seq<Interval>): (k: seq<int>)
    ensures SortedInts(k) && multiset(k) == multiset(Values(xs))
  {
    ValuesMultiset(Sort(xs), xs);
    Values(Sort(xs))
  }

  /** Two sorted integer sequences with the same elements are equal. */
  lemma {:induction false} SortedIntsEqual(a: seq<int>, b: seq<int>)
    requires SortedInts(a) && SortedInts(b) && multiset(a) == multiset(b)
    ensures a == b
  {
    assert |a| == |multiset(a)| == |multiset(b)| == |b|;
    if a != [] {
      assert a[0] in multiset(b);
      assert b[0] in multiset(a);
      assert a == [a[0]] + a[1..];
      assert b == [b[0]] + b[1..];
      assert a[0] == b[0];
      assert multiset(a[1..]) == multiset(a) - multiset{a[0]};
      assert multiset(b[1..]) == multiset(b) - multiset{b[0]};
      SortedIntsEqual(a[1..], b[1..]);
    }
  }

  /** Hashing ignores order: lists holding the same values hash alike. */
  lemma KeyIgnoresOrder(xs: seq<Interval>, ys: seq<Interval>)
    requires multiset(Values(xs)) == multiset(Values(ys))
    ensures Key(xs) == Key(ys)
  {
    SortedIntsEqual(Key(xs), Key(ys));
  }

  // ---------------------------------------------------------------------------
  // Unique and rotate

  /** `unique()`: repeated values are dropped after their first occurrence. */
  function Unique(xs: seq<Interval>): (r: seq<Interval>)
    ensures DistinctValues(r) && |r| <= |xs|
    ensures forall v :: Contains(r, v) <==> Contains(xs, v)
    ensures multiset(r) <= multiset(xs)
  {
    if xs == [] then []
    else
      var init := xs[..|xs| - 1];
      var x := xs[|xs| - 1];
      var u := Unique(init);
      assert xs == init + [x];
      ValuesConcat(init, [x]);
      assert Values([x]) == [x.value];
      if Contains(u, x.value) then u
      else
        ValuesConcat(u, [x]);
        assert forall i :: 0 <= i < |u| ==> u[i].value != x.value by {
          forall i | 0 <= i < |u|
            ensures u[i].value != x.value
          {
            assert Values(u)[i] == u[i].value;
          }
        }
        var r := u + [x];
        assert Values(r) == Values(u) + [x.value];
        forall v
          ensures Contains(r, v) <==> Contains(xs, v)
        {
          assert Contains(u, v) <==> Contains(init, v);
        }
        r
  }

  /** Position of the first interval of the list with value `v`. */
  function FirstIndex(xs: seq<Interval>, v: int): (k: nat)
    requires Contains(xs, v)
    ensures k < |xs| && xs[k].value == v
    ensures forall j :: 0 <= j < k ==> xs[j].value != v
  {
    if xs[0].value == v then 0
    else
      TailContains(xs, v);
      1 + FirstIndex(xs[1..], v)
  }

  lemma TailContains(xs: seq<Interval>, v: int)
    requires Contains(xs, v) && xs[0].value != v
    ensures Contains(xs[1..], v)
  {
    var k :| 0 <= k < |xs| && Values(xs)[k] == v;
    assert Values(xs[1..])[k - 1] == v;
  }

  /** Appending an interval moves no first occurrence, and the appended one
      is first for a value the list did not hold. */
  lemma {:induction false} FirstIndexAppend(init: seq<Interval>, x: Interval, v: int)
    ensures Contains(init, v) ==> Contains(init + [x], v) && FirstIndex(init + [x], v) == FirstIndex(init, v)
    ensures !Contains(init, v) && v == x.value ==> Contains(init + [x], v) && FirstIndex(init + [x], v) == |init|
  {
    var xs := init + [x];
    ValuesConcat(init, [x]);
    assert Values([x]) == [x.value];
    if Contains(init, v) {
      var k := FirstIndex(init, v);
      assert xs[k] == init[k];
      FirstIndexAt(xs, v, k);
    } else if v == x.value {
      forall j | 0 <= j < |init|
        ensures xs[j].value != v
      {
        assert Values(init)[j] == init[j].value;
      }
      FirstIndexAt(xs, v, |init|);
    }
  }

  /** The first index is the position with value `v` that has no earlier one. */
  lemma FirstIndexAt(xs: seq<Interval>, v: int, k: nat)
    requires k < |xs| && xs[k].value == v
    requires forall j :: 0 <= j < k ==> xs[j].value != v
    ensures Contains(xs, v) && FirstIndex(xs, v) == k
  {
    assert Values(xs)[k] == v;
    var f := FirstIndex(xs, v);
    assert !(f < k) && !(k < f);
  }

  /** `r` holds first occurrences of `xs` in the order they occur: each
      member is the first interval of `xs` with its value, and the members
      appear in the order of those first positions. */
  predicate KeepsFirsts(xs: seq<Interval>, r: seq<Interval>) {
    && (forall j :: 0 <= j < |r| ==> Contains(xs, r[j].value) && r[j] == xs[FirstIndex(xs, r[j].value)])
    && (forall i, j :: 0 <= i < j < |r| ==>
          Contains(xs, r[i].value) && Contains(xs, r[j].value)
          && FirstIndex(xs, r[i].value) < FirstIndex(xs, r[j].value))
  }

  /** `unique()` keeps, in list order, the first interval of each value. */
  lemma {:induction false} UniqueFirsts(xs: seq<Interval>)
    ensures KeepsFirsts(xs, Unique(xs))
  {
    if xs != [] {
      var init := xs[..|xs| - 1];
      var x := xs[|xs| - 1];
      assert xs == init + [x];
      var u := Unique(init);
      UniqueFirsts(init);
      UniqueStep(init, x, u);
      assert Unique(xs) == if Contains(u, x.value) then u else u + [x];
    }
  }

  lemma UniqueStep(init: seq<Interval>, x: Interval, u: seq<Interval>)
    requires KeepsFirsts(init, u)
    requires forall v :: Contains(u, v) <==> Contains(init, v)
    ensures KeepsFirsts(init + [x], if Contains(u, x.value) then u else u + [x])
  {
    FirstsAfterAppend(init, x, u);
    if !Contains(u, x.value) {
      FirstIndexAppend(init, x, x.value);
      FirstsExtended(init + [x], u, x, |init|);
    }
  }

  /** First occurrences in a list stay first occurrences, at the same
      positions, once an interval is appended. */
  lemma FirstsAfterAppend(init: seq<Interval>, x: Interval, u: seq<Interval>)
    requires KeepsFirsts(init, u)
    ensures KeepsFirsts(init + [x], u)
    ensures forall j :: 0 <= j < |u| ==> FirstIndex(init + [x], u[j].value) < |init|
  {
    var xs := init + [x];
    forall j | 0 <= j < |u|
      ensures Contains(xs, u[j].value) && FirstIndex(xs, u[j].value) == FirstIndex(init, u[j].value)
      ensures u[j] == xs[FirstIndex(xs, u[j].value)]
    {
      FirstIndexAppend(init, x, u[j].value);
      var k := FirstIndex(init, u[j].value);
      assert xs[k] == init[k];
    }
  }

  /** First occurrences followed by a later first occurrence. */
  lemma FirstsExtended(xs: seq<Interval>, u: seq<Interval>, x: Interval, k: nat)
    requires KeepsFirsts(xs, u)
    requires Contains(xs, x.value) && FirstIndex(xs, x.value) == k && xs[k] == x
    requires forall j :: 0 <= j < |u| ==> FirstIndex(xs, u[j].value) < k
    ensures KeepsFirsts(xs, u + [x])
  {
    var r := u + [x];
    forall j | 0 <= j < |r|
      ensures Contains(xs, r[j].value) && r[j] == xs[FirstIndex(xs, r[j].value)]
    {
      if j < |u| {
        assert r[j] == u[j];
      }
    }
    forall i, j | 0 <= i < j < |r|
      ensures Contains(xs, r[i].value) && Contains(xs, r[j].value)
              && FirstIndex(xs, r[i].value) < FirstIndex(xs, r[j].value)
    {
      assert r[i] == u[i];
      if j < |u| {
        assert r[j] == u[j];
      }
    }
  }

  /** A list without repeated values is its own `unique()`. */
  lemma {:induction false} UniqueOfDistinct(xs: seq<Interval>)
    requires DistinctValues(xs)
    ensures Unique(xs) == xs
  {
    if xs != [] {
      var init := xs[..|xs| - 1];
      var x := xs[|xs| - 1];
      assert xs == init + [x];
      assert DistinctValues(init) by {
        assert forall i :: 0 <= i < |init| ==> init[i] == xs[i];
      }
      UniqueOfDistinct(init);
      NotContained(init, x.value, xs);
    }
  }

  /** The last value of a list without repeats is not among the others. */
  lemma NotContained(init: seq<Interval>, v: int, xs: seq<Interval>)
    requires DistinctValues(xs) && xs != [] && init == xs[..|xs| - 1] && v == xs[|xs| - 1].value
    ensures !Contains(init, v)
  {
    var vs := Values(init);
    forall m | 0 <= m < |vs|
      ensures vs[m] != v
    {
      assert init[m] == xs[m];
    }
  }

  /** `rotate(k)`: the list starting `k` places in, wrapping round; the amount
      is taken modulo the length. */
  function Rotate(xs: seq<Interval>, k: int): (r: seq<Interval>)
    ensures |r| == |xs| && multiset(r) == multiset(xs)
    ensures xs != [] ==> r[0] == xs[k % |xs|]
  {
    if xs == [] then []
    else
      var s := k % |xs|;
      assert xs == xs[..s] + xs[s..];
      xs[s..] + xs[..s]
  }

  /** Position `i` of the rotation holds the element `k` places further on,
      counted round the end of the list. */
  lemma RotateAt(xs: seq<Interval>, k: int, i: int)
    requires 0 <= i < |xs|
    ensures var s := k % |xs|;
            Rotate(xs, k)[i] == if i < |xs| - s then xs[i + s] else xs[i + s - |xs|]
  {
  }

  /** Rotating by nothing changes nothing. */
  lemma RotateZero(xs: seq<Interval>)
    ensures Rotate(xs, 0) == xs
  {
  }

  // ---------------------------------------------------------------------------
  // Element-wise arithmetic

  /** Every point-wise addition is defined. */
  predicate AddsOk(xs: seq<Interval>, ns: seq<int>)
    requires AllWellFormed(xs) && |ns| == |xs|
  {
    forall i :: 0 <= i < |xs| ==> Add(xs[i], ns[i]).Ok?
  }

  /** Point-wise addition of integer amounts, failing at the first interval
      that cannot take its amount. */
  function AddEach(xs: seq<Interval>, ns: seq<int>): (r: Result<seq<Interval>>)
    requires AllWellFormed(xs) && |ns| == |xs|
    ensures r.Ok? <==> AddsOk(xs, ns)
    ensures r.Ok? ==> |r.value| == |xs| && forall i :: 0 <= i < |xs| ==> r.value[i] == Add(xs[i], ns[i]).value
  {
    if xs == [] then Ok([])
    else
      var y := Add(xs[0], ns[0]);
      var rest := AddEach(xs[1..], ns[1..]);
      AddsOkSplit(xs, ns);
      if y.Err? then Err(y.error)
      else if rest.Err? then Err(rest.error)
      else
        var r := [y.value] + rest.value;
        assert forall i :: 0 < i < |xs| ==> r[i] == rest.value[i - 1] && xs[i] == xs[1..][i - 1] && ns[i] == ns[1..][i - 1];
        Ok(r)
  }

  lemma AddsOkSplit(xs: seq<Interval>, ns: seq<int>)
    requires AllWellFormed(xs) && |ns| == |xs| && xs != []
    ensures AddsOk(xs, ns) <==> Add(xs[0], ns[0]).Ok? && AddsOk(xs[1..], ns[1..])
  {
    if Add(xs[0], ns[0]).Ok? && AddsOk(xs[1..], ns[1..]) {
      forall i | 0 <= i < |xs|
        ensures Add(xs[i], ns[i]).Ok?
      {
        if i > 0 {
          assert xs[i] == xs[1..][i - 1] && ns[i] == ns[1..][i - 1];
        }
      }
    }
  }

  /** `list + n` with an int or an interval: the same amount added to each. */
  function ListAdd(xs: seq<Interval>, n: int): (r: Result<seq<Interval>>)
    requires AllWellFormed(xs)
    ensures r.Ok? <==> forall i :: 0 <= i < |xs| ==> Add(xs[i], n).Ok?
    ensures r.Ok? ==> |r.value| == |xs| && AllWellFormed(r.value)
    ensures r.Ok? ==> forall i :: 0 <= i < |xs| ==> r.value[i] == Add(xs[i], n).value
    ensures r.Ok? ==> forall i :: 0 <= i < |xs| ==> r.value[i].value == xs[i].value + n
  {
    AddEach(xs, seq(|xs|, _ => n))
  }

  /** `list + other` with a list: point-wise, lengths must agree. */
  function ListAddPointwise(xs: seq<Interval>, ys: seq<Interval>): (r: Result<seq<Interval>>)
    requires AllWellFormed(xs)
    ensures |xs| != |ys| ==> r == Err(LengthMismatch)
    ensures |xs| == |ys| ==> (r.Ok? <==> forall i :: 0 <= i < |xs| ==> Add(xs[i], ys[i].value).Ok?)
    ensures r.Ok? ==> |r.value| == |xs| && AllWellFormed(r.value)
    ensures r.Ok? ==> forall i :: 0 <= i < |xs| ==> r.value[i].value == xs[i].value + ys[i].value
  {
    if |xs| != |ys| then Err(LengthMismatch)
    else AddEach(xs, Values(ys))
  }

  /** Adding nothing to a list of well-formed intervals is the identity. */
  lemma {:induction false} ListAddZero(xs: seq<Interval>)
    requires AllWellFormed(xs)
    ensures ListAdd(xs, 0) == Ok(xs)
  {
    forall i | 0 <= i < |xs|
      ensures Add(xs[i], 0) == Ok(xs[i])
    {
      AddZero(xs[i]);
    }
    assert ListAdd(xs, 0).value == xs;
  }

  /** `-list`: point-wise negation. */
  function ListNeg(xs: seq<Interval>): (r: seq<Interval>)
    requires AllWellFormed(xs)
    ensures |r| == |xs| && AllWellFormed(r)
    ensures forall i :: 0 <= i < |xs| ==> r[i].value == -xs[i].value && r[i].degree == xs[i].degree
  {
    seq(|xs|, i requires 0 <= i < |xs| => Neg(xs[i]))
  }

  /** Negation is an involution on lists. */
  lemma ListNegInvolution(xs: seq<Interval>)
    requires AllWellFormed(xs)
    ensures ListNeg(ListNeg(xs)) == xs
  {
    var r := ListNeg(ListNeg(xs));
    forall i | 0 <= i < |xs|
      ensures r[i] == xs[i]
    {
      NegInvolution(xs[i]);
    }
  }

  /** `abs(list)`: each descending interval is replaced by its complement. */
  function ListAbs(xs: seq<Interval>): (r: Result<seq<Interval>>)
    requires AllWellFormed(xs)
    ensures r.Ok? <==> AbsOk(xs)
    ensures r.Ok? ==> |r.value| == |xs| && forall i :: 0 <= i < |xs| ==> r.value[i] == AbsStep(xs[i]).value
  {
    if xs == [] then Ok([])
    else
      var y := AbsStep(xs[0]);
      var rest := ListAbs(xs[1..]);
      AbsOkSplit(xs);
      if y.Err? then Err(y.error)
      else if rest.Err? then Err(rest.error)
      else
        var r := [y.value] + rest.value;
        assert forall i :: 0 < i < |xs| ==> r[i] == rest.value[i - 1] && xs[i] == xs[1..][i - 1];
        Ok(r)
  }

  /** Every interval of the list can be made ascending. */
  predicate AbsOk(xs: seq<Interval>)
    requires AllWellFormed(xs)
  {
    forall i :: 0 <= i < |xs| ==> AbsStep(xs[i]).Ok?
  }

  lemma AbsOkSplit(xs: seq<Interval>)
    requires AllWellFormed(xs) && xs != []
    ensures AbsOk(xs) <==> AbsStep(xs[0]).Ok? && AbsOk(xs[1..])
  {
    if AbsStep(xs[0]).Ok? && AbsOk(xs[1..]) {
      forall i | 0 <= i < |xs|
        ensures AbsStep(xs[i]).Ok?
      {
        if i > 0 {
          assert xs[i] == xs[1..][i - 1];
        }
      }
    }
  }

  /** `abs(list)` succeeds unless a descending interval has no complement; its
      result is ascending, keeps every pitch class and every ascending
      interval. */
  lemma ListAbsFacts(xs: seq<Interval>)
    requires AllWellFormed(xs)
    ensures ListAbs(xs).Ok? <==> forall i :: 0 <= i < |xs| && xs[i].value < 0 ==> Regular(xs[i])
    ensures ListAbs(xs).Ok? ==> var r := ListAbs(xs).value;
              && AllWellFormed(r)
              && (forall i :: 0 <= i < |xs| ==> r[i].value >= 0 && r[i].value % 12 == xs[i].value % 12)
              && (forall i :: 0 <= i < |xs| && xs[i].value >= 0 ==> r[i] == xs[i])
  {
  }

  /** One element of `abs(list)`. */
  function AbsStep(a: Interval): (r: Result<Interval>)
    requires WellFormed(a)
    ensures r.Ok? <==> a.value >= 0 || Regular(a)
    ensures r.Ok? ==> WellFormed(r.value) && r.value.value >= 0 && r.value.value % 12 == a.value % 12
    ensures r.Ok? && a.value >= 0 ==> r.value == a
    ensures r.Ok? && Regular(a) ==> Regular(r.value)
  {
    if a.value < 0 then
      ModShift12(a.value, 2 * a.octaveSpan + 1);
      Invert(a)
    else Ok(a)
  }

  // ---------------------------------------------------------------------------
  // Inversion

  /** Lists holding the same intervals hold the same members and values. */
  lemma SameContents(a: seq<Interval>, b: seq<Interval>)
    requires multiset(a) == multiset(b)
    ensures forall y :: y in a <==> y in b
    ensures forall v :: Contains(a, v) <==> Contains(b, v)
  {
    ValuesMultiset(a, b);
    forall y
      ensures y in a <==> y in b
    {
      assert y in a <==> y in multiset(a);
      assert y in b <==> y in multiset(b);
    }
    forall v
      ensures Contains(a, v) <==> Contains(b, v)
    {
      assert v in Values(a) <==> v in multiset(Values(a));
      assert v in Values(b) <==> v in multiset(Values(b));
    }
  }

  lemma InsertDistinct(x: Interval, xs: seq<Interval>, k: nat)
    requires DistinctValues(xs) && !Contains(xs, x.value) && k <= |xs|
    ensures DistinctValues(xs[..k] + [x] + xs[k..])
  {
    var r := xs[..k] + [x] + xs[k..];
    forall i, j | 0 <= i < j < |r|
      ensures r[i].value != r[j].value
    {
      assert forall m :: 0 <= m < |xs| ==> Values(xs)[m] == xs[m].value;
      if j < k {
        assert r[i] == xs[i] && r[j] == xs[j];
      } else if j == k {
        assert r[i] == xs[i];
      } else if i < k {
        assert r[i] == xs[i] && r[j] == xs[j - 1];
      } else if i == k {
        assert r[j] == xs[j - 1];
      } else {
        assert r[i] == xs[i - 1] && r[j] == xs[j - 1];
      }
    }
  }

  /** Sorting a list without repeated values leaves it without repeats. */
  lemma {:induction false} SortDistinct(xs: seq<Interval>)
    requires DistinctValues(xs)
    ensures DistinctValues(Sort(xs))
  {
    if xs != [] {
      var rest := Sort(xs[1..]);
      SortDistinct(xs[1..]);
      SameContents(rest, xs[1..]);
      assert !Contains(xs[1..], xs[0].value) by {
        forall m | 0 <= m < |xs| - 1
          ensures Values(xs[1..])[m] != xs[0].value
        {
          assert xs[1..][m] == xs[m + 1];
        }
      }
      InsertDistinct(xs[0], rest, InsertPoint(xs[0], rest));
    }
  }

  /** The shape every inverted chord list has: ascending without repeats,
      starting at the unison, never descending. */
  predicate InvertedShape(ys: seq<Interval>) {
    && ys != [] && ys[0].value == 0
    && Sorted(ys) && DistinctValues(ys) && AllWellFormed(ys)
    && forall i :: 0 <= i < |ys| ==> ys[i].value >= 0
  }

  /** `positive` is `rotated` measured from its first interval, with every
      descending result replaced by an ascending one of the same pitch
      class. */
  predicate Recentred(rotated: seq<Interval>, positive: seq<Interval>) {
    && rotated != [] && |positive| == |rotated|
    && forall k :: 0 <= k < |rotated| ==>
         && positive[k].value >= 0
         && positive[k].value % 12 == (rotated[k].value - rotated[0].value) % 12
         && (rotated[k].value >= rotated[0].value ==> positive[k].value == rotated[k].value - rotated[0].value)
  }

  /** `r` holds every value of `xs` and only intervals taken from `xs`. */
  predicate DrawnFrom(xs: seq<Interval>, r: seq<Interval>) {
    && (forall k :: 0 <= k < |xs| ==> Contains(r, xs[k].value))
    && (forall j :: 0 <= j < |r| ==> r[j] in xs)
  }

  /** Every interval of the list has a complement. */
  predicate AllRegular(xs: seq<Interval>) {
    forall i :: 0 <= i < |xs| ==> Regular(xs[i])
  }

  /** `c` is what `invert` makes of the interval `a` for a new root: `a`
      less the root, complemented when that is descending. */
  predicate Measured(a: Interval, root: int, c: Interval) {
    && WellFormed(a)
    && Add(a, -root).Ok?
    && AbsStep(Add(a, -root).value) == Ok(c)
  }

  /** `c` is some interval of `xs` measured from `root`. */
  predicate MeasuredFrom(xs: seq<Interval>, root: int, c: Interval) {
    exists i :: 0 <= i < |xs| && Measured(xs[i], root, c)
  }

  /** What `invert` promises about its result `r`, measured from `root`: the
      inverted shape, exactly the pitch classes of the list measured from the
      root, every interval at or above the root measured from it, and nothing
      in the result that is not some interval of the list so measured. */
  predicate InvertedFrom(xs: seq<Interval>, root: int, r: seq<Interval>) {
    && InvertedContent(xs, root, r)
    && (forall j :: 0 <= j < |r| ==> MeasuredFrom(xs, root, r[j]))
  }

  /** The shape and pitch-class part of `InvertedFrom`. */
  predicate InvertedContent(xs: seq<Interval>, root: int, r: seq<Interval>) {
    && InvertedShape(r)
    && PitchClasses(r) == ClassesFrom(xs, root)
    && (forall i :: 0 <= i < |xs| && xs[i].value >= root ==> Contains(r, xs[i].value - root))
  }

  /** Each interval of `positive` is its interval of `rotated` measured from
      the first one. */
  predicate MeasuredAll(rotated: seq<Interval>, positive: seq<Interval>)
    requires rotated != []
  {
    && |positive| == |rotated|
    && forall k :: 0 <= k < |rotated| ==> Measured(rotated[k], rotated[0].value, positive[k])
  }

  /** `invert(p)`: rotate so that the `p`-th interval comes first, measure
      every interval from it, replace descending intervals by their
      complements, drop repeated values and sort. */
  function ListInvert(xs: seq<Interval>, p: int): (r: Result<seq<Interval>>)
    requires AllWellFormed(xs)
    ensures xs == [] ==> r == Err(EmptyList)
    ensures xs != [] && AllRegular(xs) ==> r.Ok?
    ensures r.Ok? ==> xs != [] && InvertedFrom(xs, Rotate(xs, p)[0].value, r.value)
  {
    var rotated := Rotate(xs, p);
    if rotated == [] then Err(EmptyList)
    else
      RotatedWellFormed(xs, p);
      RecentreDefined(rotated);
      var positive :- Recentre(rotated);
      InvertFinish(xs, rotated, positive);
      Ok(Sort(Unique(positive)))
  }

  /** The last steps of `invert`: deduplicating and sorting the recentred
      list gives the promised result. */
  lemma InvertFinish(xs: seq<Interval>, rotated: seq<Interval>, positive: seq<Interval>)
    requires multiset(rotated) == multiset(xs)
    requires AllWellFormed(positive) && Recentred(rotated, positive) && positive[0].value == 0
    requires MeasuredAll(rotated, positive)
    ensures InvertedFrom(xs, rotated[0].value, Sort(Unique(positive)))
  {
    InvertFinishContent(xs, rotated, positive);
    InvertFinishMeasured(xs, rotated, positive);
  }

  lemma InvertFinishContent(xs: seq<Interval>, rotated: seq<Interval>, positive: seq<Interval>)
    requires multiset(rotated) == multiset(xs)
    requires AllWellFormed(positive) && Recentred(rotated, positive) && positive[0].value == 0
    ensures InvertedContent(xs, rotated[0].value, Sort(Unique(positive)))
  {
    var u := Unique(positive);
    var r := Sort(u);
    SortDistinct(u);
    DedupContent(positive, u, r);
    InvertShape(positive, r);
    ContentForward(xs, rotated, positive, r);
    ContentBackward(xs, rotated, positive, r);
  }

  lemma InvertFinishMeasured(xs: seq<Interval>, rotated: seq<Interval>, positive: seq<Interval>)
    requires multiset(rotated) == multiset(xs) && rotated != []
    requires MeasuredAll(rotated, positive)
    ensures var r := Sort(Unique(positive));
            forall j :: 0 <= j < |r| ==> MeasuredFrom(xs, rotated[0].value, r[j])
  {
    var u := Unique(positive);
    var r := Sort(u);
    DedupContent(positive, u, r);
    MeasuredBackward(xs, rotated, positive, r);
  }

  /** Every member of the result is some interval of the list measured from
      the root. */
  lemma MeasuredBackward(xs: seq<Interval>, rotated: seq<Interval>, positive: seq<Interval>, r: seq<Interval>)
    requires multiset(rotated) == multiset(xs) && rotated != []
    requires MeasuredAll(rotated, positive) && DrawnFrom(positive, r)
    ensures forall j :: 0 <= j < |r| ==> MeasuredFrom(xs, rotated[0].value, r[j])
  {
    forall j | 0 <= j < |r|
      ensures MeasuredFrom(xs, rotated[0].value, r[j])
    {
      var k :| 0 <= k < |positive| && positive[k] == r[j];
      assert rotated[k] in multiset(xs);
      var i :| 0 <= i < |xs| && xs[i] == rotated[k];
      assert Measured(xs[i], rotated[0].value, r[j]);
    }
  }

  /** The middle steps of `invert`: subtract the first interval from all of
      them and complement what became descending. */
  function Recentre(rotated: seq<Interval>): (r: Result<seq<Interval>>)
    requires AllWellFormed(rotated) && rotated != []
    ensures r.Ok? ==> AllWellFormed(r.value) && Recentred(rotated, r.value) && r.value[0].value == 0
    ensures r.Ok? ==> MeasuredAll(rotated, r.value)
  {
    var recentred :- ListAdd(rotated, -rotated[0].value);
    var positive :- ListAbs(recentred);
    RecentreSteps(rotated, recentred, positive);
    Ok(positive)
  }

  lemma RecentreSteps(rotated: seq<Interval>, recentred: seq<Interval>, positive: seq<Interval>)
    requires AllWellFormed(rotated) && rotated != []
    requires ListAdd(rotated, -rotated[0].value) == Ok(recentred)
    requires ListAbs(recentred) == Ok(positive)
    ensures AllWellFormed(positive) && Recentred(rotated, positive) && positive[0].value == 0
    ensures MeasuredAll(rotated, positive)
  {
    StepsFromLists(rotated, recentred, positive);
    StepsRecentre(rotated, recentred, positive);
    forall k | 0 <= k < |rotated|
      ensures Measured(rotated[k], rotated[0].value, positive[k])
    {
      assert Add(rotated[k], -rotated[0].value) == Ok(recentred[k]);
    }
  }

  /** Each interval's way through the two list steps. */
  predicate StepsAgree(rotated: seq<Interval>, recentred: seq<Interval>, positive: seq<Interval>)
    requires AllWellFormed(rotated) && rotated != []
  {
    && |recentred| == |rotated| && |positive| == |rotated|
    && forall k :: 0 <= k < |rotated| ==>
         && recentred[k].value == rotated[k].value - rotated[0].value
         && WellFormed(recentred[k])
         && AbsStep(recentred[k]) == Ok(positive[k])
         && Add(rotated[k], -rotated[0].value) == Ok(recentred[k])
  }

  lemma StepsFromLists(rotated: seq<Interval>, recentred: seq<Interval>, positive: seq<Interval>)
    requires AllWellFormed(rotated) && rotated != []
    requires ListAdd(rotated, -rotated[0].value) == Ok(recentred)
    requires ListAbs(recentred) == Ok(positive)
    ensures StepsAgree(rotated, recentred, positive)
  {
    forall k | 0 <= k < |rotated|
      ensures && recentred[k].value == rotated[k].value - rotated[0].value
              && WellFormed(recentred[k])
              && AbsStep(recentred[k]) == Ok(positive[k])
              && Add(rotated[k], -rotated[0].value) == Ok(recentred[k])
    {
      assert AbsStep(recentred[k]) == Ok(positive[k]);
    }
  }

  lemma StepsRecentre(rotated: seq<Interval>, recentred: seq<Interval>, positive: seq<Interval>)
    requires AllWellFormed(rotated) && rotated != []
    requires StepsAgree(rotated, recentred, positive)
    ensures AllWellFormed(positive) && Recentred(rotated, positive) && positive[0].value == 0
  {
    forall k | 0 <= k < |rotated|
      ensures WellFormed(positive[k])
    {
      assert AbsStep(recentred[k]) == Ok(positive[k]);
    }
    forall k | 0 <= k < |rotated|
      ensures && positive[k].value >= 0
              && positive[k].value % 12 == (rotated[k].value - rotated[0].value) % 12
              && (rotated[k].value >= rotated[0].value ==> positive[k].value == rotated[k].value - rotated[0].value)
    {
      StepAt(rotated, recentred, positive, k);
    }
  }

  lemma StepAt(rotated: seq<Interval>, recentred: seq<Interval>, positive: seq<Interval>, k: int)
    requires AllWellFormed(rotated) && rotated != []
    requires StepsAgree(rotated, recentred, positive)
    requires 0 <= k < |rotated|
    ensures && positive[k].value >= 0
            && positive[k].value % 12 == (rotated[k].value - rotated[0].value) % 12
            && (rotated[k].value >= rotated[0].value ==> positive[k].value == rotated[k].value - rotated[0].value)
  {
    RecentreStep(rotated[k], rotated[0].value, recentred[k], positive[k]);
  }

  /** One interval measured from the root and made ascending. */
  lemma RecentreStep(a: Interval, root: int, b: Interval, c: Interval)
    requires WellFormed(a) && WellFormed(b) && b.value == a.value - root && AbsStep(b) == Ok(c)
    ensures c.value >= 0 && WellFormed(c)
    ensures c.value % 12 == (a.value - root) % 12
    ensures a.value >= root ==> c.value == a.value - root
  {
  }

  /** Recentring succeeds when every interval has a complement. */
  lemma RecentreDefined(rotated: seq<Interval>)
    requires AllWellFormed(rotated) && rotated != []
    ensures AllRegular(rotated) ==> Recentre(rotated).Ok?
  {
    if AllRegular(rotated) {
      var recentred := ListAdd(rotated, -rotated[0].value);
      assert recentred.Ok?;
      forall i | 0 <= i < |recentred.value|
        ensures Regular(recentred.value[i])
      {
        assert recentred.value[i] == Add(rotated[i], -rotated[0].value).value;
      }
      ListAbsFacts(recentred.value);
    }
  }

  /** Recentring a list already in the inverted shape changes nothing. */
  lemma RecentreIdentity(xs: seq<Interval>)
    requires InvertedShape(xs)
    ensures Recentre(xs) == Ok(xs)
  {
    var zero := -xs[0].value;
    assert zero == 0;
    ListAddZero(xs);
    assert ListAdd(xs, zero) == Ok(xs);
    ListAbsAscending(xs);
    assert ListAbs(xs) == Ok(xs);
    assert Recentre(xs) == ListAbs(ListAdd(xs, zero).value);
  }

  /** `abs` leaves a list without descending intervals unchanged. */
  lemma ListAbsAscending(xs: seq<Interval>)
    requires AllWellFormed(xs)
    requires forall i :: 0 <= i < |xs| ==> xs[i].value >= 0
    ensures ListAbs(xs) == Ok(xs)
  {
    assert ListAbs(xs).Ok?;
    assert ListAbs(xs).value == xs;
  }

  lemma RotatedWellFormed(xs: seq<Interval>, p: int)
    requires AllWellFormed(xs)
    ensures AllWellFormed(Rotate(xs, p))
    ensures AllRegular(xs) ==> AllRegular(Rotate(xs, p))
  {
  }

  /** Deduplicating then sorting keeps every value of the list and draws
      every member from it. */
  lemma DedupContent(xs: seq<Interval>, u: seq<Interval>, r: seq<Interval>)
    requires forall v :: Contains(u, v) <==> Contains(xs, v)
    requires multiset(u) <= multiset(xs) && multiset(r) == multiset(u)
    ensures DrawnFrom(xs, r)
  {
    SameContents(r, u);
    forall k | 0 <= k < |xs|
      ensures Contains(r, xs[k].value)
    {
      assert Values(xs)[k] == xs[k].value;
    }
    forall j | 0 <= j < |r|
      ensures r[j] in xs
    {
      assert r[j] in multiset(u);
    }
  }

  /** Deduplicating and sorting a non-descending list that contains the
      unison gives the inverted shape. */
  lemma InvertShape(positive: seq<Interval>, r: seq<Interval>)
    requires AllWellFormed(positive) && positive != [] && positive[0].value == 0
    requires forall i :: 0 <= i < |positive| ==> positive[i].value >= 0
    requires DrawnFrom(positive, r) && Sorted(r) && DistinctValues(r)
    ensures InvertedShape(r)
  {
    forall i | 0 <= i < |r|
      ensures WellFormed(r[i]) && r[i].value >= 0
    {
      var k :| 0 <= k < |positive| && positive[k] == r[i];
    }
    assert Contains(r, 0);
    var j :| 0 <= j < |r| && Values(r)[j] == 0;
    assert r[0].value <= r[j].value;
  }

  /** `invert(0)` of an ascending list without repeats that starts at the
      unison gives the list back. */
  lemma ListInvertZero(xs: seq<Interval>)
    requires InvertedShape(xs)
    ensures ListInvert(xs, 0) == Ok(xs)
  {
    RotateZero(xs);
    RecentreIdentity(xs);
    UniqueOfDistinct(xs);
    SortSorted(xs);
  }

  /** Pitch classes of a list: values modulo 12. */
  function PitchClasses(ys: seq<Interval>): (classes: set<int>) {
    set j | 0 <= j < |ys| :: ys[j].value % 12
  }

  /** Pitch classes of a list measured from `root`. */
  function ClassesFrom(xs: seq<Interval>, root: int): (classes: set<int>) {
    set i | 0 <= i < |xs| :: (xs[i].value - root) % 12
  }

  /** Every pitch class of the list, measured from the root, survives the
      recentring and deduplication steps, and so does every interval above
      the root. */
  lemma ContentForward(xs: seq<Interval>, rotated: seq<Interval>, positive: seq<Interval>, r: seq<Interval>)
    requires multiset(rotated) == multiset(xs)
    requires Recentred(rotated, positive) && DrawnFrom(positive, r)
    ensures ClassesFrom(xs, rotated[0].value) <= PitchClasses(r)
    ensures forall i :: 0 <= i < |xs| && xs[i].value >= rotated[0].value ==> Contains(r, xs[i].value - rotated[0].value)
  {
    forall i | 0 <= i < |xs|
      ensures (xs[i].value - rotated[0].value) % 12 in PitchClasses(r)
      ensures xs[i].value >= rotated[0].value ==> Contains(r, xs[i].value - rotated[0].value)
    {
      ContentForwardAt(xs, rotated, positive, r, i);
    }
  }

  lemma ContentForwardAt(xs: seq<Interval>, rotated: seq<Interval>, positive: seq<Interval>, r: seq<Interval>, i: int)
    requires multiset(rotated) == multiset(xs)
    requires Recentred(rotated, positive) && DrawnFrom(positive, r)
    requires 0 <= i < |xs|
    ensures (xs[i].value - rotated[0].value) % 12 in PitchClasses(r)
    ensures xs[i].value >= rotated[0].value ==> Contains(r, xs[i].value - rotated[0].value)
  {
    assert xs[i] in multiset(rotated);
    var k :| 0 <= k < |rotated| && rotated[k] == xs[i];
    assert Contains(r, positive[k].value);
    var j :| 0 <= j < |r| && Values(r)[j] == positive[k].value;
    assert r[j].value % 12 in PitchClasses(r);
  }

  /** Nothing but those pitch classes appears. */
  lemma ContentBackward(xs: seq<Interval>, rotated: seq<Interval>, positive: seq<Interval>, r: seq<Interval>)
    requires multiset(rotated) == multiset(xs)
    requires Recentred(rotated, positive) && DrawnFrom(positive, r)
    ensures PitchClasses(r) <= ClassesFrom(xs, rotated[0].value)
  {
    var root := rotated[0].value;
    forall j | 0 <= j < |r|
      ensures r[j].value % 12 in ClassesFrom(xs, root)
    {
      var k :| 0 <= k < |positive| && positive[k] == r[j];
      assert rotated[k] in multiset(xs);
      var i :| 0 <= i < |xs| && xs[i] == rotated[k];
      assert (xs[i].value - root) % 12 in ClassesFrom(xs, root);
    }
  }

  // ---------------------------------------------------------------------------
  // Subtraction

  /** `list - n` with an int or an interval: `list + (-n)`. */
  function ListSub(xs: seq<Interval>, n: int): (r: Result<seq<Interval>>)
    requires AllWellFormed(xs)
    ensures r.Ok? <==> forall i :: 0 <= i < |xs| ==> Sub(xs[i], n).Ok?
    ensures r.Ok? ==> |r.value| == |xs| && AllWellFormed(r.value)
    ensures r.Ok? ==> forall i :: 0 <= i < |xs| ==> r.value[i] == Sub(xs[i], n).value
    ensures r.Ok? ==> forall i :: 0 <= i < |xs| ==> r.value[i].value == xs[i].value - n
  {
    ListAdd(xs, -n)
  }

  /** `list - other` with an interval list: point-wise, `list + (-other)`. */
  function ListSubPointwise(xs: seq<Interval>, ys: seq<Interval>): (r: Result<seq<Interval>>)
    requires AllWellFormed(xs) && AllWellFormed(ys)
    ensures |xs| != |ys| ==> r == Err(LengthMismatch)
    ensures r.Ok? ==> |r.value| == |xs| && AllWellFormed(r.value)
    ensures r.Ok? ==> forall i :: 0 <= i < |xs| ==> r.value[i].value == xs[i].value - ys[i].value
  {
    ListAddPointwise(xs, ListNeg(ys))
  }

  /** Subtracting from a list what was added to it gives the list back, as
      long as whole octaves were added or every degree is the default one. */
  lemma ListAddSubRoundTrip(xs: seq<Interval>, n: int)
    requires AllWellFormed(xs) && AllRegular(xs)
    requires n % 12 == 0 || forall i :: 0 <= i < |xs| ==> xs[i].degree == DefaultDegree(xs[i].mod)
    ensures ListAdd(xs, n).Ok? && ListSub(ListAdd(xs, n).value, n) == Ok(xs)
  {
    forall i | 0 <= i < |xs|
      ensures Add(xs[i], n).Ok? && Sub(Add(xs[i], n).value, n) == Ok(xs[i])
    {
      AddSubRoundTrip(xs[i], n);
    }
    var ys := ListAdd(xs, n).value;
    var zs := ListSub(ys, n);
    assert forall i :: 0 <= i < |xs| ==> Sub(ys[i], n) == Ok(xs[i]);
    assert zs.Ok?;
    assert zs.value == xs;
  }

  // ---------------------------------------------------------------------------
  // Stacking

  /** Running totals starting from `base`: entry k adds the first k+1 values. */
  function RunningSums(base: int, vs: seq<int>): (ps: seq<int>)
    ensures |ps| == |vs|
    decreases vs
  {
    if vs == [] then [] else [base + vs[0]] + RunningSums(base + vs[0], vs[1..])
  }

  /** Steps between successive values, the first measured from `base`. */
  function Steps(base: int, ws: seq<int>): (ds: seq<int>)
    ensures |ds| == |ws|
    decreases ws
  {
    if ws == [] then [] else [ws[0] - base] + Steps(ws[0], ws[1..])
  }

  /** Taking the steps of running totals gives the summands back. */
  lemma {:induction false} StepsOfSums(base: int, vs: seq<int>)
    ensures Steps(base, RunningSums(base, vs)) == vs
    decreases vs
  {
    if vs != [] {
      StepsOfSums(base + vs[0], vs[1..]);
    }
  }

  /** Summing the steps of a sequence gives the sequence back. */
  lemma {:induction false} SumsOfSteps(base: int, ws: seq<int>)
    ensures RunningSums(base, Steps(base, ws)) == ws
    decreases ws
  {
    if ws != [] {
      SumsOfSteps(ws[0], ws[1..]);
    }
  }

  /** Running totals of non-negative amounts never fall and never drop
      below the base. */
  lemma {:induction false} SumsAscend(base: int, vs: seq<int>)
    requires forall i :: 0 <= i < |vs| ==> vs[i] >= 0
    ensures SortedInts(RunningSums(base, vs))
    ensures forall i :: 0 <= i < |vs| ==> RunningSums(base, vs)[i] >= base
    decreases vs
  {
    if vs != [] {
      assert forall i :: 0 <= i < |vs| - 1 ==> vs[1..][i] == vs[i + 1];
      SumsAscend(base + vs[0], vs[1..]);
    }
  }

  /** The steps of a non-decreasing sequence that starts at or above the base
      are non-negative. */
  lemma {:induction false} StepsNonNegative(base: int, ws: seq<int>)
    requires SortedInts(ws) && (ws != [] ==> ws[0] >= base)
    ensures forall i :: 0 <= i < |ws| ==> Steps(base, ws)[i] >= 0
    decreases ws
  {
    if ws != [] {
      StepsNonNegative(ws[0], ws[1..]);
      assert forall i :: 0 < i < |ws| ==> Steps(base, ws)[i] == Steps(ws[0], ws[1..])[i - 1];
    }
  }

  /** Values of a list built from a head and a tail, and of a list's tail. */
  lemma ValuesCons(xs: seq<Interval>, y: Interval, ys: seq<Interval>)
    requires xs != []
    ensures Values(xs[1..]) == Values(xs)[1..]
    ensures Values([y] + ys) == [y.value] + Values(ys)
  {
  }

  predicate NonNegative(xs: seq<Interval>) {
    forall i :: 0 <= i < |xs| ==> xs[i].value >= 0
  }

  lemma NonNegativeTail(xs: seq<Interval>)
    requires NonNegative(xs) && xs != []
    ensures NonNegative(xs[1..]) && Values(xs[1..]) == Values(xs)[1..]
  {
  }

  /** `stack`: running totals of the list as intervals from the tonic.  The
      first interval is kept; each later one is added to the total so far
      with interval addition, which can fail when a whole-octave sum flips
      the direction of an interval that has no complement. */
  function Stack(xs: seq<Interval>): (r: Result<seq<Interval>>)
    requires AllWellFormed(xs)
    ensures r.Ok? ==> |r.value| == |xs| && AllWellFormed(r.value)
    ensures r.Ok? ==> Values(r.value) == RunningSums(0, Values(xs))
    ensures r.Ok? && xs != [] ==> r.value[0] == xs[0]
    ensures NonNegative(xs) ==> r.Ok?
  {
    if xs == [] then Ok([])
    else
      var rest := StackOnto(xs[0], xs[1..]);
      StackOntoOk(xs[0], xs[1..]);
      if rest.Err? then Err(rest.error)
      else
        var r := [xs[0]] + rest.value;
        ValuesCons(xs, xs[0], rest.value);
        Ok(r)
  }

  /** The totals after `top`, adding each interval of `xs` in turn. */
  function StackOnto(top: Interval, xs: seq<Interval>): (r: Result<seq<Interval>>)
    requires WellFormed(top) && AllWellFormed(xs)
    ensures r.Ok? ==> |r.value| == |xs| && AllWellFormed(r.value)
    ensures r.Ok? ==> Values(r.value) == RunningSums(top.value, Values(xs))
    decreases |xs|
  {
    if xs == [] then Ok([])
    else
      var next := Add(xs[0], top.value);
      if next.Err? then Err(next.error)
      else
        var rest := StackOnto(next.value, xs[1..]);
        if rest.Err? then Err(rest.error)
        else
          var r := [next.value] + rest.value;
          ValuesCons(xs, next.value, rest.value);
          Ok(r)
  }

  /** Adding non-negative intervals to a non-negative total never fails. */
  lemma {:induction false} StackOntoOk(top: Interval, xs: seq<Interval>)
    requires WellFormed(top) && AllWellFormed(xs)
    ensures top.value >= 0 && NonNegative(xs) ==> StackOnto(top, xs).Ok?
    decreases |xs|
  {
    if xs != [] && top.value >= 0 && NonNegative(xs) {
      var next := Add(xs[0], top.value);
      assert next.Ok?;
      StackOntoOk(next.value, xs[1..]);
    }
  }

  /** `unstack`: the steps between successive intervals of a sorted list, the
      first interval kept; each step is an interval subtraction. */
  function Unstack(xs: seq<Interval>): (r: Result<seq<Interval>>)
    requires AllWellFormed(xs)
    ensures !Sorted(xs) ==> r == Err(NotSorted)
    ensures r.Ok? ==> Sorted(xs) && |r.value| == |xs| && AllWellFormed(r.value)
    ensures r.Ok? ==> Values(r.value) == Steps(0, Values(xs))
    ensures r.Ok? && xs != [] ==> r.value[0] == xs[0]
    ensures Sorted(xs) && NonNegative(xs) ==> r.Ok?
  {
    if !Sorted(xs) then Err(NotSorted)
    else if xs == [] then Ok([])
    else
      var rest := UnstackFrom(xs[0], xs[1..]);
      UnstackFromOk(xs[0], xs[1..]);
      if rest.Err? then Err(rest.error)
      else
        var r := [xs[0]] + rest.value;
        ValuesCons(xs, xs[0], rest.value);
        Ok(r)
  }

  /** The steps after `prev`, each interval minus the one before it. */
  function UnstackFrom(prev: Interval, xs: seq<Interval>): (r: Result<seq<Interval>>)
    requires WellFormed(prev) && AllWellFormed(xs)
    ensures r.Ok? ==> |r.value| == |xs| && AllWellFormed(r.value)
    ensures r.Ok? ==> Values(r.value) == Steps(prev.value, Values(xs))
    decreases |xs|
  {
    if xs == [] then Ok([])
    else
      var next := Sub(xs[0], prev.value);
      if next.Err? then Err(next.error)
      else
        var rest := UnstackFrom(xs[0], xs[1..]);
        if rest.Err? then Err(rest.error)
        else
          var r := [next.value] + rest.value;
          ValuesCons(xs, next.value, rest.value);
          Ok(r)
  }

  /** The steps of a sorted non-negative list that starts at or above `prev`
      are all defined. */
  lemma {:induction false} UnstackFromOk(prev: Interval, xs: seq<Interval>)
    requires WellFormed(prev) && AllWellFormed(xs)
    ensures Sorted(xs) && NonNegative(xs) && (xs != [] ==> prev.value <= xs[0].value) ==> UnstackFrom(prev, xs).Ok?
    decreases |xs|
  {
    if xs != [] && Sorted(xs) && NonNegative(xs) && prev.value <= xs[0].value {
      assert Sub(xs[0], prev.value).Ok?;
      UnstackFromOk(xs[0], xs[1..]);
    }
  }

  /** Stacking non-negative steps and unstacking the result gives the steps
      back. */
  lemma StackThenUnstack(xs: seq<Interval>)
    requires AllWellFormed(xs) && NonNegative(xs)
    ensures Stack(xs).Ok? && Unstack(Stack(xs).value).Ok?
    ensures Values(Unstack(Stack(xs).value).value) == Values(xs)
  {
    var ys := Stack(xs).value;
    SumsAscend(0, Values(xs));
    StepsOfSums(0, Values(xs));
    assert Sorted(ys) && NonNegative(ys);
  }

  /** Unstacking a sorted non-negative list and stacking the steps gives the
      list back. */
  lemma UnstackThenStack(xs: seq<Interval>)
    requires AllWellFormed(xs) && Sorted(xs) && NonNegative(xs)
    ensures Unstack(xs).Ok? && Stack(Unstack(xs).value).Ok?
    ensures Values(Stack(Unstack(xs).value).value) == Values(xs)
  {
    var ys := Unstack(xs).value;
    StepsNonNegative(0, Values(xs));
    SumsOfSteps(0, Values(xs));
    assert NonNegative(ys);
  }

  /** The example of the `stack` documentation: a major third, a minor third
      and two major thirds stack to a major third, a fifth, a major seventh
      and a tenth. */
  lemma StackExample(xs: seq<Interval>)
    requires AllWellFormed(xs) && Values(xs) == [4, 3, 4, 4]
    ensures Stack(xs).Ok? && Values(Stack(xs).value) == [4, 7, 11, 15]
  {
    assert NonNegative(xs);
    assert RunningSums(15, []) == [];
    assert RunningSums(11, [4]) == [15];
    assert RunningSums(7, [4, 4]) == [11, 15];
    assert RunningSums(4, [3, 4, 4]) == [7, 11, 15];
    assert RunningSums(0, [4, 3, 4, 4]) == [4, 7, 11, 15];
  }

  // ---------------------------------------------------------------------------
  // Strip and pad

  /** `strip()`: a unison or whole-octave interval at either end is dropped.
      Reading the ends of an empty list fails. */
  function Strip(xs: seq<Interval>): (r: Result<seq<Interval>>)
    ensures xs == [] <==> r == Err(EmptyList)
    ensures r.Ok? ==> var lo := if xs[0].mod == 0 then 1 else 0;
                      var hi := if xs[|xs| - 1].mod == 0 then |xs| - 1 else |xs|;
                      r.value == if lo <= hi then xs[lo..hi] else []
  {
    if xs == [] then Err(EmptyList)
    else
      var front := if xs[0].mod == 0 then xs[1..] else xs;
      Ok(if xs[|xs| - 1].mod == 0 && front != [] then front[..|front| - 1] else front)
  }

  /** The unison added below a list by `pad`, `Interval(0)`. */
  const Unison := Interval(0, 0, 0, 1, 1)

  lemma UnisonIsDefault()
    ensures WellFormed(Unison) && Unison == FromValue(0)
  {
    DefaultFromValue(Unison);
  }

  /** The whole-octave interval added above `top` by `pad`: the octave just
      above its own octave span, with its default degree. */
  function PadAbove(top: Interval): (u: Interval)
    requires WellFormed(top)
    ensures WellFormed(u) && u.mod == 0 && u.degree == 1 && u.value > top.value
    ensures u.value == 12 * (top.octaveSpan + 1)
  {
    var k := top.octaveSpan + 1;
    Interval(12 * k, k, 0, 1, 1 + 7 * k)
  }

  lemma PadAboveIsDefault(top: Interval)
    requires WellFormed(top)
    ensures PadAbove(top) == FromValue(12 * (top.octaveSpan + 1))
  {
    DefaultFromValue(PadAbove(top));
  }

  /** `pad(left, right)`: a sorted list gets a unison below when `left` and it
      does not already start with one, and the octave above its last
      interval when `right` and it does not already end on a whole number of
      octaves.  The list is asserted sorted first; an empty one has no ends. */
  function Pad(xs: seq<Interval>, left: bool, right: bool): (r: Result<seq<Interval>>)
    requires AllWellFormed(xs)
    ensures !Sorted(xs) ==> r == Err(NotSorted)
    ensures Sorted(xs) && xs == [] ==> r == Err(EmptyList)
    ensures r.Ok? ==> && Sorted(xs) && xs != []
                      && r.value == Padding(left && xs[0].mod != 0, Unison) + xs
                                    + Padding(right && xs[|xs| - 1].mod != 0, PadAbove(xs[|xs| - 1]))
  {
    if !Sorted(xs) then Err(NotSorted)
    else if xs == [] then Err(EmptyList)
    else
      var front := if xs[0].mod != 0 && left then [Unison] + xs else xs;
      var top := xs[|xs| - 1];
      Ok(if top.mod != 0 && right then front + [PadAbove(top)] else front)
  }

  /** The one interval `pad` adds at an end, when it adds one. */
  function Padding(add: bool, u: Interval): (p: seq<Interval>)
    ensures |p| <= 1 && (add <==> p == [u])
  {
    if add then [u] else []
  }

  /** A padded list holds well-formed intervals; a requested end is a unison
      or a whole number of octaves; the list stays sorted unless a unison was
      put below a descending first interval. */
  lemma PadEnds(xs: seq<Interval>, left: bool, right: bool)
    requires AllWellFormed(xs) && Sorted(xs) && xs != []
    ensures Pad(xs, left, right).Ok?
    ensures var r := Pad(xs, left, right).value;
            && (left ==> r[0].mod == 0)
            && (right ==> r[|r| - 1].mod == 0)
            && |xs| <= |r| <= |xs| + 2
  {
  }

  lemma PadWellFormed(xs: seq<Interval>, left: bool, right: bool)
    requires AllWellFormed(xs) && Sorted(xs) && xs != []
    ensures Pad(xs, left, right).Ok? && AllWellFormed(Pad(xs, left, right).value)
  {
    var below := Padding(left && xs[0].mod != 0, Unison);
    var above := Padding(right && xs[|xs| - 1].mod != 0, PadAbove(xs[|xs| - 1]));
    var r := below + xs + above;
    forall i | 0 <= i < |r|
      ensures WellFormed(r[i])
    {
      if |below| <= i < |below| + |xs| {
        assert r[i] == xs[i - |below|];
      }
    }
  }

  lemma PadKeepsOrder(xs: seq<Interval>, left: bool, right: bool)
    requires AllWellFormed(xs) && Sorted(xs) && xs != []
    requires left ==> xs[0].value >= 0
    ensures Pad(xs, left, right).Ok? && Sorted(Pad(xs, left, right).value)
  {
    var below := Padding(left && xs[0].mod != 0, Unison);
    var above := Padding(right && xs[|xs| - 1].mod != 0, PadAbove(xs[|xs| - 1]));
    PadSorted(xs, below, above);
  }

  lemma PadSorted(xs: seq<Interval>, below: seq<Interval>, above: seq<Interval>)
    requires AllWellFormed(xs) && Sorted(xs) && xs != []
    requires below == [] || (below == [Unison] && xs[0].value >= 0)
    requires above == [] || above == [PadAbove(xs[|xs| - 1])]
    ensures Sorted(below + xs + above)
  {
    var r := below + xs + above;
    var b := |below|;
    forall i, j | 0 <= i < j < |r|
      ensures r[i].value <= r[j].value
    {
      if i < b {
        assert r[i] == Unison;
        if j < b + |xs| {
          assert r[j] == xs[j - b] && xs[0].value <= xs[j - b].value;
        }
      } else if j < b + |xs| {
        assert r[i] == xs[i - b] && r[j] == xs[j - b];
      } else {
        assert r[i] == xs[i - b] && xs[i - b].value <= xs[|xs| - 1].value;
      }
    }
  }

  /** Padding a sorted list whose ends are not unisons on both sides and
      stripping the result gives the list back. */
  lemma StripPadRoundTrip(xs: seq<Interval>)
    requires AllWellFormed(xs) && Sorted(xs) && xs != []
    requires xs[0].mod != 0 && xs[|xs| - 1].mod != 0
    ensures Pad(xs, true, true).Ok? && Strip(Pad(xs, true, true).value) == Ok(xs)
  {
    var r := Pad(xs, true, true).value;
    assert r == [Unison] + xs + [PadAbove(xs[|xs| - 1])];
    assert r[1..|r| - 1] == xs;
  }

  /** Padding an already padded list changes nothing. */
  lemma PadIdempotent(xs: seq<Interval>, left: bool, right: bool)
    requires AllWellFormed(xs) && Sorted(xs) && xs != []
    requires left ==> xs[0].value >= 0
    ensures Pad(xs, left, right).Ok?
    ensures Pad(Pad(xs, left, right).value, left, right) == Pad(xs, left, right)
  {
    PadEnds(xs, left, right);
    PadWellFormed(xs, left, right);
    PadKeepsOrder(xs, left, right);
    PadNothing(Pad(xs, left, right).value, left, right);
  }

  /** A sorted list that already has the requested ends is not padded. */
  lemma PadNothing(xs: seq<Interval>, left: bool, right: bool)
    requires AllWellFormed(xs) && Sorted(xs) && xs != []
    requires (left ==> xs[0].mod == 0) && (right ==> xs[|xs| - 1].mod == 0)
    ensures Pad(xs, left, right) == Ok(xs)
  {
    assert [] + xs + [] == xs;
  }

  // ---------------------------------------------------------------------------
  // Flatten

  /** Every interval of the list can be flattened: none is a descending
      interval without a complement. */
  predicate FlattensOk(xs: seq<Interval>) {
    forall i :: 0 <= i < |xs| ==> xs[i].value >= 0 || Regular(xs[i])
  }

  lemma FlattensOkSplit(xs: seq<Interval>)
    requires xs != []
    ensures FlattensOk(xs) <==> (xs[0].value >= 0 || Regular(xs[0])) && FlattensOk(xs[1..])
  {
    if (xs[0].value >= 0 || Regular(xs[0])) && FlattensOk(xs[1..]) {
      forall i | 0 < i < |xs|
        ensures xs[i].value >= 0 || Regular(xs[i])
      {
        assert xs[i] == xs[1..][i - 1];
      }
    }
  }

  /** `b` is what `flatten` makes of `a`: a well-formed interval is fixed by
      its value and degree, and these are the ones `Flatten` promises. */
  predicate FlattenedFrom(a: Interval, b: Interval) {
    && WellFormed(b) && b.value == a.value % 12
    && b.degree == (if a.value >= 0 then a.degree else if a.mod == 0 then 1 else 9 - a.degree)
  }

  /** One element of `flatten`, with what `Flatten` promises about it. */
  function FlattenStep(a: Interval): (r: Result<Interval>)
    requires WellFormed(a)
    ensures r.Ok? <==> a.value >= 0 || Regular(a)
    ensures r.Ok? ==> FlattenedFrom(a, r.value)
  {
    Flatten(a)
  }

  /** Every interval flattened in turn, failing at the first that cannot be. */
  function FlattenEach(xs: seq<Interval>): (r: Result<seq<Interval>>)
    requires AllWellFormed(xs)
    ensures r.Ok? <==> FlattensOk(xs)
    ensures r.Ok? ==> |r.value| == |xs| && forall i :: 0 <= i < |xs| ==> FlattenedFrom(xs[i], r.value[i])
  {
    if xs == [] then Ok([])
    else
      FlattensOkSplit(xs);
      var y := FlattenStep(xs[0]);
      if y.Err? then Err(y.error)
      else
        var rest := FlattenEach(xs[1..]);
        if rest.Err? then Err(rest.error)
        else
          FlattenCons(xs, y.value, rest.value);
          Ok([y.value] + rest.value)
  }

  /** The flattened head in front of the flattened tail flattens the list. */
  lemma FlattenCons(xs: seq<Interval>, y: Interval, rest: seq<Interval>)
    requires xs != [] && FlattenedFrom(xs[0], y) && |rest| == |xs| - 1
    requires forall i :: 0 <= i < |rest| ==> FlattenedFrom(xs[1..][i], rest[i])
    ensures forall i :: 0 <= i < |xs| ==> FlattenedFrom(xs[i], ([y] + rest)[i])
  {
    forall i | 0 < i < |xs|
      ensures FlattenedFrom(xs[i], ([y] + rest)[i])
    {
      assert xs[i] == xs[1..][i - 1] && ([y] + rest)[i] == rest[i - 1];
    }
  }

  /** `flatten(duplicates)`: every interval flattened to its simple ascending
      form, repeats dropped unless `duplicates`, and the result sorted.  A
      descending interval without a complement cannot be flattened. */
  function ListFlatten(xs: seq<Interval>, duplicates: bool): (r: Result<seq<Interval>>)
    requires AllWellFormed(xs)
    ensures r.Ok? <==> forall i :: 0 <= i < |xs| ==> xs[i].value >= 0 || Regular(xs[i])
    ensures r.Ok? ==> Sorted(r.value) && AllWellFormed(r.value)
    ensures r.Ok? ==> forall j :: 0 <= j < |r.value| ==> 0 <= r.value[j].value < 12
    ensures r.Ok? ==> forall v :: Contains(r.value, v) <==> v in PitchClasses(xs)
    ensures r.Ok? && duplicates ==> |r.value| == |xs|
    ensures r.Ok? && !duplicates ==> DistinctValues(r.value)
  {
    var flat :- FlattenEach(xs);
    var u := if duplicates then flat else Unique(flat);
    var r := Sort(u);
    FlattenFinish(xs, flat, u, r);
    SortDistinct(Unique(flat));
    Ok(r)
  }

  lemma FlattenFinish(xs: seq<Interval>, flat: seq<Interval>, u: seq<Interval>, r: seq<Interval>)
    requires |flat| == |xs|
    requires forall i :: 0 <= i < |xs| ==> WellFormed(flat[i]) && flat[i].value == xs[i].value % 12
    requires forall v :: Contains(u, v) <==> Contains(flat, v)
    requires multiset(u) <= multiset(flat) && multiset(r) == multiset(u)
    ensures AllWellFormed(r)
    ensures forall j :: 0 <= j < |r| ==> 0 <= r[j].value < 12
    ensures forall v :: Contains(r, v) <==> v in PitchClasses(xs)
  {
    DedupContent(flat, u, r);
    SameContents(r, u);
    forall j | 0 <= j < |r|
      ensures WellFormed(r[j]) && 0 <= r[j].value < 12
    {
      var i :| 0 <= i < |flat| && flat[i] == r[j];
    }
    forall v
      ensures Contains(flat, v) <==> v in PitchClasses(xs)
    {
      if Contains(flat, v) {
        var i :| 0 <= i < |flat| && Values(flat)[i] == v;
        assert xs[i].value % 12 in PitchClasses(xs);
      }
      if v in PitchClasses(xs) {
        var i :| 0 <= i < |xs| && xs[i].value % 12 == v;
        assert Values(flat)[i] == v;
      }
    }
  }
}

=== FILE: intervals.dfy ===
/** Signed intervals with degree and quality bookkeeping.

    An interval is a signed semitone distance paired with a diatonic degree.
    Its width, octave span and mod-12 remainder are derived from the value;
    the degree is either read from the default table or supplied explicitly
    and validated against it. */
module Intervals {
  import opened Errors
  import opened Qualities
  import opened Arith

  function Abs(x: int): (r: nat) {
    if x < 0 then -x else x
  }

  /** The direction flag kept by the source as `sign`: every non-negative
      value, unison included, counts as ascending. */
  predicate Descending(v: int) {
    v < 0
  }

  // ---------------------------------------------------------------------------
  // Tables

  /** Degree of each semitone count within the octave; six semitones is
      treated as a diminished fifth rather than an augmented fourth. */
  function DefaultDegree(m: int): (d: int)
    requires 0 <= m < 12
    ensures 1 <= d <= 7
  {
    if m == 0 then 1
    else if m <= 2 then 2
    else if m <= 4 then 3
    else if m == 5 then 4
    else if m <= 7 then 5
    else if m <= 9 then 6
    else 7
  }

  /** Semitones of the perfect or major interval of each simple degree. */
  function CanonicalSemitones(d: int): (s: int)
    requires 1 <= d <= 7
    ensures 0 <= s <= 11
  {
    if d == 1 then 0
    else if d == 2 then 2
    else if d == 3 then 4
    else if d == 4 then 5
    else if d == 5 then 7
    else if d == 6 then 9
    else 11
  }

  /** Unison, fourth and fifth are judged on the perfect scale. */
  predicate IsPerfectDegree(d: int) {
    d == 1 || d == 4 || d == 5
  }

  /** The two tables are inverse on the canonical intervals, and the default
      degree of any semitone count lies at most one semitone above its
      canonical interval (two for the tritone, read as a fifth). */
  lemma TablesAgree(d: int, m: int)
    requires 1 <= d <= 7
    requires 0 <= m < 12
    ensures DefaultDegree(CanonicalSemitones(d)) == d
    ensures m != 6 ==> 0 <= m - CanonicalSemitones(DefaultDegree(m)) + 1 <= 1
    ensures m == 6 ==> m - CanonicalSemitones(DefaultDegree(m)) == -1
  {
  }

  /** Complementing a degree within the octave: degree `deg` of a width `m`
      becomes degree 9 - deg of the width 12 - m, which stays within 2 of its
      default degree except for a unison or a tritone spelled as a seventh. */
  lemma ComplementDegree(m: int, deg: int)
    requires 1 <= m <= 11 && 1 <= deg <= 7
    requires Abs(deg - DefaultDegree(m)) <= 2
    ensures deg != 1 ==> (Abs(9 - deg - DefaultDegree(12 - m)) <= 2 <==> !(m == 6 && deg == 7))
    ensures Abs(9 - deg - DefaultDegree(12 - m)) < 8
  {
    assert m in {1, 2, 3, 4, 5, 6, 7, 8, 9, 10, 11};
  }

  // ---------------------------------------------------------------------------
  // The interval record

  /** An interval keeps its signed value together with the whole octaves and
      the width within the octave that `divmod(abs(value), 12)` gives, and
      its simple and extended degrees. */
  datatype Interval = Interval(value: int, octaveSpan: nat, mod: nat, degree: int, extDegree: int) {
    function Width(): nat {
      Abs(value)
    }
  }

  /** The invariant every constructed interval satisfies: the octave span
      and width within the octave split the width, the simple degree is in
      1..7, the extended degree adds the octave span, whole octaves have
      degree 1, and the degree lies within 2 of the default one. */
  predicate WellFormed(i: Interval) {
    && i.mod < 12 && i.Width() == 12 * i.octaveSpan + i.mod
    && 1 <= i.degree <= 7
    && i.extDegree == i.degree + 7 * i.octaveSpan
    && (i.mod == 0 ==> i.degree == 1)
    && Abs(i.degree - DefaultDegree(i.mod)) <= 2
  }

  /** A well-formed interval is determined by its value and simple degree. */
  lemma SameInterval(i: Interval, j: Interval)
    requires WellFormed(i) && WellFormed(j)
    requires i.value == j.value && i.degree == j.degree
    ensures i == j
  {
    DivMod12(i.Width(), i.octaveSpan, i.mod);
    DivMod12(j.Width(), j.octaveSpan, j.mod);
  }

  /** Two well-formed intervals of the same width split it alike. */
  lemma SameWidthSameSplit(a: Interval, b: Interval)
    requires WellFormed(a) && WellFormed(b) && a.Width() == b.Width()
    ensures a.mod == b.mod && a.octaveSpan == b.octaveSpan
  {
    DivMod12(a.Width(), a.octaveSpan, a.mod);
    DivMod12(b.Width(), b.octaveSpan, b.mod);
  }

  /** `Interval(value)`: the degree is read from the default table. */
  function FromValue(v: int): (i: Interval)
    ensures WellFormed(i) && i.value == v
    ensures i.degree == DefaultDegree(i.mod)
  {
    var span := Abs(v) / 12;
    var m := Abs(v) % 12;
    Interval(v, span, m, DefaultDegree(m), DefaultDegree(m) + 7 * span)
  }

  /** A well-formed interval of default degree is the default interval of
      its value. */
  lemma DefaultFromValue(a: Interval)
    requires WellFormed(a) && a.degree == DefaultDegree(a.mod)
    ensures a == FromValue(a.value)
  {
    SameWidthSameSplit(a, FromValue(a.value));
    SameInterval(a, FromValue(a.value));
  }

  /** `Interval(value, degree)`: the explicit degree is validated against the
      default one in the source's order of checks.  The check for a degree an
      octave away from the default can never fire, because the simple degree
      has already been confined to 1..7. */
  function WithDegree(v: int, d: int): (r: Result<Interval>)
    ensures d <= 0 ==> r == Err(DegreeNotPositive)
    ensures r.Ok? ==> r.value.value == v && r.value.extDegree == d && WellFormed(r.value)
    ensures r.Err? ==> r.error != OctaveFromDefault
  {
    var span := Abs(v) / 12;
    var m := Abs(v) % 12;
    if d <= 0 then Err(DegreeNotPositive)
    else
      var deg := d - 7 * span;
      if m == 0 && deg != 1 then Err(UnisonDegreeNotOne)
      else if !(0 < deg < 8) then Err(DegreeOutOfOctave)
      else
        var distance := Abs(d - (DefaultDegree(m) + 7 * span));
        if distance <= 2 then Ok(Interval(v, span, m, deg, d))
        else if distance in {8, 9, 10} then Err(OctaveFromDefault)
        else Err(TooFarFromDefault)
  }

  /** Explicit-degree construction succeeds exactly when it yields a
      well-formed interval. */
  lemma WithDegreeIffWellFormed(v: int, d: int)
    ensures WithDegree(v, d).Ok? <==> WellFormed(Interval(v, Abs(v) / 12, Abs(v) % 12, d - 7 * (Abs(v) / 12), d))
  {
  }

  /** Explicit construction with the default extended degree is default
      construction, and a degree more than 2 away from it is refused. */
  lemma WithDefaultDegree(v: int, d: int)
    ensures d == FromValue(v).extDegree ==> WithDegree(v, d) == Ok(FromValue(v))
    ensures d > 0 && Abs(d - FromValue(v).extDegree) > 2 ==> WithDegree(v, d).Err?
  {
  }

  /** Every well-formed interval is what explicit construction rebuilds from
      its value and extended degree. */
  lemma Rebuild(i: Interval)
    requires WellFormed(i)
    ensures WithDegree(i.value, i.extDegree) == Ok(i)
  {
    DivMod12(i.Width(), i.octaveSpan, i.mod);
  }

  /** Explicit construction with the complemented degree of a non-octave
      width (see `ComplementDegree`), at a value whose width within the
      octave is the complementary one. */
  lemma ComplementWithDegree(v: int, q: nat, m: int, deg: int)
    requires 1 <= m <= 11 && 1 <= deg <= 7
    requires Abs(deg - DefaultDegree(m)) <= 2
    requires Abs(v) == 12 * q + (12 - m)
    ensures WithDegree(v, 9 - deg + 7 * q)
         == if deg != 1 && !(m == 6 && deg == 7) then Ok(Interval(v, q, 12 - m, 9 - deg, 9 - deg + 7 * q))
            else if deg == 1 then Err(DegreeOutOfOctave)
            else Err(TooFarFromDefault)
    ensures 9 - deg != 1 && !(12 - m == 6 && 9 - deg == 7)
  {
    DivMod12(Abs(v), q, 12 - m);
    ComplementDegree(m, deg);
  }

  // ---------------------------------------------------------------------------
  // Quality and offsets

  function QualityOf(i: Interval): (q: Quality)
    requires WellFormed(i)
  {
    FromOffset(IsPerfectDegree(i.degree), i.mod - CanonicalSemitones(i.degree))
  }

  /** Semitones from the perfect/major interval of the same degree, read back
      through the interval's quality. */
  function OffsetFromDefault(i: Interval): (o: int)
    requires WellFormed(i)
    ensures o == i.mod - CanonicalSemitones(i.degree)
  {
    OffsetRoundTrip(IsPerfectDegree(i.degree), i.mod - CanonicalSemitones(i.degree));
    OffsetOf(QualityOf(i), IsPerfectDegree(i.degree))
  }

  /** Simple degree and octave count of an extended degree. */
  function SimpleDegree(d: int): (s: int)
    requires d >= 1
    ensures 1 <= s <= 7
  {
    (d - 1) % 7 + 1
  }

  function DegreeOctaves(d: int): (k: nat)
    requires d >= 1
  {
    (d - 1) / 7
  }

  /** `Interval.from_degree(d, offset=o)`: the canonical interval of the
      (possibly compound) degree, moved by the offset. */
  function FromDegree(d: int, offset: int): (r: Result<Interval>)
    ensures d < 1 ==> r == Err(MissingKey)
    ensures r.Ok? ==> && r.value.extDegree == d
                      && r.value.value == CanonicalSemitones(SimpleDegree(d)) + 12 * DegreeOctaves(d) + offset
                      && WellFormed(r.value)
  {
    // the source splits off degrees of 8 and more; below 8 the simple degree
    // is d itself and the octave count 0, so one formula covers both
    if d < 1 then Err(MissingKey)
    else WithDegree(CanonicalSemitones(SimpleDegree(d)) + 12 * DegreeOctaves(d) + offset, d)
  }

  /** `Interval.from_degree(d, quality=q, offset=o)`: quality and offset are
      mutually exclusive; a quality is turned into its offset on the scale of
      the simple degree, and neither given means no offset. */
  function FromDegreeWith(d: int, quality: Option<Quality>, offset: Option<int>): (r: Result<Interval>)
    ensures quality.Some? && offset.Some? ==> r == Err(ConflictingArguments)
    ensures quality.None? ==> r == FromDegree(d, if offset.Some? then offset.value else 0)
    ensures r.Ok? ==> WellFormed(r.value) && r.value.extDegree == d
    ensures r.Ok? && quality.Some? ==> (QualityOf(r.value) == quality.value <==> r.value.value >= 0)
  {
    if quality.Some? && offset.Some? then Err(ConflictingArguments)
    else if quality.Some? then
      var perfect := IsPerfectDegree(if d >= 1 then SimpleDegree(d) else d);
      if !OnScale(quality.value, perfect) then Err(OffScale)
      else
        var r := FromDegree(d, OffsetOf(quality.value, perfect));
        if r.Ok? then
          FromDegreeQuality(d, quality.value);
          r
        else r
    else FromDegree(d, if offset.Some? then offset.value else 0)
  }

  /** A quality on the scale of the degree gives back that quality exactly
      when the interval stays ascending: an offset so negative that the value
      drops below zero (a major third lowered by eight semitones, say) yields
      a descending interval measured from the other side. */
  lemma FromDegreeQuality(d: int, q: Quality)
    requires d >= 1 && OnScale(q, IsPerfectDegree(SimpleDegree(d)))
    ensures var r := FromDegree(d, OffsetOf(q, IsPerfectDegree(SimpleDegree(d))));
            r.Ok? ==> (QualityOf(r.value) == q <==> r.value.value >= 0)
  {
    var perfect := IsPerfectDegree(SimpleDegree(d));
    var o := OffsetOf(q, perfect);
    var r := FromDegree(d, o);
    if r.Ok? {
      var i := r.value;
      DegreeParts(i);
      OffsetRoundTrip(perfect, i.mod - CanonicalSemitones(i.degree));
      if i.value >= 0 {
        assert i.mod - CanonicalSemitones(i.degree) == o;
        QualityRoundTrip(q, perfect);
      } else {
        assert i.mod - CanonicalSemitones(i.degree) == -o - 2 * (CanonicalSemitones(i.degree) + 12 * i.octaveSpan);
      }
    }
  }

  /** The simple degree and octave count of a well-formed interval's
      extended degree are its own. */
  lemma DegreeParts(i: Interval)
    requires WellFormed(i)
    ensures SimpleDegree(i.extDegree) == i.degree && DegreeOctaves(i.extDegree) == i.octaveSpan
  {
    DivMod7(i.extDegree - 1, i.octaveSpan, i.degree - 1);
  }

  /** With no offset every positive degree gives its perfect or major
      interval. */
  lemma FromDegreeCanonical(d: int)
    requires d >= 1
    ensures FromDegree(d, 0).Ok?
    ensures OffsetFromDefault(FromDegree(d, 0).value) == 0
    ensures FromDegree(d, 0).value.degree == SimpleDegree(d)
    ensures QualityOf(FromDegree(d, 0).value) in {Perfect, Major}
  {
    var i := CanonicalInterval(d);
    assert OffsetFromDefault(i) == 0;
  }

  /** The interval `from_degree` builds with no offset, field by field. */
  lemma CanonicalInterval(d: int) returns (i: Interval)
    requires d >= 1
    ensures FromDegree(d, 0) == Ok(i)
    ensures i.degree == SimpleDegree(d) && i.mod == CanonicalSemitones(i.degree)
  {
    var s := SimpleDegree(d);
    var k := DegreeOctaves(d);
    var c := CanonicalSemitones(s);
    i := Interval(c + 12 * k, k, c, s, d);
    CanonicalWellFormed(s, k);
    assert FromDegree(d, 0) == WithDegree(c + 12 * k, d);
    Rebuild(i);
  }

  lemma CanonicalWellFormed(s: int, k: nat)
    requires 1 <= s <= 7
    ensures WellFormed(Interval(CanonicalSemitones(s) + 12 * k, k, CanonicalSemitones(s), s, s + 7 * k))
  {
    TablesAgree(s, 0);
  }

  lemma FromDegreeOffsetRoundTrip(d: int, o: int)
    requires d >= 1
    requires 1 <= CanonicalSemitones(SimpleDegree(d)) + o <= 11
    ensures FromDegree(d, o).Ok?
        <==> Abs(SimpleDegree(d) - DefaultDegree(CanonicalSemitones(SimpleDegree(d)) + o)) <= 2
    ensures FromDegree(d, o).Ok? ==> OffsetFromDefault(FromDegree(d, o).value) == o
  {
    var s := SimpleDegree(d);
    var k := DegreeOctaves(d);
    var c := CanonicalSemitones(s);
    var v := c + 12 * k + o;
    var i := Interval(v, k, c + o, s, d);
    assert d == s + 7 * k;
    assert FromDegree(d, o) == WithDegree(v, d);
    DivMod12(v, k, c + o);
    WithDegreeIffWellFormed(v, d);
    assert WellFormed(i) <==> Abs(s - DefaultDegree(c + o)) <= 2;
    if WellFormed(i) {
      Rebuild(i);
      assert OffsetFromDefault(i) == o;
    }
  }

  /** Degree-and-offset is a faithful encoding of an ascending interval:
      `from_degree(extended_degree, offset_from_default)` rebuilds it. */
  lemma FromDegreeRecovers(i: Interval)
    requires WellFormed(i) && i.value >= 0
    ensures FromDegree(i.extDegree, OffsetFromDefault(i)) == Ok(i)
  {
    DegreeParts(i);
    Rebuild(i);
  }

  // ---------------------------------------------------------------------------
  // Arithmetic

  /** The intervals whose complement exists: not an augmented unison and not a
      tritone spelled as a seventh. */
  predicate Regular(i: Interval) {
    i.mod == 0 || (i.degree != 1 && !(i.mod == 6 && i.degree == 7))
  }

  lemma DefaultIsRegular(v: int)
    ensures Regular(FromValue(v))
  {
  }

  /** `interval + n`: adding to a unison or a non-octave amount re-derives the
      degree; adding whole octaves keeps the degree, or complements it when the
      direction flips. */
  function Add(a: Interval, n: int): (r: Result<Interval>)
    requires WellFormed(a)
    ensures r.Ok? ==> r.value.value == a.value + n && WellFormed(r.value)
    ensures r.Ok? && a.mod != 0 && n % 12 == 0 ==>
              r.value.degree == (if Descending(a.value) == Descending(a.value + n) then a.degree else 9 - a.degree)
    ensures r.Err? <==> (&& a.mod != 0 && n % 12 == 0
                         && Descending(a.value) != Descending(a.value + n)
                         && !Regular(a))
    ensures Regular(a) && r.Ok? ==> Regular(r.value)
  {
    if a.mod == 0 then Ok(FromValue(a.value + n))
    else if n % 12 == 0 then AddOctaves(a, n)
    else Ok(FromValue(a.value + n))
  }

  /** The octave span after whole octaves are added to a non-unison. */
  function SpanAfter(a: Interval, n: int): (span: int)
    requires WellFormed(a)
  {
    var k := n / 12;
    if a.value >= 0 then
      if a.value + n >= 0 then a.octaveSpan + k else -k - a.octaveSpan - 1
    else
      if a.value + n >= 0 then k - a.octaveSpan - 1 else a.octaveSpan - k
  }

  /** Whole octaves added to a non-unison keep its width within the octave,
      or complement it when the direction flips. */
  lemma AddOctavesSplit(a: Interval, n: int)
    requires WellFormed(a) && a.mod != 0 && n % 12 == 0
    ensures SpanAfter(a, n) >= 0
    ensures Descending(a.value) == Descending(a.value + n) ==> Abs(a.value + n) == 12 * SpanAfter(a, n) + a.mod
    ensures Descending(a.value) != Descending(a.value + n) ==> Abs(a.value + n) == 12 * SpanAfter(a, n) + (12 - a.mod)
  {
    assert n == 12 * (n / 12);
  }

  /** Whole octaves added to a non-unison: the degree is kept, or complemented
      when the direction flips; the construction fails only for an irregular
      interval flipped over, with the error the degree check meets first. */
  function AddOctaves(a: Interval, n: int): (r: Result<Interval>)
    requires WellFormed(a) && a.mod != 0 && n % 12 == 0
    ensures AddedOctaves(a, n, r)
  {
    var v := a.value + n;
    // the new octave span is `abs(new_value) // 12`
    var q := SpanAfter(a, n);
    AddOctavesSplit(a, n);
    if Descending(a.value) == Descending(v) then
      AddOctavesSame(a, n, q);
      WithDegree(v, a.degree + 7 * q)
    else
      AddOctavesFlip(a, n, q);
      WithDegree(v, 9 - a.degree + 7 * q)
  }

  /** What adding whole octaves to a non-unison promises: the degree and the
      width within the octave are kept, or complemented when the direction
      flips; the construction fails only for an irregular interval flipped
      over, with the error the degree check meets first; regularity is
      kept. */
  predicate AddedOctaves(a: Interval, n: int, r: Result<Interval>)
    requires WellFormed(a) && a.mod != 0
  {
    var same := Descending(a.value) == Descending(a.value + n);
    && (r.Ok? <==> same || Regular(a))
    && (r.Ok? ==> && WellFormed(r.value) && r.value.value == a.value + n
                  && r.value.degree == (if same then a.degree else 9 - a.degree)
                  && r.value.mod == (if same then a.mod else 12 - a.mod)
                  && (Regular(a) ==> Regular(r.value)))
    && (r.Err? ==> r.error == if a.degree == 1 then DegreeOutOfOctave else TooFarFromDefault)
  }

  /** Octaves added without a change of direction keep the degree. */
  lemma AddOctavesSame(a: Interval, n: int, q: nat)
    requires WellFormed(a) && a.mod != 0
    requires Descending(a.value) == Descending(a.value + n)
    requires Abs(a.value + n) == 12 * q + a.mod
    ensures Abs(a.value + n) / 12 == q
    ensures AddedOctaves(a, n, WithDegree(a.value + n, a.degree + 7 * q))
  {
    DivMod12(Abs(a.value + n), q, a.mod);
    Rebuild(Interval(a.value + n, q, a.mod, a.degree, a.degree + 7 * q));
  }

  /** Octaves added across zero complement the degree. */
  lemma AddOctavesFlip(a: Interval, n: int, q: nat)
    requires WellFormed(a) && a.mod != 0
    requires Descending(a.value) != Descending(a.value + n)
    requires Abs(a.value + n) == 12 * q + (12 - a.mod)
    ensures Abs(a.value + n) / 12 == q
    ensures AddedOctaves(a, n, WithDegree(a.value + n, 9 - a.degree + 7 * q))
  {
    DivMod12(Abs(a.value + n), q, 12 - a.mod);
    ComplementWithDegree(a.value + n, q, a.mod, a.degree);
  }

  /** `interval - n`: addition of the negated amount. */
  function Sub(a: Interval, n: int): (r: Result<Interval>)
    requires WellFormed(a)
    ensures r.Ok? ==> r.value.value == a.value - n && WellFormed(r.value)
    ensures r.Err? <==> (&& a.mod != 0 && n % 12 == 0
                         && Descending(a.value) != Descending(a.value - n)
                         && !Regular(a))
  {
    NegMod12(n);
    Add(a, -n)
  }

  lemma NegMod12(n: int)
    ensures n % 12 == 0 <==> (-n) % 12 == 0
  {
    DivMod12(n, n / 12, n % 12);
    if n % 12 == 0 {
      DivMod12(-n, -(n / 12), 0);
    } else {
      DivMod12(-n, -(n / 12) - 1, 12 - n % 12);
    }
  }

  /** A default-degree interval moved without crossing zero is the default
      interval of the new value. */
  lemma AddDefault(v: int, n: int)
    requires (v >= 0) == (v + n >= 0)
    ensures Add(FromValue(v), n) == Ok(FromValue(v + n))
  {
    var a := FromValue(v);
    if a.mod != 0 && n % 12 == 0 {
      var b := AddOctaves(a, n).value;
      var c := FromValue(v + n);
      SameWidthSameSplit(b, c);
      SameInterval(b, c);
    }
  }

  /** Adding nothing is the identity on well-formed intervals. */
  lemma AddZero(a: Interval)
    requires WellFormed(a)
    ensures Add(a, 0) == Ok(a)
  {
    if a.mod != 0 {
      SameInterval(AddOctaves(a, 0).value, a);
    } else {
      DefaultFromValue(a);
    }
  }

  /** Subtracting what was added gives back the interval, as long as its
      degree is the default one or only whole octaves were added. */
  lemma AddSubRoundTrip(a: Interval, n: int)
    requires WellFormed(a) && Regular(a)
    requires n % 12 == 0 || a.degree == DefaultDegree(a.mod)
    ensures Add(a, n).Ok? && Sub(Add(a, n).value, n) == Ok(a)
  {
    if a.mod != 0 && n % 12 == 0 {
      var b := AddOctavesBack(a, n);
      assert Sub(b, n) == Add(b, -n);
    } else {
      var b := AddDefaultBack(a, n);
      assert Sub(b, n) == Add(b, -n);
    }
  }

  lemma AddOctavesBack(a: Interval, n: int) returns (b: Interval)
    requires WellFormed(a) && Regular(a) && a.mod != 0 && n % 12 == 0
    ensures Add(a, n) == Ok(b) && WellFormed(b) && Add(b, -n) == Ok(a)
  {
    NegMod12(n);
    b := AddOctaves(a, n).value;
    var c := AddOctaves(b, -n);
    assert b.value + -n == a.value;
    SameInterval(c.value, a);
  }

  lemma AddDefaultBack(a: Interval, n: int) returns (b: Interval)
    requires WellFormed(a) && (a.mod == 0 || n % 12 != 0)
    requires a.mod == 0 || a.degree == DefaultDegree(a.mod)
    ensures Add(a, n) == Ok(b) && WellFormed(b) && Add(b, -n) == Ok(a)
  {
    NegMod12(n);
    b := FromValue(a.value + n);
    assert Add(a, n) == Ok(b);
    DefaultFromValue(a);
    if b.mod != 0 && n % 12 == 0 {
      OctaveMultiple(a, n);
      assert false;
    }
    assert b.value + -n == a.value;
  }

  /** Whole octaves added to a whole number of octaves give whole octaves. */
  lemma OctaveMultiple(a: Interval, n: int)
    requires WellFormed(a) && a.mod == 0 && n % 12 == 0
    ensures FromValue(a.value + n).mod == 0
  {
    var k := n / 12;
    var y := if a.value >= 0 then a.octaveSpan + k else k - a.octaveSpan;
    assert a.value + n == 12 * y;
    DivMod12(Abs(a.value + n), Abs(y), 0);
  }

  /** `-interval`: the same interval in the opposite direction, rebuilt from
      the negated value and the extended degree. */
  function Neg(a: Interval): (r: Interval)
    requires WellFormed(a)
    ensures WellFormed(r) && r.value == -a.value && r.degree == a.degree
  {
    if a.value == 0 then a
    else
      Rebuild(Interval(-a.value, a.octaveSpan, a.mod, a.degree, a.extDegree));
      WithDegree(-a.value, a.extDegree).value
  }

  /** Negating twice gives back the interval. */
  lemma NegInvolution(a: Interval)
    requires WellFormed(a)
    ensures Neg(Neg(a)) == a
  {
    SameInterval(Neg(Neg(a)), a);
  }

  /** `~interval`: the complementary interval in the opposite direction, e.g.
      a perfect fifth up becomes a perfect fourth down.  It fails for an
      augmented unison and for a tritone spelled as a seventh, whose
      complements have no valid degree. */
  function Invert(a: Interval): (r: Result<Interval>)
    requires WellFormed(a)
    ensures Inverted(a, r)
  {
    // `new_mod + 12 * octave_span * -sign` with the sign multiplied out
    // (see `InvertValue`)
    var newValue := if a.value < 0 then (12 - a.mod) + 12 * a.octaveSpan else -(12 - a.mod) - 12 * a.octaveSpan;
    var newDegree := (9 - a.degree) + 7 * a.octaveSpan;
    if a.mod == 0 then
      InvertOctaves(a, newValue);
      WithDegree(newValue, newDegree)
    else
      InvertNonUnison(a, newValue);
      WithDegree(newValue, newDegree)
  }

  /** What `~` promises: failure exactly for the irregular intervals, with
      the error the degree check meets first; otherwise a regular interval
      an odd number of octaves away, whose width within the octave and
      degree are the complements of the original's, and whose octave span
      grows by one only for whole octaves. */
  predicate Inverted(a: Interval, r: Result<Interval>)
    requires WellFormed(a)
  {
    && (r.Err? <==> !Regular(a))
    && (r.Err? ==> r.error == if a.degree == 1 then DegreeOutOfOctave else TooFarFromDefault)
    && (r.Ok? ==> && WellFormed(r.value) && Regular(r.value)
                  && r.value.value == (if a.value >= 0 then a.value - 12 * (2 * a.octaveSpan + 1)
                                       else a.value + 12 * (2 * a.octaveSpan + 1))
                  && r.value.degree == (if a.mod == 0 then 1 else 9 - a.degree)
                  && r.value.mod == (if a.mod == 0 then 0 else 12 - a.mod)
                  && r.value.octaveSpan == (if a.mod == 0 then a.octaveSpan + 1 else a.octaveSpan))
  }

  /** Whole octaves inverted gain an octave. */
  lemma InvertOctaves(a: Interval, nv: int)
    requires WellFormed(a) && a.mod == 0
    requires nv == if a.value < 0 then (12 - a.mod) + 12 * a.octaveSpan else -(12 - a.mod) - 12 * a.octaveSpan
    ensures Inverted(a, WithDegree(nv, (9 - a.degree) + 7 * a.octaveSpan))
  {
    DivMod12(Abs(nv), a.octaveSpan + 1, 0);
    assert WithDegree(nv, 8 + 7 * a.octaveSpan) == Ok(Interval(nv, a.octaveSpan + 1, 0, 1, 8 + 7 * a.octaveSpan));
  }

  /** A non-unison inverted keeps its octave span and complements its width
      within the octave and its degree. */
  lemma InvertNonUnison(a: Interval, nv: int)
    requires WellFormed(a) && a.mod != 0
    requires nv == if a.value < 0 then (12 - a.mod) + 12 * a.octaveSpan else -(12 - a.mod) - 12 * a.octaveSpan
    ensures Inverted(a, WithDegree(nv, (9 - a.degree) + 7 * a.octaveSpan))
  {
    ComplementWithDegree(nv, a.octaveSpan, a.mod, a.degree);
  }

  /** The value `~` computes points the other way and is as wide as the
      interval's octaves plus the complement of its width within the
      octave. */
  lemma InvertValue(a: Interval)
    requires WellFormed(a)
    ensures var sign := if a.value < 0 then -1 else 1;
            var nv := -(12 - a.mod) * sign + (12 * a.octaveSpan) * -sign;
            && nv == (if a.value < 0 then (12 - a.mod) + 12 * a.octaveSpan else -(12 - a.mod) - 12 * a.octaveSpan)
            && nv == (if a.value >= 0 then a.value - 12 * (2 * a.octaveSpan + 1) else a.value + 12 * (2 * a.octaveSpan + 1))
            && Abs(nv) == 12 * a.octaveSpan + (12 - a.mod)
  {
  }

  /** The complement points the other way and the two widths add up to an odd
      number of octaves; a simple ascending interval is complemented within
      its octave, e.g. a major third up becomes a minor sixth down. */
  lemma InvertComplements(a: Interval)
    requires WellFormed(a) && Regular(a)
    ensures Invert(a).Ok?
    ensures a.value >= 0 <==> Invert(a).value.value < 0
    ensures a.Width() + Invert(a).value.Width() == 12 * (2 * a.octaveSpan + 1)
    ensures 0 < a.value < 12 ==> Invert(a).value.value == a.value - 12 && Invert(a).value.degree == 9 - a.degree
  {
  }

  /** Inverting twice gives back the same interval for every non-unison. */
  lemma InvertInvolution(a: Interval)
    requires WellFormed(a) && a.mod != 0 && Regular(a)
    ensures Invert(a).Ok? && Invert(Invert(a).value) == Ok(a)
  {
    var b := Invert(a).value;
    var c := Invert(b).value;
    SameInterval(c, a);
  }

  /** `abs(interval)`: descending intervals become ascending, re-deriving the
      degree. */
  function AbsInterval(a: Interval): (r: Interval)
    requires WellFormed(a)
    ensures WellFormed(r) && r.value == Abs(a.value)
    ensures a.value > 0 ==> r == a
    ensures a.value <= 0 ==> r.degree == DefaultDegree(r.mod)
  {
    if a.value > 0 then a else FromValue(-a.value)
  }

  /** Python's `%`: the remainder takes the sign of the divisor. */
  function FloorMod(x: int, m: int): (r: int)
    requires m != 0
    ensures m > 0 ==> r == x % m
    ensures m < 0 ==> m < r <= 0
    ensures (x - r) % m == 0
  {
    RemainderSteps(x, m);
    if m > 0 then x % m
    else if x % m == 0 then 0
    else x % m + m
  }

  /** `interval % m` on the semitone value. */
  function ModInterval(a: Interval, m: int): (r: Result<Interval>)
    ensures m == 0 <==> r == Err(ZeroDivision)
    ensures r.Ok? ==> WellFormed(r.value) && r.value.degree == DefaultDegree(r.value.mod)
    ensures r.Ok? && m > 0 ==> r.value.value == a.value % m
    ensures r.Ok? && m < 0 ==> m < r.value.value <= 0
    ensures r.Ok? ==> (a.value - r.value.value) % m == 0
  {
    if m == 0 then Err(ZeroDivision) else Ok(FromValue(FloorMod(a.value, m)))
  }

  /** Taking Dafny's remainder, or that remainder less a whole divisor,
      leaves a multiple of the divisor. */
  lemma RemainderSteps(x: int, m: int)
    requires m != 0
    ensures (x - x % m) % m == 0 && (x - (x % m + m)) % m == 0
  {
    assert x - x % m == m * (x / m);
    MulModAny(m, x / m);
    assert x - (x % m + m) == m * (x / m - 1);
    MulModAny(m, x / m - 1);
  }

  /** Python's remainder is the only number in its range that differs from
      the dividend by a multiple of the divisor. */
  lemma FloorModUnique(x: int, m: int, r: int)
    requires m != 0
    requires m > 0 ==> 0 <= r < m
    requires m < 0 ==> m < r <= 0
    requires (x - r) % m == 0
    ensures FloorMod(x, m) == r
  {
    var f := FloorMod(x, m);
    var g := if m > 0 then m else -m;
    var k := (x - r) / m;
    var l := (x - f) / m;
    assert x - r == m * k && x - f == m * l;
    assert f - r == m * (k - l);
    if m > 0 {
      MulAwayFromZero(g, k - l);
    } else {
      assert f - r == g * (l - k);
      MulAwayFromZero(g, l - k);
    }
  }

  /** `interval % m` depends only on the value: adding multiples of the
      divisor to the value leaves it unchanged. */
  lemma ModIntervalPeriodic(a: Interval, b: Interval, m: int)
    requires m != 0 && (a.value - b.value) % m == 0
    ensures ModInterval(a, m) == ModInterval(b, m)
  {
    var r := FloorMod(b.value, m);
    var k := (b.value - r) / m;
    var d := (a.value - b.value) / m;
    assert a.value - r == m * (d + k);
    MulModAny(m, d + k);
    FloorModUnique(a.value, m, r);
  }

  /** `flatten`: the simple ascending interval with the same pitch-class
      content; descending intervals are complemented first. */
  function Flatten(a: Interval): (r: Result<Interval>)
    requires WellFormed(a)
    ensures r.Ok? ==> WellFormed(r.value) && r.value.value == a.value % 12
    ensures r.Ok? && a.value >= 0 ==> r.value.degree == a.degree
    ensures r.Ok? && a.value < 0 ==> r.value.degree == (if a.mod == 0 then 1 else 9 - a.degree)
    ensures r.Ok? && (a.value < 0 || Regular(a)) ==> Regular(r.value)
    ensures r.Err? <==> a.value < 0 && !Regular(a)
  {
    if a.value < 0 then
      var inv :- Invert(a);
      FlattenRemainder(a);
      Ok(FlattenAscending(inv))
    else
      DivMod12(a.value, a.octaveSpan, a.mod);
      Ok(FlattenAscending(a))
  }

  /** The value modulo 12 of a descending interval is the complement of its
      width within the octave. */
  lemma FlattenRemainder(a: Interval)
    requires WellFormed(a) && a.value < 0
    ensures a.value % 12 == (if a.mod == 0 then 0 else 12 - a.mod)
  {
    if a.mod == 0 {
      DivMod12(a.value, -(a.octaveSpan as int), 0);
    } else {
      DivMod12(a.value, -(a.octaveSpan as int) - 1, 12 - a.mod);
    }
  }

  /** The ascending case of `flatten`: the width within the octave, keeping
      the simple degree. */
  function FlattenAscending(a: Interval): (r: Interval)
    requires WellFormed(a) && a.value >= 0
    ensures WellFormed(r) && r == Interval(a.mod, 0, a.mod, a.degree, a.degree)
  {
    Rebuild(Interval(a.mod, 0, a.mod, a.degree, a.degree));
    WithDegree(a.mod, a.degree).value
  }

  /** A simple ascending interval is already flat, so `flatten` is
      idempotent. */
  lemma FlattenSimple(a: Interval)
    requires WellFormed(a) && 0 <= a.value < 12
    ensures Flatten(a) == Ok(a)
  {
    assert a.octaveSpan == 0;
    assert a.mod == a.value;
    assert a.extDegree == a.degree;
    assert a == Interval(a.mod, 0, a.mod, a.degree, a.degree);
    assert FlattenAscending(a) == a;
  }

  // ---------------------------------------------------------------------------
  // Comparisons

  /** `==`: intervals compare by value only. */
  predicate SameValue(a: Interval, b: Interval) {
    a.value == b.value
  }

  /** `&` with an interval: enharmonic equivalence on the width mod 12. */
  predicate Enharmonic(a: Interval, b: Interval) {
    a.mod == b.mod
  }

  /** `&` with an integer: the integer is reduced by Python's `% 12`. */
  predicate EnharmonicToInt(a: Interval, n: int) {
    a.mod == FloorMod(n, 12)
  }

  /** Ordering compares values only. */
  predicate Below(a: Interval, b: Interval) {
    a.value < b.value
  }

  /** Value equality implies enharmonic equality, and the two forms of `&`
      agree on non-negative integers but not on negative ones. */
  lemma ComparisonFacts(a: Interval, b: Interval, n: int)
    requires WellFormed(a) && WellFormed(b)
    ensures SameValue(a, b) ==> Enharmonic(a, b)
    ensures n >= 0 ==> (EnharmonicToInt(a, n) <==> Enharmonic(a, FromValue(n)))
    ensures Below(a, b) || SameValue(a, b) || Below(b, a)
  {
    if SameValue(a, b) {
      SameWidthSameSplit(a, b);
    }
  }

  /** With a negative integer the two forms of `&` part ways: the integer's
      remainder is taken from below, the interval's width from above, so
      `Interval(7) & -5` holds although `Interval(7) & Interval(-5)` does
      not. */
  lemma EnharmonicToNegative(a: Interval, n: int)
    requires WellFormed(a) && n < 0
    ensures EnharmonicToInt(a, n) <==> a.mod == (12 - FromValue(n).mod) % 12
  {
    var w: int := Abs(n);
    if w % 12 == 0 {
      DivMod12(n, -(w / 12), 0);
    } else {
      DivMod12(n, -(w / 12) - 1, 12 - w % 12);
    }
  }


  // ---------------------------------------------------------------------------
  // Just-intonation ratios

  /** Five-limit just ratios of the intervals 0..12. */
  function RatioTable(v: int): (r: (nat, nat))
    requires 0 <= v <= 12
    ensures r.0 >= r.1 >= 1
    ensures r.0 == r.1 <==> v == 0
  {
    if v == 0 then (1, 1)
    else if v == 1 then (16, 15)
    else if v == 2 then (9, 8)
    else if v == 3 then (6, 5)
    else if v == 4 then (5, 4)
    else if v == 5 then (4, 3)
    else if v == 6 then (25, 18)
    else if v == 7 then (3, 2)
    else if v == 8 then (8, 5)
    else if v == 9 then (5, 3)
    else if v == 10 then (16, 9)
    else if v == 11 then (15, 8)
    else (2, 1)
  }

  function Pow2(k: nat): (p: nat)
    ensures p >= 1
  {
    if k == 0 then 1 else 2 * Pow2(k - 1)
  }

  /** Euclid's greatest common divisor. */
  function Gcd(a: nat, b: nat): (g: nat)
    requires a > 0 || b > 0
    ensures g > 0 && a % g == 0 && b % g == 0
    decreases b
  {
    if b == 0 then a else GcdStep(a, b); Gcd(b, a % b)
  }

  /** A common divisor of `b` and `a % b` divides `a`. */
  lemma GcdStep(a: nat, b: nat)
    requires b > 0
    ensures forall g: nat {:trigger b % g, (a % b) % g} ::
              g > 0 && b % g == 0 && (a % b) % g == 0 ==> a % g == 0
  {
    forall g: nat | g > 0 && b % g == 0 && (a % b) % g == 0
      ensures a % g == 0
    {
      var q := a / b;
      var p := b / g;
      var s := (a % b) / g;
      assert a == q * b + a % b;
      assert b == g * p;
      assert a % b == g * s;
      assert a == g * (q * p + s);
      MulMod(g, q * p + s);
    }
  }

  /** `Gcd` is the greatest common divisor: every common divisor divides it. */
  lemma {:induction false} GcdGreatest(a: nat, b: nat, c: int)
    requires a > 0 || b > 0
    requires c > 0 && a % c == 0 && b % c == 0
    ensures Gcd(a, b) % c == 0
    decreases b
  {
    if b > 0 {
      DividesRemainder(a, b, c);
      GcdGreatest(b, a % b, c);
    }
  }

  /** A common divisor of `a` and `b` divides `a % b`. */
  lemma DividesRemainder(a: nat, b: nat, c: int)
    requires b > 0 && c > 0 && a % c == 0 && b % c == 0
    ensures (a % b) % c == 0
  {
    var q := a / b;
    var x := a / c;
    var y := b / c;
    assert a == c * x && b == c * y;
    assert a % b == a - q * b;
    assert q * b == c * (q * y);
    assert a % b == c * (x - q * y);
    MulMod(c, x - q * y);
  }

  /** `ratio`: table entries for 0..12; otherwise the ratio of the width
      within the octave with its numerator doubled once per octave, divided by
      the greatest common divisor. */
  function Ratio(a: Interval): (r: (nat, nat))
    requires WellFormed(a)
    ensures r.0 >= 1 && r.1 >= 1
    ensures r.0 * RatioTable(a.mod).1 == RatioTable(a.mod).0 * Pow2(a.octaveSpan) * r.1
    ensures Gcd(r.0, r.1) == 1
  {
    if 0 <= a.value <= 12 then
      RatioOfTable(a);
      TableLowest(a.value);
      RatioTable(a.value)
    else
      var base := RatioTable(a.mod);
      var left := base.0 * Pow2(a.octaveSpan);
      Reduce(left, base.1)
  }

  /** The fraction `l / d` in lowest terms. */
  function Reduce(l: nat, d: nat): (r: (nat, nat))
    requires l >= 1 && d >= 1
    ensures r.0 >= 1 && r.1 >= 1
    ensures r.0 * d == l * r.1
    ensures Gcd(r.0, r.1) == 1
  {
    var g := Gcd(l, d);
    ReduceKeepsRatio(l, d, g);
    ReducedLowest(l, d);
    (l / g, d / g)
  }

  /** Every table ratio is in lowest terms. */
  lemma TableLowest(v: int)
    requires 0 <= v <= 12
    ensures Gcd(RatioTable(v).0, RatioTable(v).1) == 1
  {
    var t := RatioTable(v);
    if v == 6 {
      assert t == (25, 18);
      assert Gcd(25, 18) == Gcd(18, 7) == Gcd(7, 4) == Gcd(4, 3) == Gcd(3, 1);
      GcdOne(3);
    } else if v == 8 || v == 9 {
      assert t == (8, 5) || t == (5, 3);
      assert Gcd(8, 5) == Gcd(5, 3) == Gcd(3, 2) == Gcd(2, 1);
      GcdOne(2);
    } else if v == 10 {
      assert t == (16, 9);
      assert Gcd(16, 9) == Gcd(9, 7) == Gcd(7, 2) == Gcd(2, 1);
      GcdOne(2);
    } else if v == 11 {
      assert t == (15, 8);
      assert Gcd(15, 8) == Gcd(8, 7) == Gcd(7, 1);
      GcdOne(7);
    } else {
      assert t.0 == t.1 + 1 || t.1 == 1;
      if t.1 == 1 {
        GcdOne(t.0);
      } else {
        ConsecutiveCoprime(t.1);
      }
    }
  }

  lemma GcdOne(a: nat)
    requires a > 0
    ensures Gcd(a, 1) == 1
  {
    assert Gcd(a, 1) == Gcd(1, 0);
  }

  /** Consecutive numbers are coprime: `Gcd(n + 1, n)` is one. */
  lemma ConsecutiveCoprime(n: nat)
    requires n >= 1
    ensures Gcd(n + 1, n) == 1
  {
    if n == 1 {
      GcdOne(2);
    } else {
      assert (n + 1) % n == 1;
      assert Gcd(n + 1, n) == Gcd(n, 1);
      GcdOne(n);
    }
  }

  /** Dividing by the greatest common divisor leaves a ratio in lowest terms. */
  lemma ReducedLowest(l: nat, d: nat)
    requires l >= 1 && d >= 1
    ensures var g := Gcd(l, d); l / g >= 1 && d / g >= 1 && Gcd(l / g, d / g) == 1
  {
    var g := Gcd(l, d);
    ReduceKeepsRatio(l, d, g);
    var x := l / g;
    var y := d / g;
    var h := Gcd(x, y);
    ScaledDivisor(l, g, h);
    ScaledDivisor(d, g, h);
    GcdGreatest(l, d, g * h);
    DivisorBound(g * h, g);
    MulAwayFromZero(g, h - 1);
    assert g * h == g * (h - 1) + g;
  }

  /** Dividing both sides by a common divisor keeps the ratio. */
  lemma ReduceKeepsRatio(l: nat, d: nat, g: nat)
    requires l >= 1 && d >= 1 && g > 0 && l % g == 0 && d % g == 0
    ensures l / g >= 1 && d / g >= 1
    ensures (l / g) * d == l * (d / g)
  {
    var x := l / g;
    var y := d / g;
    assert l == g * x;
    assert d == g * y;
    assert x * d == x * g * y == l * y;
  }

  /** The table is consistent with the octave-doubling rule: the octave is
      the unison doubled. */
  lemma RatioOfTable(a: Interval)
    requires WellFormed(a) && 0 <= a.value <= 12
    ensures RatioTable(a.value).0 * RatioTable(a.mod).1
         == RatioTable(a.mod).0 * Pow2(a.octaveSpan) * RatioTable(a.value).1
  {
    if a.value == 12 {
      assert a.mod == 0 && a.octaveSpan == 1;
    } else {
      var t := RatioTable(a.value);
      assert RatioTable(a.mod) == t && Pow2(a.octaveSpan) == 1;
      assert t.0 * t.1 == t.0 * 1 * t.1;
    }
  }

  /** Raising an ascending interval by an octave doubles its ratio. */
  lemma RatioOctaveDoubles(v: int)
    requires v >= 0
    ensures var r := Ratio(FromValue(v)); var r' := Ratio(FromValue(v + 12));
            r'.0 * r.1 == 2 * r.0 * r'.1
  {
    var a := FromValue(v);
    var b := FromValue(v + 12);
    DivMod12(v + 12, a.octaveSpan + 1, a.mod);
    assert b.mod == a.mod && b.octaveSpan == a.octaveSpan + 1;
    var base := RatioTable(a.mod);
    var p := Pow2(a.octaveSpan);
    var k := base.0 * p;
    assert base.0 * Pow2(b.octaveSpan) == k * 2;
    var r := Ratio(a);
    var r' := Ratio(b);
    assert r.0 * base.1 == k * r.1;
    assert r'.0 * base.1 == (k * 2) * r'.1;
    DoubleBoth(r.0, base.1, k, r.1);
    CrossMultiply(r'.0, r'.1, 2 * r.0, r.1, base.1, k * 2);
  }

  lemma DoubleBoth(x: int, e: int, k: int, d: int)
    requires x * e == k * d
    ensures (2 * x) * e == (k * 2) * d
  {
  }

  /** A descending interval has the same ratio as its ascending mirror. */
  lemma RatioIgnoresDirection(v: int)
    ensures var r := Ratio(FromValue(v)); var r' := Ratio(FromValue(-v));
            r.0 * r'.1 == r'.0 * r.1
  {
    var a := FromValue(v);
    var b := FromValue(-v);
    assert a.mod == b.mod && a.octaveSpan == b.octaveSpan;
    var base := RatioTable(a.mod);
    var k := base.0 * Pow2(a.octaveSpan);
    CrossMultiply(Ratio(a).0, Ratio(a).1, Ratio(b).0, Ratio(b).1, base.1, k);
  }
}

=== FILE: matcher.dfy ===
/** Matching chords to an unordered set of notes: every registered chord is
    tried on every note of the input, the candidates whose scores reach the
    minimums are kept in a dict keyed by chord, and the kept candidates are
    ranked by (recall, precision, likelihood, consonance), highest first.

    Building a candidate, and the scores read off it, are outside this
    module: each try arrives as a `Trial` carrying the chord built, the
    chord inverted over the input's first note, and its scores. */
module Matcher {
  import opened Errors
  import opened Dicts

  datatype Scores = Scores(recall: real, precision: real, likelihood: real, consonance: real)

  /** One try of one registered chord on one note of the input.  The chord
      is rooted on that note; `inverted` is the same chord inverted over the
      input's first note, used when the root is not that note but the
      chord contains it.  `likelihood` belongs to the chord in root
      position, read before any inversion; `recall`, `precision` and
      `consonance` belong to the candidate the trial offers
      (`Candidate`), read after inverting it, so consonance depends on the
      inversion. */
  datatype Trial<C> = Trial(chord: C, inverted: C, rootIsFirst: bool, firstInChord: bool,
                            likelihood: real, recall: real, precision: real, consonance: real)

  /** The search's switches and minimums. */
  datatype Options = Options(presumeRoot: bool, requireRoot: bool, invert: bool,
                             minRecall: real, minPrecision: real, minLikelihood: real, maxResults: int)

  /** The keyword arguments a caller gives: the minimums may be left out. */
  datatype Settings = Settings(presumeRoot: bool, requireRoot: bool, invert: bool,
                               minRecall: Option<real>, minPrecision: Option<real>, minLikelihood: Option<real>,
                               maxResults: int)

  /** Python's `round(x, digits)`, taken as given. */
  type Rounding = (real, nat) -> real

  /** What a chord presumed to be rooted on the input's first note, though
      it is not, loses in likelihood. */
  const RootPenalty: real := 0.15

  /** The defaults of the keyword arguments other than the minimums. */
  const Defaults: Settings := Settings(true, true, true, None, None, None, 8)

  function Given(x: Option<real>, fallback: real): real {
    if x.Some? then x.value else fallback
  }

  /** The options of a search: each minimum left out takes its fallback. */
  function Resolve(s: Settings, recall: real, precision: real, likelihood: real): (o: Options)
    ensures o.minRecall == (if s.minRecall.Some? then s.minRecall.value else recall)
    ensures o.minPrecision == (if s.minPrecision.Some? then s.minPrecision.value else precision)
    ensures o.minLikelihood == (if s.minLikelihood.Some? then s.minLikelihood.value else likelihood)
    ensures o.presumeRoot == s.presumeRoot && o.requireRoot == s.requireRoot && o.invert == s.invert
    ensures o.maxResults == s.maxResults
  {
    Options(s.presumeRoot, s.requireRoot, s.invert, Given(s.minRecall, recall), Given(s.minPrecision, precision),
            Given(s.minLikelihood, likelihood), s.maxResults)
  }

  // ---------------------------------------------------------------------------
  // The search

  /** The candidate a trial offers: the chord itself when rooted on the
      input's first note; else the chord inverted over that note when
      inversions are allowed and the chord has it; else the chord itself,
      less likely when the root is presumed. */
  function Candidate<C>(t: Trial<C>, o: Options): C {
    if t.rootIsFirst || !(o.invert && t.firstInChord) then t.chord else t.inverted
  }

  /** The candidate's likelihood. */
  function CandidateLikelihood<C>(t: Trial<C>, o: Options): real {
    if !t.rootIsFirst && !(o.invert && t.firstInChord) && o.presumeRoot then t.likelihood - RootPenalty
    else t.likelihood
  }

  /** Whether the candidate's bass is the input's first note. */
  predicate BassIsFirst<C>(t: Trial<C>, o: Options) {
    t.rootIsFirst || (o.invert && t.firstInChord)
  }

  /** A trial's candidate is kept when its bass is the input's first note
      or the root is not required, and recall, precision and likelihood
      each reach their minimum. */
  predicate Passes<C>(t: Trial<C>, o: Options) {
    && (!o.requireRoot || BassIsFirst(t, o))
    && t.recall >= o.minRecall && t.precision >= o.minPrecision && CandidateLikelihood(t, o) >= o.minLikelihood
  }

  /** The scores a kept candidate is stored with: recall, precision and
      likelihood to two places, consonance to three. */
  function Stored<C>(t: Trial<C>, o: Options, round: Rounding): Scores {
    Scores(round(t.recall, 2), round(t.precision, 2), round(CandidateLikelihood(t, o), 2), round(t.consonance, 3))
  }

  /** The candidates dict after the trials, in order: a kept candidate is
      stored under its chord, replacing what an earlier trial stored
      there. */
  function Search<C(==, !new)>(trials: seq<Trial<C>>, o: Options, round: Rounding): (d: Dict<C, Scores>)
    ensures Valid(d)
    ensures forall c :: c in d.vals <==> exists i :: 0 <= i < |trials| && Passes(trials[i], o) && Candidate(trials[i], o) == c
    decreases |trials|
  {
    if trials == [] then Empty()
    else
      var init := trials[..|trials| - 1];
      var t := trials[|trials| - 1];
      var d := Search(init, o, round);
      assert forall i :: 0 <= i < |init| ==> init[i] == trials[i];
      if Passes(t, o) then Put(d, Candidate(t, o), Stored(t, o, round)) else d
  }

  /** A kept candidate ends with the scores of the last trial that kept
      it. */
  lemma {:induction false} SearchKeepsLast<C(!new)>(trials: seq<Trial<C>>, o: Options, round: Rounding, i: nat)
    requires i < |trials| && Passes(trials[i], o)
    requires forall j :: i < j < |trials| && Passes(trials[j], o) ==> Candidate(trials[j], o) != Candidate(trials[i], o)
    ensures var d := Search(trials, o, round);
            Candidate(trials[i], o) in d.vals && d.vals[Candidate(trials[i], o)] == Stored(trials[i], o, round)
    decreases |trials|
  {
    if i < |trials| - 1 {
      var init := trials[..|trials| - 1];
      assert init[i] == trials[i];
      forall j | i < j < |init| && Passes(init[j], o) ensures Candidate(init[j], o) != Candidate(init[i], o) {
        assert init[j] == trials[j];
      }
      SearchKeepsLast(init, o, round, i);
    }
  }

  // ---------------------------------------------------------------------------
  // Ranking

  /** `a` ranks strictly above `b`: a higher recall, or the same recall and
      a higher precision, and so on through likelihood and consonance. */
  predicate Above(a: Scores, b: Scores) {
    || a.recall > b.recall
    || (a.recall == b.recall && a.precision > b.precision)
    || (a.recall == b.recall && a.precision == b.precision && a.likelihood > b.likelihood)
    || (a.recall == b.recall && a.precision == b.precision && a.likelihood == b.likelihood && a.consonance > b.consonance)
  }

  /** No entry ranks above one before it. */
  predicate Ranked<C>(s: seq<(C, Scores)>) {
    forall i, j :: 0 <= i < j < |s| ==> !Above(s[j].1, s[i].1)
  }

  /** No chord has two entries. */
  ghost predicate DistinctChords<C>(s: seq<(C, Scores)>) {
    forall i, j :: 0 <= i < j < |s| ==> s[i].0 != s[j].0
  }

  /** The chords that have an entry. */
  ghost predicate HasChord<C>(s: seq<(C, Scores)>, c: C) {
    exists i :: 0 <= i < |s| && s[i].0 == c
  }

  /** The entries with the given scores, in order. */
  function WithScores<C>(s: seq<(C, Scores)>, k: Scores): seq<(C, Scores)>
    decreases |s|
  {
    if s == [] then [] else (if s[0].1 == k then [s[0]] else []) + WithScores(s[1..], k)
  }

  /** Selecting by scores distributes over a split. */
  lemma {:induction false} WithScoresAppend<C>(a: seq<(C, Scores)>, b: seq<(C, Scores)>, k: Scores)
    ensures WithScores(a + b, k) == WithScores(a, k) + WithScores(b, k)
    decreases |a|
  {
    if a == [] {
      assert a + b == b;
    } else {
      assert (a + b)[1..] == a[1..] + b;
      WithScoresAppend(a[1..], b, k);
    }
  }

  /** Nothing is selected from entries none of which has the scores. */
  lemma {:induction false} WithScoresNone<C>(s: seq<(C, Scores)>, k: Scores)
    requires forall i :: 0 <= i < |s| ==> s[i].1 != k
    ensures WithScores(s, k) == []
    decreases |s|
  {
    if s != [] {
      WithScoresNone(s[1..], k);
    }
  }

  /** The entries after the first of ranked entries are ranked, and none
      ranks above the first. */
  lemma RankedTail<C>(s: seq<(C, Scores)>)
    requires Ranked(s) && s != []
    ensures Ranked(s[1..])
    ensures forall e :: e in s[1..] ==> !Above(e.1, s[0].1)
    ensures DistinctChords(s) ==> DistinctChords(s[1..]) && forall e :: e in s[1..] ==> e.0 != s[0].0
  {
    forall i, j | 0 <= i < j < |s[1..]| ensures !Above(s[1..][j].1, s[1..][i].1) {
      assert s[1..][i] == s[i + 1] && s[1..][j] == s[j + 1];
    }
    if DistinctChords(s) {
      forall i, j | 0 <= i < j < |s[1..]| ensures s[1..][i].0 != s[1..][j].0 {
        assert s[1..][i] == s[i + 1] && s[1..][j] == s[j + 1];
      }
    }
  }

  /** An entry in front of ranked entries, none of which ranks above it,
      keeps them ranked. */
  lemma ConsRanked<C>(a: (C, Scores), s: seq<(C, Scores)>)
    requires Ranked(s) && forall e :: e in s ==> !Above(e.1, a.1)
    ensures Ranked([a] + s)
  {
    forall i, j | 0 <= i < j < |[a] + s| ensures !Above(([a] + s)[j].1, ([a] + s)[i].1) {
      assert ([a] + s)[j] == s[j - 1];
      if i > 0 {
        assert ([a] + s)[i] == s[i - 1];
      }
    }
  }

  /** `x` placed in ranked entries after every entry that ranks at least as
      high. */
  function Insert<C>(x: (C, Scores), s: seq<(C, Scores)>): (r: seq<(C, Scores)>)
    requires Ranked(s)
    ensures Ranked(r)
    ensures forall e :: e in r ==> e == x || e in s
    decreases |s|
  {
    if s == [] then [x]
    else
      RankedTail(s);
      if Above(x.1, s[0].1) then
        assert forall e :: e in s ==> e == s[0] || e in s[1..];
        ConsRanked(x, s);
        [x] + s
      else
        assert s == [s[0]] + s[1..];
        ConsRanked(s[0], Insert(x, s[1..]));
        [s[0]] + Insert(x, s[1..])
  }

  /** Selecting by scores from entries with one in front. */
  lemma WithScoresCons<C>(a: (C, Scores), s: seq<(C, Scores)>, k: Scores)
    ensures WithScores([a] + s, k) == (if a.1 == k then [a] else []) + WithScores(s, k)
  {
    assert ([a] + s)[1..] == s;
  }

  /** An entry ranking above every ranked entry shares its scores with
      none of them. */
  lemma AboveAllNone<C>(x: (C, Scores), s: seq<(C, Scores)>)
    requires Ranked(s) && s != [] && Above(x.1, s[0].1)
    ensures WithScores(s, x.1) == []
  {
    forall i | 0 <= i < |s| ensures s[i].1 != x.1 {
      assert i == 0 || !Above(s[i].1, s[0].1);
    }
    WithScoresNone(s, x.1);
  }

  /** Inserting keeps the entries of each score in order, the new one
      last. */
  lemma {:induction false} InsertStable<C>(x: (C, Scores), s: seq<(C, Scores)>, k: Scores)
    requires Ranked(s)
    ensures WithScores(Insert(x, s), k) == WithScores(s, k) + (if x.1 == k then [x] else [])
    decreases |s|
  {
    if s == [] {
      WithScoresCons(x, s, k);
    } else if Above(x.1, s[0].1) {
      WithScoresCons(x, s, k);
      if x.1 == k {
        AboveAllNone(x, s);
      }
    } else {
      var tail := s[1..];
      RankedTail(s);
      assert s == [s[0]] + tail;
      WithScoresCons(s[0], Insert(x, tail), k);
      WithScoresCons(s[0], tail, k);
      InsertStable(x, tail, k);
    }
  }

  /** `sorted(..., reverse=True)` on the ranking key: a stable sort, highest
      first. */
  function Sort<C>(s: seq<(C, Scores)>): (r: seq<(C, Scores)>)
    ensures Ranked(r)
    decreases |s|
  {
    if s == [] then [] else Insert(s[|s| - 1], Sort(s[..|s| - 1]))
  }

  /** Inserting adds exactly the one entry. */
  lemma {:induction false} InsertPermutes<C>(x: (C, Scores), s: seq<(C, Scores)>)
    requires Ranked(s)
    ensures multiset(Insert(x, s)) == multiset(s) + multiset{x}
    decreases |s|
  {
    if s != [] && !Above(x.1, s[0].1) {
      RankedTail(s);
      assert s == [s[0]] + s[1..];
      InsertPermutes(x, s[1..]);
    }
  }

  /** Sorting permutes the entries. */
  lemma {:induction false} SortPermutes<C>(s: seq<(C, Scores)>)
    ensures multiset(Sort(s)) == multiset(s)
    decreases |s|
  {
    if s != [] {
      var init := s[..|s| - 1];
      assert s == init + [s[|s| - 1]];
      SortPermutes(init);
      InsertPermutes(s[|s| - 1], Sort(init));
    }
  }

  /** An entry for a new chord in front of entries with one entry per chord
      keeps one entry per chord. */
  lemma ConsDistinct<C>(a: (C, Scores), s: seq<(C, Scores)>)
    requires DistinctChords(s) && !HasChord(s, a.0)
    ensures DistinctChords([a] + s)
  {
    forall i, j | 0 <= i < j < |[a] + s| ensures ([a] + s)[i].0 != ([a] + s)[j].0 {
      assert ([a] + s)[j] == s[j - 1];
    }
  }

  /** Inserting an entry for a chord not yet present keeps every chord to
      one entry. */
  lemma {:induction false} InsertDistinct<C>(x: (C, Scores), s: seq<(C, Scores)>)
    requires Ranked(s) && DistinctChords(s) && !HasChord(s, x.0)
    ensures DistinctChords(Insert(x, s))
    decreases |s|
  {
    if s == [] {
    } else if Above(x.1, s[0].1) {
      ConsDistinct(x, s);
    } else {
      RankedTail(s);
      var tail := s[1..];
      assert !HasChord(tail, x.0) by {
        forall i | 0 <= i < |tail| ensures tail[i].0 != x.0 {
          assert tail[i] == s[i + 1];
        }
      }
      InsertDistinct(x, tail);
      var rest := Insert(x, tail);
      assert !HasChord(rest, s[0].0) by {
        forall i | 0 <= i < |rest| ensures rest[i].0 != s[0].0 {
          assert rest[i] in rest;
        }
      }
      ConsDistinct(s[0], rest);
    }
  }

  /** Sorting entries with one entry per chord keeps one entry per chord. */
  lemma {:induction false} SortDistinct<C>(s: seq<(C, Scores)>)
    requires DistinctChords(s)
    ensures DistinctChords(Sort(s))
    decreases |s|
  {
    if s != [] {
      var init := s[..|s| - 1];
      var x := s[|s| - 1];
      assert DistinctChords(init) by {
        forall i, j | 0 <= i < j < |init| ensures init[i].0 != init[j].0 {
          assert init[i] == s[i] && init[j] == s[j];
        }
      }
      SortDistinct(init);
      assert !HasChord(Sort(init), x.0) by {
        SortPermutes(init);
      forall i | 0 <= i < |Sort(init)| ensures Sort(init)[i].0 != x.0 {
          assert Sort(init)[i] in multiset(init);
          var k :| 0 <= k < |init| && init[k] == Sort(init)[i];
          assert init[k] == s[k];
        }
      }
      InsertDistinct(x, Sort(init));
    }
  }

  /** The sort is stable: the entries of each score keep their order. */
  lemma {:induction false} SortStable<C>(s: seq<(C, Scores)>, k: Scores)
    ensures WithScores(Sort(s), k) == WithScores(s, k)
    decreases |s|
  {
    if s != [] {
      var init := s[..|s| - 1];
      assert s == init + [s[|s| - 1]];
      SortStable(init, k);
      InsertStable(s[|s| - 1], Sort(init), k);
      WithScoresAppend(init, [s[|s| - 1]], k);
      WithScoresCons(s[|s| - 1], [], k);
    }
  }

  /** How many entries `s[:n]` keeps. */
  function SliceLength(len: nat, n: int): nat {
    if n >= 0 then (if n <= len then n else len) else if -n <= len then len + n else 0
  }

  /** `s[:n]` with Python's slice bound: `n` entries at most, or all but the
      last `-n` when `n` is negative. */
  function Truncate<T>(s: seq<T>, n: int): (r: seq<T>)
    ensures |r| == SliceLength(|s|, n) && r == s[..|r|]
  {
    if n >= 0 then (if n <= |s| then s[..n] else s)
    else if -n <= |s| then s[..|s| + n] else []
  }

  /** The dict's entries in key order. */
  function Entries<K(!new), V>(d: Dict<K, V>): (s: seq<(K, V)>)
    requires Valid(d)
    ensures |s| == |d.keys| && forall i :: 0 <= i < |s| ==> s[i] == (d.keys[i], d.vals[d.keys[i]])
  {
    seq(|d.keys|, i requires 0 <= i < |d.keys| && Valid(d) => (d.keys[i], d.vals[d.keys[i]]))
  }

  /** The dict's entries ranked, cut to `n` as `[:n]` does. */
  function Rank<K(==, !new)>(d: Dict<K, Scores>, n: int): (r: seq<(K, Scores)>)
    requires Valid(d)
    ensures Ranked(r)
  {
    Truncate(Sort(Entries(d)), n)
  }

  /** Every ranked entry is an entry of the dict, no key twice, and as many
      as `[:n]` keeps. */
  lemma RankEntries<K(!new)>(d: Dict<K, Scores>, n: int)
    requires Valid(d)
    ensures var r := Rank(d, n);
            && |r| == SliceLength(|d.keys|, n)
            && DistinctChords(r)
            && forall i :: 0 <= i < |r| ==> r[i].0 in d.vals && d.vals[r[i].0] == r[i].1
  {
    var es := Entries(d);
    var sorted := Sort(es);
    var r := Rank(d, n);
    SortPermutes(es);
    assert |sorted| == |multiset(sorted)| == |multiset(es)| == |es|;
    forall i | 0 <= i < |r| ensures r[i].0 in d.vals && d.vals[r[i].0] == r[i].1 {
      assert r[i] == sorted[i] && sorted[i] in multiset(es);
    }
    assert DistinctChords(es) by {
      forall i, j | 0 <= i < j < |es| ensures es[i].0 != es[j].0 {
        assert es[i].0 == d.keys[i] && es[j].0 == d.keys[j];
      }
    }
    SortDistinct(es);
    forall i, j | 0 <= i < j < |r| ensures r[i].0 != r[j].0 {
      assert r[i] == sorted[i] && r[j] == sorted[j];
    }
  }

  /** Sorting loses no entry. */
  lemma SortHas<C>(s: seq<(C, Scores)>, e: (C, Scores))
    requires e in s
    ensures e in Sort(s)
  {
    SortPermutes(s);
    assert e in multiset(s);
  }

  /** Nothing the cut leaves out ranks above anything it keeps. */
  lemma RankTop<K(!new)>(d: Dict<K, Scores>, n: int, k: K, i: nat)
    requires Valid(d) && k in d.vals && i < |Rank(d, n)| && !HasChord(Rank(d, n), k)
    ensures !Above(d.vals[k], Rank(d, n)[i].1)
  {
    var es := Entries(d);
    var sorted := Sort(es);
    var r := Rank(d, n);
    var at :| 0 <= at < |d.keys| && d.keys[at] == k;
    assert es[at] == (k, d.vals[k]);
    SortHas(es, es[at]);
    var j :| 0 <= j < |sorted| && sorted[j] == (k, d.vals[k]);
    assert j >= |r| by {
      assert forall m :: 0 <= m < |r| ==> r[m] == sorted[m];
    }
    assert r[i] == sorted[i];
  }

  /** `matching_chords(..., display=False)`: the kept candidates, ranked and
      cut to the most results asked for; minimums left out are 0.8 for
      recall, 0.7 for precision and 0.5 for likelihood. */
  function Matching<C(==, !new)>(trials: seq<Trial<C>>, s: Settings, round: Rounding): (r: seq<(C, Scores)>)
    ensures Ranked(r)
    ensures var o := Resolve(s, 0.8, 0.7, 0.5);
            forall i :: 0 <= i < |r| ==>
              exists t :: && 0 <= t < |trials| && Candidate(trials[t], o) == r[i].0
                          && (!s.requireRoot || BassIsFirst(trials[t], o))
                          && trials[t].recall >= Given(s.minRecall, 0.8)
                          && trials[t].precision >= Given(s.minPrecision, 0.7)
                          && CandidateLikelihood(trials[t], o) >= Given(s.minLikelihood, 0.5)
  {
    var d := Search(trials, Resolve(s, 0.8, 0.7, 0.5), round);
    RankEntries(d, s.maxResults);
    Rank(d, s.maxResults)
  }

  /** The matches are kept candidates, each once and with the scores the
      last trial keeping it stored, as many as `[:max_results]` keeps, and
      no kept candidate left out ranks above one shown. */
  lemma MatchingKept<C(!new)>(trials: seq<Trial<C>>, s: Settings, round: Rounding)
    ensures var o := Resolve(s, 0.8, 0.7, 0.5);
            var d := Search(trials, o, round);
            var r := Matching(trials, s, round);
            && |r| == SliceLength(|d.keys|, s.maxResults)
            && DistinctChords(r)
            && (forall i :: 0 <= i < |r| ==>
                  && (exists t :: 0 <= t < |trials| && Passes(trials[t], o) && Candidate(trials[t], o) == r[i].0)
                  && d.vals[r[i].0] == r[i].1)
            && (forall c, i :: c in d.vals && 0 <= i < |r| && !HasChord(r, c) ==> !Above(d.vals[c], r[i].1))
  {
    var o := Resolve(s, 0.8, 0.7, 0.5);
    var d := Search(trials, o, round);
    RankEntries(d, s.maxResults);
    var r := Rank(d, s.maxResults);
    forall i | 0 <= i < |r|
      ensures exists t :: 0 <= t < |trials| && Passes(trials[t], o) && Candidate(trials[t], o) == r[i].0
    {
      assert r[i].0 in d.vals;
    }
    forall c, i | c in d.vals && 0 <= i < |Rank(d, s.maxResults)| && !HasChord(Rank(d, s.maxResults), c)
      ensures !Above(d.vals[c], Rank(d, s.maxResults)[i].1)
    {
      RankTop(d, s.maxResults, c, i);
    }
  }

  /** `most_likely_chord`: the first match, with every minimum left out
      taken as zero; an index error when nothing matches. */
  function MostLikely<C(==, !new)>(trials: seq<Trial<C>>, s: Settings, round: Rounding): (r: Result<(C, Scores)>)
    ensures r.Err? ==> r.error == IndexOutOfRange
  {
    var o := Resolve(s, 0.0, 0.0, 0.0);
    var ranked := Matching(trials, Settings(s.presumeRoot, s.requireRoot, s.invert, Some(o.minRecall),
                                            Some(o.minPrecision), Some(o.minLikelihood), s.maxResults), round);
    if ranked == [] then Err(IndexOutOfRange) else Ok(ranked[0])
  }

  /** The most likely chord is a kept candidate, with its stored scores,
      and no kept candidate ranks above it; it is missing exactly when
      nothing is kept or the cut keeps nothing. */
  lemma MostLikelyBest<C(!new)>(trials: seq<Trial<C>>, s: Settings, round: Rounding)
    ensures var d := Search(trials, Resolve(s, 0.0, 0.0, 0.0), round);
            var r := MostLikely(trials, s, round);
            && (r.Err? <==> d.keys == [] || SliceLength(|d.keys|, s.maxResults) == 0)
            && (r.Ok? ==> && r.value.0 in d.vals && d.vals[r.value.0] == r.value.1
                          && forall c :: c in d.vals ==> !Above(d.vals[c], r.value.1))
  {
    var o := Resolve(s, 0.0, 0.0, 0.0);
    var s2 := Settings(s.presumeRoot, s.requireRoot, s.invert, Some(o.minRecall), Some(o.minPrecision),
                       Some(o.minLikelihood), s.maxResults);
    assert Resolve(s2, 0.8, 0.7, 0.5) == o;
    var d := Search(trials, o, round);
    var r := Rank(d, s.maxResults);
    RankEntries(d, s.maxResults);
    if r != [] {
      forall c | c in d.vals ensures !Above(d.vals[c], r[0].1) {
        if !HasChord(r, c) {
          RankTop(d, s.maxResults, c, 0);
        } else {
          var j :| 0 <= j < |r| && r[j].0 == c;
          assert j == 0 || !Above(r[j].1, r[0].1);
        }
      }
    }
  }
}

=== FILE: names.dfy ===
/** The chord-name tables the naming code reads: names keyed by factors and
    by interval lists, and the rarity tier of every name.

    Factors are hashed by their key order and compared by contents, so a
    factors lookup succeeds exactly when both agree: the `Factors` value
    itself is the key.  Interval lists are compared element by element by
    value, so their key is the sequence of values. */
module Names {
  import opened Errors
  import opened Intervals
  import opened IntervalLists
  import opened Factors

  type Name = string

  datatype Registry = Registry(byFactors: map<Factors, Name>, byIntervals: map<seq<int>, Name>, rarity: map<Name, nat>)

  /** The key under which an interval list is looked up. */
  function IntervalKey(xs: seq<Interval>): (k: seq<int>)
    ensures |k| == |xs| && forall i :: 0 <= i < |xs| ==> k[i] == xs[i].value
  {
    Values(xs)
  }

  /** Decimal digits of a natural number, most significant first. */
  function Digits(n: nat): (s: string)
    ensures |s| >= 1 && forall i :: 0 <= i < |s| ==> '0' <= s[i] <= '9'
    ensures n > 0 ==> s[0] != '0'
  {
    if n < 10 then [DigitChar(n)] else Digits(n / 10) + [DigitChar(n % 10)]
  }

  function DigitChar(d: nat): (c: char)
    requires d < 10
    ensures '0' <= c <= '9' && (d > 0 ==> c != '0')
  {
    (d + '0' as int) as char
  }

  /** The number a string of decimal digits denotes. */
  function ReadDigits(s: string): (n: nat)
    requires forall i :: 0 <= i < |s| ==> '0' <= s[i] <= '9'
  {
    if s == [] then 0 else 10 * ReadDigits(s[..|s| - 1]) + (s[|s| - 1] as int - '0' as int)
  }

  /** Printing a number and reading it back gives the number. */
  lemma {:induction false} DigitsRoundTrip(n: nat)
    ensures ReadDigits(Digits(n)) == n
  {
    if n >= 10 {
      var s := Digits(n);
      assert s[..|s| - 1] == Digits(n / 10);
      DigitsRoundTrip(n / 10);
    }
  }

  /** `_inv_string`: `/<inversion>` for an inverted chord, nothing otherwise. */
  function InversionString(inversion: nat): (s: string)
    ensures inversion == 0 <==> s == ""
    ensures inversion != 0 ==> |s| >= 2 && s[0] == '/' && s[1..] == Digits(inversion)
    ensures inversion != 0 ==> ReadDigits(s[1..]) == inversion
  {
    if inversion == 0 then ""
    else
      DigitsRoundTrip(inversion);
      assert ("/" + Digits(inversion))[1..] == Digits(inversion);
      "/" + Digits(inversion)
  }

  /** `chord_name_rarities[factors_to_chord_names[factors]]`: a key error
      when the factors are not registered or their name has no tier. */
  function RarityOf(reg: Registry, f: Factors): (r: Result<nat>)
    ensures r.Ok? <==> f in reg.byFactors && reg.byFactors[f] in reg.rarity
    ensures r.Ok? ==> r.value == reg.rarity[reg.byFactors[f]]
    ensures r.Err? ==> r.error == MissingKey
  {
    if f !in reg.byFactors then Err(MissingKey)
    else if reg.byFactors[f] !in reg.rarity then Err(MissingKey)
    else Ok(reg.rarity[reg.byFactors[f]])
  }
}

=== FILE: qualities.dfy ===
/** Interval and chord qualities.

    A quality is judged against one of two scales: the perfect scale (unison,
    fourth, fifth) or the major scale (all other degrees).  On either scale it is
    equivalent to a signed semitone offset from the canonical perfect/major size,
    which is how the interval code uses it. */
module Qualities {

  datatype Quality =
    | Perfect
    | Major
    | Minor
    | Augmented(extra: nat)   // extra = 0: augmented, 1: doubly augmented, ...
    | Diminished(extra: nat)  // extra = 0: diminished, 1: doubly diminished, ...
  {
    /** Major or augmented: the chords that have a parallel minor. */
    predicate MajorIsh() {
      Major? || Augmented?
    }

    /** Minor or diminished: the chords that have a parallel major. */
    predicate MinorIsh() {
      Minor? || Diminished?
    }
  }

  /** A quality belongs to the perfect scale unless it is major or minor, and to
      the major scale unless it is perfect. */
  predicate OnScale(q: Quality, perfectScale: bool) {
    if perfectScale then !(q.Major? || q.Minor?) else !q.Perfect?
  }

  /** The quality that lies `offset` semitones from the canonical interval of a
      degree on the given scale. */
  function FromOffset(perfectScale: bool, offset: int): (q: Quality)
    ensures OnScale(q, perfectScale)
  {
    if perfectScale then
      if offset == 0 then Perfect
      else if offset > 0 then Augmented(offset - 1)
      else Diminished(-offset - 1)
    else
      if offset == 0 then Major
      else if offset == -1 then Minor
      else if offset > 0 then Augmented(offset - 1)
      else Diminished(-offset - 2)
  }

  /** Semitones between a quality and the canonical (perfect or major) size. */
  function OffsetOf(q: Quality, perfectScale: bool): (offset: int)
    requires OnScale(q, perfectScale)
  {
    match q
    case Perfect => 0
    case Major => 0
    case Minor => -1
    case Augmented(e) => e + 1
    case Diminished(e) => if perfectScale then -(e as int) - 1 else -(e as int) - 2
  }

  /** Reading the offset back from a quality built from it gives the offset. */
  lemma OffsetRoundTrip(perfectScale: bool, offset: int)
    ensures OffsetOf(FromOffset(perfectScale, offset), perfectScale) == offset
  {
  }

  /** Every quality of a scale is the quality of its own offset. */
  lemma QualityRoundTrip(q: Quality, perfectScale: bool)
    requires OnScale(q, perfectScale)
    ensures FromOffset(perfectScale, OffsetOf(q, perfectScale)) == q
  {
  }
}

=== FILE: rarity_table.dfy ===
/** The rarity table: chord names grouped by tier, from the most common
    (tier 0) to the rarest (tier 7), and the dict from name to tier read
    back from it. */
module RarityTable {
  import opened Names

  /** The highest rarity tier. */
  const TopTier: nat := 7

  /** Tiers never fall along a listing. */
  predicate Ascending(ps: seq<(Name, nat)>) {
    forall i, j :: 0 <= i < j < |ps| ==> ps[i].1 <= ps[j].1
  }

  /** A listing read into a dict from name to tier, a later listing of a
      name replacing an earlier one: how `unpack_and_reverse_dict` is used
      on the rarity table (the helper itself is not part of this model). */
  function Reverse(ps: seq<(Name, nat)>): (m: map<Name, nat>)
    ensures forall n :: n in m <==> exists i :: 0 <= i < |ps| && ps[i].0 == n
    decreases |ps|
  {
    if ps == [] then map[]
    else
      var init := ps[..|ps| - 1];
      assert forall i :: 0 <= i < |init| ==> init[i] == ps[i];
      Reverse(init)[ps[|ps| - 1].0 := ps[|ps| - 1].1]
  }

  /** A name ends with the tier of its last listing. */
  lemma {:induction false} ReverseLast(ps: seq<(Name, nat)>, i: nat)
    requires i < |ps| && forall j :: i < j < |ps| ==> ps[j].0 != ps[i].0
    ensures ps[i].0 in Reverse(ps) && Reverse(ps)[ps[i].0] == ps[i].1
    decreases |ps|
  {
    if i < |ps| - 1 {
      var init := ps[..|ps| - 1];
      assert init[i] == ps[i];
      forall j | i < j < |init| ensures init[j].0 != init[i].0 {
        assert init[j] == ps[j];
      }
      ReverseLast(init, i);
    }
  }

  /** When tiers never fall along the listing, a name ends at the highest
      tier it is listed at. */
  lemma {:induction false} ReverseHighest(ps: seq<(Name, nat)>, i: nat)
    requires Ascending(ps) && i < |ps|
    ensures ps[i].0 in Reverse(ps) && ps[i].1 <= Reverse(ps)[ps[i].0]
    decreases |ps|
  {
    var last := ps[|ps| - 1];
    if i < |ps| - 1 && last.0 != ps[i].0 {
      var init := ps[..|ps| - 1];
      assert init[i] == ps[i];
      assert Ascending(init) by {
        forall j, k | 0 <= j < k < |init| ensures init[j].1 <= init[k].1 {
          assert init[j] == ps[j] && init[k] == ps[k];
        }
      }
      ReverseHighest(init, i);
    }
  }

  /** The names the table lists at one tier, in table order. */
  function AtTier(table: seq<(Name, nat)>, t: nat): (ns: seq<Name>)
    ensures forall n :: n in ns <==> (n, t) in table
    decreases |table|
  {
    if table == [] then []
    else
      assert table == [table[0]] + table[1..];
      (if table[0].1 == t then [table[0].0] else []) + AtTier(table[1..], t)
  }

  /** Names, each paired with one tier. */
  function Tagged(ns: seq<Name>, t: nat): (ps: seq<(Name, nat)>)
    ensures |ps| == |ns| && forall i :: 0 <= i < |ns| ==> ps[i] == (ns[i], t)
  {
    seq(|ns|, i requires 0 <= i < |ns| => (ns[i], t))
  }

  /** The names of tier `t` once the table has been extended by new names:
      the table's own, then the new ones. */
  function TierNames(table: seq<(Name, nat)>, added: map<nat, seq<Name>>, t: nat): (ns: seq<Name>)
    ensures forall n :: n in ns <==> (n, t) in table || (t in added && n in added[t])
  {
    AtTier(table, t) + (if t in added then added[t] else [])
  }

  /** The extended table from tier `t` up, tier by tier. */
  function Listing(table: seq<(Name, nat)>, added: map<nat, seq<Name>>, t: nat): (ps: seq<(Name, nat)>)
    ensures forall i :: 0 <= i < |ps| ==> t <= ps[i].1 <= TopTier
    decreases TopTier + 1 - t
  {
    if t > TopTier then [] else Tagged(TierNames(table, added, t), t) + Listing(table, added, t + 1)
  }

  /** Tiers never fall along the extended table. */
  lemma {:induction false} ListingOrdered(table: seq<(Name, nat)>, added: map<nat, seq<Name>>, t: nat)
    ensures Ascending(Listing(table, added, t))
    decreases TopTier + 1 - t
  {
    if t <= TopTier {
      ListingOrdered(table, added, t + 1);
      var head := Tagged(TierNames(table, added, t), t);
      var rest := Listing(table, added, t + 1);
      var ps := Listing(table, added, t);
      assert ps == head + rest;
      forall i, j | 0 <= i < j < |ps| ensures ps[i].1 <= ps[j].1 {
        if j < |head| {
          assert ps[i] == head[i] && ps[j] == head[j];
        } else if i < |head| {
          assert ps[i] == head[i] && ps[j] == rest[j - |head|];
          assert t + 1 <= rest[j - |head|].1;
        } else {
          assert ps[i] == rest[i - |head|] && ps[j] == rest[j - |head|];
          assert rest[i - |head|].1 <= rest[j - |head|].1;
        }
      }
    }
  }

  /** A name of tier `t` of the extended table is listed at `t`. */
  lemma ListingHasHere(table: seq<(Name, nat)>, added: map<nat, seq<Name>>, t: nat, n: Name)
    requires t <= TopTier
    requires (n, t) in table || (t in added && n in added[t])
    ensures (n, t) in Tagged(TierNames(table, added, t), t)
  {
    var ns := TierNames(table, added, t);
    assert n in ns;
    var i :| 0 <= i < |ns| && ns[i] == n;
    assert Tagged(ns, t)[i] == (n, t);
  }

  /** A name of tier `u` of the extended table is listed at `u`. */
  lemma {:induction false} ListingHas(table: seq<(Name, nat)>, added: map<nat, seq<Name>>, t: nat, u: nat, n: Name)
    requires t <= u <= TopTier
    requires (n, u) in table || (u in added && n in added[u])
    ensures (n, u) in Listing(table, added, t)
    decreases u - t
  {
    assert Listing(table, added, t) == Tagged(TierNames(table, added, t), t) + Listing(table, added, t + 1);
    if u == t {
      ListingHasHere(table, added, t, n);
    } else {
      ListingHas(table, added, t + 1, u, n);
    }
  }

  /** Everything listed is a name of the table or a new name, at its
      tier. */
  lemma {:induction false} ListingFrom(table: seq<(Name, nat)>, added: map<nat, seq<Name>>, t: nat, i: nat)
    requires i < |Listing(table, added, t)|
    ensures var p := Listing(table, added, t)[i];
            p in table || (p.1 in added && p.0 in added[p.1])
    decreases TopTier + 1 - t
  {
    var ns := TierNames(table, added, t);
    var head := Tagged(ns, t);
    var rest := Listing(table, added, t + 1);
    var ps := Listing(table, added, t);
    assert ps == head + rest;
    if i < |head| {
      assert ps[i] == (ns[i], t);
      assert ns[i] in ns;
    } else {
      assert ps[i] == rest[i - |head|];
      ListingFrom(table, added, t + 1, i - |head|);
    }
  }

  /** Every name read back carries the tier of one of its listings. */
  lemma {:induction false} ReverseFromListing(ps: seq<(Name, nat)>)
    ensures forall n :: n in Reverse(ps) ==> (n, Reverse(ps)[n]) in ps
    decreases |ps|
  {
    if ps != [] {
      var init := ps[..|ps| - 1];
      ReverseFromListing(init);
      forall n | n in Reverse(ps) ensures (n, Reverse(ps)[n]) in ps {
        if n != ps[|ps| - 1].0 {
          var k :| 0 <= k < |init| && init[k] == (n, Reverse(init)[n]);
          assert ps[k] == init[k];
        }
      }
    }
  }

  /** Only names of the extended table are read back, each with a tier it
      is listed at. */
  lemma ReverseListingFrom(table: seq<(Name, nat)>, added: map<nat, seq<Name>>)
    ensures var m := Reverse(Listing(table, added, 0));
            forall n :: n in m ==> m[n] <= TopTier && ((n, m[n]) in table || (m[n] in added && n in added[m[n]]))
  {
    var ps := Listing(table, added, 0);
    ReverseFromListing(ps);
    forall n | n in Reverse(ps)
      ensures Reverse(ps)[n] <= TopTier && ((n, Reverse(ps)[n]) in table || (Reverse(ps)[n] in added && n in added[Reverse(ps)[n]]))
    {
      var i :| 0 <= i < |ps| && ps[i] == (n, Reverse(ps)[n]);
      ListingFrom(table, added, 0, i);
    }
  }

  /** Every name of tier `u` of the extended table is read back with a
      tier at least `u`. */
  lemma ReverseListing(table: seq<(Name, nat)>, added: map<nat, seq<Name>>)
    ensures var m := Reverse(Listing(table, added, 0));
            forall n, u :: u <= TopTier && ((n, u) in table || (u in added && n in added[u])) ==> n in m && u <= m[n]
  {
    var ps := Listing(table, added, 0);
    ListingOrdered(table, added, 0);
    forall n, u | u <= TopTier && ((n, u) in table || (u in added && n in added[u]))
      ensures n in Reverse(ps) && u <= Reverse(ps)[n]
    {
      ListingHas(table, added, 0, u, n);
      var i :| 0 <= i < |ps| && ps[i] == (n, u);
      ReverseHighest(ps, i);
    }
  }

  /** The rarity of every name of the extended table: the tier it is last
      listed at, which is the highest. */
  function Rarities(table: seq<(Name, nat)>, added: map<nat, seq<Name>>): (m: map<Name, nat>)
    ensures forall n, u :: u <= TopTier && ((n, u) in table || (u in added && n in added[u])) ==> n in m && u <= m[n]
    ensures forall n :: n in m ==> m[n] <= TopTier && ((n, m[n]) in table || (m[n] in added && n in added[m[n]]))
  {
    ReverseListing(table, added);
    ReverseListingFrom(table, added);
    Reverse(Listing(table, added, 0))
  }

  /** A name of tier `u` of the extended table has a rarity of at least
      `u`. */
  lemma RarityOfListed(table: seq<(Name, nat)>, added: map<nat, seq<Name>>, n: Name, u: nat)
    requires u <= TopTier && ((n, u) in table || (u in added && n in added[u]))
    ensures n in Rarities(table, added) && u <= Rarities(table, added)[n]
  {
  }
}

=== FILE: registry.dfy ===
/** The naming registry that `chords.py` builds when it is loaded: every
    base chord name of the rarity table is keyed by its factors and by its
    intervals unless one of the two keys is taken already, then every
    modifiable base chord is tried with each chord modifier.  Each modified
    chord is then meant to be tried once more with a second modifier, but
    the loop as written fetches the first modifier again, so it never
    registers anything: `Build` is the registry as written, and
    `BuildIntended` the one the evidently intended loop would build.

    The base chords arrive as the abstract chords their names denote and
    the modifiers as records: reading names and the modifiers' own rules
    are not part of this model.  Whether a modifier is valid on given
    factors is a parameter. */
module RegistryBuild {
  import opened Errors
  import opened Intervals
  import opened IntervalLists
  import opened Factors
  import opened AbstractChords
  import opened Names
  import opened RarityTable

  /** A chord of the rarity table: its name, its tier and the abstract
      chord the name denotes. */
  datatype BaseChord = BaseChord(name: Name, tier: nat, chord: AbstractChord)

  /** A chord modifier: its name, its rarity tier, the qualifier it applies,
      and whether it is one of the modifiers that leave a chord's quality
      undetermined, which are never put on a minor chord. */
  datatype Modifier = Modifier(name: Name, tier: nat, q: Qualifier, indeterminate: bool)

  /** What the loops use of the chord model: `factors + qualifier`, the key
      of the intervals that factors give (failing as the conversion does),
      whether a qualifier is valid on factors, and which reading of the
      second-level loop runs: the one the loop is at, or, as written, the
      first modifier again.  The loops are stated over any such operations;
      `ModelOps` supplies the model's own. */
  datatype Ops = Ops(
    plus: (Factors, Qualifier) -> Factors,
    keyOf: Factors -> Result<seq<int>>,
    validOn: (Qualifier, Factors) -> bool,
    secondByLoop: bool)

  /** The two name tables while they are filled, and the names found for
      each tier on the way. */
  datatype Tables = Tables(byFactors: map<Factors, Name>, byIntervals: map<seq<int>, Name>, added: map<nat, seq<Name>>)

  /** Names that are never modified. */
  const Unmodifiable: set<Name> := {"", "5", "(no5)", "add4", "add9", "add11", "add13"}

  /** The modifier that always comes last. */
  const NoFifth: Name := "(no5)"

  // ---------------------------------------------------------------------------
  // The model's operations

  /** The key of the intervals valid factors give. */
  function KeyOf(f: Factors): (r: Result<seq<int>>)
    ensures Valid(f) ==> (r.Ok? <==> ToIntervals(f).Ok?)
    ensures Valid(f) && r.Ok? ==> r.value == IntervalKey(ToIntervals(f).value)
  {
    if !Valid(f) then Err(WrongType)
    else
      var xs :- ToIntervals(f);
      Ok(IntervalKey(xs))
  }

  /** A single qualifier added to valid factors. */
  function ModifyBy(f: Factors, q: Qualifier): (r: Factors)
    ensures Valid(f) && ValidQualifier(q) ==> Plus(f, One(q)) == Ok(r)
  {
    if Valid(f) && ValidQualifier(q) then Plus(f, One(q)).value else f
  }

  /** The model's operations, with validity a parameter, running the
      second-level loop as written. */
  function ModelOps(validOn: (Qualifier, Factors) -> bool): (ops: Ops)
    ensures ops.validOn == validOn && !ops.secondByLoop
  {
    Ops(ModifyBy, KeyOf, validOn, false)
  }

  /** The same operations, running the second-level loop as intended. */
  function IntendedOps(validOn: (Qualifier, Factors) -> bool): (ops: Ops)
    ensures ops.validOn == validOn && ops.secondByLoop
    ensures ops == ModelOps(validOn).(secondByLoop := true)
  {
    Ops(ModifyBy, KeyOf, validOn, true)
  }

  // ---------------------------------------------------------------------------
  // Tables

  /** `new_rarities`: an empty list for every tier. */
  function NoNewNames(): (m: map<nat, seq<Name>>)
    ensures forall t: nat :: t in m <==> t <= TopTier
    ensures forall t :: t in m ==> m[t] == []
  {
    map[0 := [], 1 := [], 2 := [], 3 := [], 4 := [], 5 := [], 6 := [], 7 := []]
  }

  /** Whether factors or an interval key already name a chord. */
  predicate Taken(t: Tables, f: Factors, key: seq<int>) {
    f in t.byFactors || key in t.byIntervals
  }

  /** A later state of the tables: every key keeps its name, and every
      tier's list of new names only grows at its end. */
  predicate Extends(t: Tables, u: Tables) {
    && (forall f :: f in t.byFactors ==> f in u.byFactors && u.byFactors[f] == t.byFactors[f])
    && (forall k :: k in t.byIntervals ==> k in u.byIntervals && u.byIntervals[k] == t.byIntervals[k])
    && u.added.Keys == t.added.Keys
    && (forall n :: n in t.added ==> t.added[n] <= u.added[n])
  }

  /** Every factors key is keyed under its intervals too, by the same
      name. */
  predicate Coherent(t: Tables, ops: Ops) {
    forall f :: f in t.byFactors ==>
      ops.keyOf(f).Ok? && ops.keyOf(f).value in t.byIntervals && t.byIntervals[ops.keyOf(f).value] == t.byFactors[f]
  }

  /** Every name keyed by factors is a base name or listed at a tier. */
  predicate Listed(t: Tables, names: set<Name>) {
    forall f :: f in t.byFactors ==>
      t.byFactors[f] in names || exists n :: n in t.added && t.byFactors[f] in t.added[n]
  }

  /** Both keys of a chord set to its name. */
  function Register(t: Tables, f: Factors, key: seq<int>, name: Name): (u: Tables)
    requires !Taken(t, f, key)
    ensures Extends(t, u) && u.added == t.added
    ensures u.byFactors.Keys == t.byFactors.Keys + {f} && u.byIntervals.Keys == t.byIntervals.Keys + {key}
    ensures u.byFactors[f] == name && u.byIntervals[key] == name
  {
    t.(byFactors := t.byFactors[f := name], byIntervals := t.byIntervals[key := name])
  }

  /** Registering factors under their own key keeps the tables
      coherent. */
  lemma RegisterCoherent(t: Tables, f: Factors, name: Name, ops: Ops)
    requires ops.keyOf(f).Ok? && !Taken(t, f, ops.keyOf(f).value)
    ensures Coherent(t, ops) ==> Coherent(Register(t, f, ops.keyOf(f).value, name), ops)
  {
  }

  /** `new_rarities[tier].append(name)`: a key error for a tier the dict
      lacks. */
  function Append(t: Tables, tier: nat, name: Name): (r: Result<Tables>)
    ensures r.Ok? <==> tier in t.added
    ensures r.Err? ==> r.error == MissingKey
    ensures r.Ok? ==> Extends(t, r.value) && r.value.added[tier] == t.added[tier] + [name]
    ensures r.Ok? ==> forall n :: n in t.added && n != tier ==> r.value.added[n] == t.added[n]
    ensures r.Ok? ==> r.value.byFactors == t.byFactors && r.value.byIntervals == t.byIntervals
  {
    if tier !in t.added then Err(MissingKey)
    else Ok(t.(added := t.added[tier := t.added[tier] + [name]]))
  }

  /** Every factors key new in a later state names a name listed at some
      tier. */
  predicate NewListed(t: Tables, u: Tables) {
    forall g :: g in u.byFactors && g !in t.byFactors ==> exists n :: n in u.added && u.byFactors[g] in u.added[n]
  }

  /** A name registered and then listed at a tier is listed. */
  lemma RegisterListed(t: Tables, f: Factors, key: seq<int>, name: Name, tier: nat)
    requires !Taken(t, f, key) && tier in t.added
    ensures NewListed(t, Append(Register(t, f, key, name), tier, name).value)
  {
    var u := Append(Register(t, f, key, name), tier, name).value;
    assert u.byFactors[f] == u.added[tier][|u.added[tier]| - 1];
  }

  /** Names keep being listed as the tables grow. */
  lemma ListedGrows(t: Tables, u: Tables, names: set<Name>)
    requires Listed(t, names) && Extends(t, u) && NewListed(t, u)
    ensures Listed(u, names)
  {
    forall g | g in u.byFactors
      ensures u.byFactors[g] in names || exists n :: n in u.added && u.byFactors[g] in u.added[n]
    {
      if g in t.byFactors && t.byFactors[g] !in names {
        var n :| n in t.added && t.byFactors[g] in t.added[n];
        assert t.added[n] <= u.added[n];
      }
    }
  }

  // ---------------------------------------------------------------------------
  // Base chords

  /** One base chord: registered when neither its factors nor its
      intervals are taken, skipped otherwise.  Skipping logs the name its
      intervals are keyed by, a key error when only its factors are
      taken. */
  function BaseStep(t: Tables, b: BaseChord): (r: Result<Tables>)
    ensures !Taken(t, b.chord.factors, IntervalKey(b.chord.intervals)) ==>
              r == Ok(Register(t, b.chord.factors, IntervalKey(b.chord.intervals), b.name))
    ensures Taken(t, b.chord.factors, IntervalKey(b.chord.intervals)) ==>
              r == if IntervalKey(b.chord.intervals) in t.byIntervals then Ok(t) else Err(MissingKey)
  {
    var key := IntervalKey(b.chord.intervals);
    if Taken(t, b.chord.factors, key) then
      if key in t.byIntervals then Ok(t) else Err(MissingKey)
    else Ok(Register(t, b.chord.factors, key, b.name))
  }

  /** The first loop over the rarity table: no name is ever replaced. */
  function BaseLoop(t: Tables, base: seq<BaseChord>): (r: Result<Tables>)
    ensures r.Ok? ==> Extends(t, r.value) && r.value.added == t.added
    decreases |base|
  {
    if base == [] then Ok(t)
    else
      var u :- BaseStep(t, base[0]);
      BaseLoop(u, base[1..])
  }

  /** Every key the first loop adds names a chord of the table that has
      those factors. */
  lemma {:induction false} BaseLoopProvenance(t: Tables, base: seq<BaseChord>, f: Factors)
    requires BaseLoop(t, base).Ok?
    requires f in BaseLoop(t, base).value.byFactors && f !in t.byFactors
    ensures exists i :: 0 <= i < |base| && base[i].chord.factors == f && base[i].name == BaseLoop(t, base).value.byFactors[f]
    decreases |base|
  {
    var r := BaseLoop(t, base).value;
    var u := BaseStep(t, base[0]).value;
    assert BaseLoop(u, base[1..]) == BaseLoop(t, base);
    if f in u.byFactors {
      assert base[0].chord.factors == f && base[0].name == u.byFactors[f];
    } else {
      BaseLoopProvenance(u, base[1..], f);
      var i :| 0 <= i < |base[1..]| && base[1..][i].chord.factors == f && base[1..][i].name == r.byFactors[f];
      assert base[i + 1] == base[1..][i];
    }
  }

  /** A base chord whose intervals are those its factors give. */
  predicate Named(b: BaseChord, ops: Ops) {
    ops.keyOf(b.chord.factors) == Ok(IntervalKey(b.chord.intervals))
  }

  predicate AllNamed(base: seq<BaseChord>, ops: Ops) {
    forall i :: 0 <= i < |base| ==> Named(base[i], ops)
  }

  lemma AllNamedTail(base: seq<BaseChord>, ops: Ops)
    requires base != [] && AllNamed(base, ops)
    ensures Named(base[0], ops) && AllNamed(base[1..], ops)
  {
    assert Named(base[0], ops);
    forall i | 0 <= i < |base[1..]| ensures Named(base[1..][i], ops) {
      assert base[1..][i] == base[i + 1];
    }
  }

  /** A chord whose intervals its factors give never reaches the failing
      log line, and keeps the tables coherent. */
  lemma BaseStepCoherent(t: Tables, b: BaseChord, ops: Ops)
    requires Coherent(t, ops) && Named(b, ops)
    ensures BaseStep(t, b).Ok? && Coherent(BaseStep(t, b).value, ops)
  {
    if !Taken(t, b.chord.factors, IntervalKey(b.chord.intervals)) {
      RegisterCoherent(t, b.chord.factors, b.name, ops);
    }
  }

  /** Over chords whose intervals their factors give, the first loop
      succeeds and keeps the tables coherent. */
  lemma {:induction false} BaseLoopCoherent(t: Tables, base: seq<BaseChord>, ops: Ops)
    requires Coherent(t, ops) && AllNamed(base, ops)
    ensures BaseLoop(t, base).Ok? && Coherent(BaseLoop(t, base).value, ops)
    decreases |base|
  {
    if base != [] {
      AllNamedTail(base, ops);
      BaseStepCoherent(t, base[0], ops);
      BaseLoopCoherent(BaseStep(t, base[0]).value, base[1..], ops);
    }
  }

  /** Factors whose interval key is taken by another chord are never
      keyed afterwards. */
  lemma {:induction false} BlockedStaysOut(t: Tables, base: seq<BaseChord>, f: Factors, ops: Ops)
    requires Coherent(t, ops) && AllNamed(base, ops)
    requires ops.keyOf(f).Ok? && ops.keyOf(f).value in t.byIntervals && f !in t.byFactors
    ensures BaseLoop(t, base).Ok? && f !in BaseLoop(t, base).value.byFactors
    decreases |base|
  {
    BaseLoopCoherent(t, base, ops);
    if base != [] {
      AllNamedTail(base, ops);
      BaseStepCoherent(t, base[0], ops);
      BlockedStaysOut(BaseStep(t, base[0]).value, base[1..], f, ops);
    }
  }

  /** The first chord of the table keeps its factors key when the loop
      adds it. */
  lemma FirstKept(t: Tables, base: seq<BaseChord>, ops: Ops)
    requires Coherent(t, ops) && AllNamed(base, ops) && base != []
    ensures BaseLoop(t, base).Ok?
    ensures var f := base[0].chord.factors;
            f in BaseLoop(t, base).value.byFactors && f !in t.byFactors ==> BaseLoop(t, base).value.byFactors[f] == base[0].name
  {
    BaseLoopCoherent(t, base, ops);
    var f := base[0].chord.factors;
    AllNamedTail(base, ops);
    BaseStepCoherent(t, base[0], ops);
    var u := BaseStep(t, base[0]).value;
    assert BaseLoop(u, base[1..]) == BaseLoop(t, base);
    if f !in t.byFactors {
      if IntervalKey(base[0].chord.intervals) in t.byIntervals {
        BlockedStaysOut(u, base[1..], f, ops);
      } else {
        assert u.byFactors[f] == base[0].name;
      }
    }
  }

  /** The first registrant wins: a factors key the first loop adds names
      the first chord of the table with those factors. */
  lemma {:induction false} FirstWins(t: Tables, base: seq<BaseChord>, i: nat, ops: Ops)
    requires Coherent(t, ops) && AllNamed(base, ops) && i < |base|
    requires forall j :: 0 <= j < i ==> base[j].chord.factors != base[i].chord.factors
    ensures BaseLoop(t, base).Ok?
    ensures var f := base[i].chord.factors;
            f in BaseLoop(t, base).value.byFactors && f !in t.byFactors ==> BaseLoop(t, base).value.byFactors[f] == base[i].name
    decreases i
  {
    if i == 0 {
      FirstKept(t, base, ops);
    } else {
      BaseLoopCoherent(t, base, ops);
      var f := base[i].chord.factors;
      AllNamedTail(base, ops);
      BaseStepCoherent(t, base[0], ops);
      var u := BaseStep(t, base[0]).value;
      assert BaseLoop(u, base[1..]) == BaseLoop(t, base);
      assert base[0].chord.factors != f;
      assert base[1..][i - 1] == base[i];
      forall j | 0 <= j < i - 1 ensures base[1..][j].chord.factors != f {
        assert base[1..][j] == base[j + 1];
      }
      FirstWins(u, base[1..], i - 1, ops);
    }
  }

  /** Every name the first loop keys is a name of the table. */
  lemma {:induction false} BaseLoopListed(t: Tables, base: seq<BaseChord>, names: set<Name>)
    requires BaseLoop(t, base).Ok? && Listed(t, names)
    requires forall i :: 0 <= i < |base| ==> base[i].name in names
    ensures Listed(BaseLoop(t, base).value, names)
    decreases |base|
  {
    if base != [] {
      var u := BaseStep(t, base[0]).value;
      assert base[0].name in names;
      assert Listed(u, names);
      forall i | 0 <= i < |base[1..]| ensures base[1..][i].name in names {
        assert base[1..][i] == base[i + 1];
      }
      BaseLoopListed(u, base[1..], names);
    }
  }

  // ---------------------------------------------------------------------------
  // Modified chords

  /** Keys factors under a new name when neither they nor their intervals
      are taken yet; factors that give no intervals fail as their
      conversion does.  The flag says whether the name was registered. */
  function TryRegister(t: Tables, f: Factors, name: Name, ops: Ops): (r: Result<(Tables, bool)>)
    ensures r.Ok? <==> ops.keyOf(f).Ok?
    ensures r.Ok? ==> (r.value.1 <==> !Taken(t, f, ops.keyOf(f).value))
    ensures r.Ok? && r.value.1 ==> r.value.0 == Register(t, f, ops.keyOf(f).value, name)
    ensures r.Ok? && !r.value.1 ==> r.value.0 == t
  {
    var key :- ops.keyOf(f);
    if Taken(t, f, key) then Ok((t, false)) else Ok((Register(t, f, key, name), true))
  }

  /** Whether a modifier is tried on factors: it must be valid on them, and
      one that leaves the quality undetermined is kept off minor chords. */
  predicate Applies(m: Modifier, f: Factors, b: BaseChord, ops: Ops) {
    ops.validOn(m.q, f) && !(m.indeterminate && b.chord.quality.Minor?)
  }

  /** One step of the second-level loop: a second modifier, different from
      the first and valid on the modified factors, is added unless the
      first was `(no5)`; a chord it makes that is new to both tables joins
      the top tier. */
  function SecondStep(t: Tables, b: BaseChord, name: Name, f: Factors, first: Modifier, second: Modifier, ops: Ops)
    : (r: Result<Tables>)
    ensures r.Ok? ==> Extends(t, r.value)
    ensures r.Ok? && Coherent(t, ops) ==> Coherent(r.value, ops)
    ensures r.Ok? ==> NewListed(t, r.value)
    ensures second == first ==> r == Ok(t)
  {
    if second == first || !Applies(second, f, b, ops) || first.name == NoFifth then Ok(t)
    else
      var f2 := ops.plus(f, second.q);
      var p :- TryRegister(t, f2, name + second.name, ops);
      if !p.1 then Ok(p.0)
      else if TopTier !in p.0.added then Err(MissingKey)
      else
        RegisterCoherent(t, f2, name + second.name, ops);
        RegisterListed(t, f2, ops.keyOf(f2).value, name + second.name, TopTier);
        Append(p.0, TopTier, name + second.name)
  }

  /** A second modifier that differs from the first and applies, after a
      first modifier other than `(no5)`, registers the doubly modified
      chord in the top tier when its keys are free. */
  lemma SecondStepRegisters(t: Tables, b: BaseChord, name: Name, f: Factors, first: Modifier, second: Modifier, ops: Ops)
    requires second != first && Applies(second, f, b, ops) && first.name != NoFifth
    requires ops.keyOf(ops.plus(f, second.q)).Ok? && TopTier in t.added
    requires !Taken(t, ops.plus(f, second.q), ops.keyOf(ops.plus(f, second.q)).value)
    ensures SecondStep(t, b, name, f, first, second, ops).Ok?
    ensures var u := SecondStep(t, b, name, f, first, second, ops).value;
            && u.byFactors[ops.plus(f, second.q)] == name + second.name
            && u.added[TopTier] == t.added[TopTier] + [name + second.name]
  {
  }

  /** The second-level loop as written: the second modifier is fetched by
      the first modifier's name, so every candidate is the first modifier
      itself. */
  function SecondLevelAsWritten(t: Tables, b: BaseChord, name: Name, f: Factors, mods: seq<Modifier>, k: nat, ops: Ops,
                                k2: nat): (r: Result<Tables>)
    requires k < |mods|
    ensures r.Ok? ==> r.value == t
    decreases |mods| - k2
  {
    if k2 >= |mods| then Ok(t)
    else
      var u :- SecondStep(t, b, name, f, mods[k], mods[k], ops);
      SecondLevelAsWritten(u, b, name, f, mods, k, ops, k2 + 1)
  }

  /** As written, the second-level loop never registers anything. */
  lemma {:induction false} SecondLevelAsWrittenAddsNothing(t: Tables, b: BaseChord, name: Name, f: Factors,
                                                           mods: seq<Modifier>, k: nat, ops: Ops, k2: nat)
    requires k < |mods|
    ensures SecondLevelAsWritten(t, b, name, f, mods, k, ops, k2) == Ok(t)
    decreases |mods| - k2
  {
    if k2 < |mods| {
      SecondLevelAsWrittenAddsNothing(t, b, name, f, mods, k, ops, k2 + 1);
    }
  }

  /** The second-level loop as intended: the second modifier is the one
      the loop is at. */
  function SecondLevel(t: Tables, b: BaseChord, name: Name, f: Factors, mods: seq<Modifier>, k: nat, ops: Ops, k2: nat)
    : (r: Result<Tables>)
    requires k < |mods|
    ensures r.Ok? ==> Extends(t, r.value)
    ensures r.Ok? && Coherent(t, ops) ==> Coherent(r.value, ops)
    ensures r.Ok? ==> NewListed(t, r.value)
    decreases |mods| - k2
  {
    if k2 >= |mods| then Ok(t)
    else
      var u :- SecondStep(t, b, name, f, mods[k], mods[k2], ops);
      SecondLevel(u, b, name, f, mods, k, ops, k2 + 1)
  }

  /** Intended and as written differ: with two modifiers, a second one that
      applies and whose chord is new, the intended loop registers the
      doubly modified chord, while the loop as written leaves the tables as
      they were. */
  lemma SecondLevelDiffers(t: Tables, b: BaseChord, name: Name, f: Factors, mods: seq<Modifier>, k: nat, ops: Ops)
    requires k < |mods| && |mods| == 2 && mods[0] != mods[1]
    requires Applies(mods[1 - k], f, b, ops) && mods[k].name != NoFifth
    requires ops.keyOf(ops.plus(f, mods[1 - k].q)).Ok? && TopTier in t.added
    requires !Taken(t, ops.plus(f, mods[1 - k].q), ops.keyOf(ops.plus(f, mods[1 - k].q)).value)
    ensures SecondLevelAsWritten(t, b, name, f, mods, k, ops, 0) == Ok(t)
    ensures ops.plus(f, mods[1 - k].q) !in t.byFactors
    ensures SecondLevel(t, b, name, f, mods, k, ops, 0).Ok? ==>
              ops.plus(f, mods[1 - k].q) in SecondLevel(t, b, name, f, mods, k, ops, 0).value.byFactors
  {
    SecondLevelAsWrittenAddsNothing(t, b, name, f, mods, k, ops, 0);
    var g := ops.plus(f, mods[1 - k].q);
    SecondStepRegisters(t, b, name, f, mods[k], mods[1 - k], ops);
    var r := SecondLevel(t, b, name, f, mods, k, ops, 0);
    if r.Ok? {
      if k == 0 {
        assert r == SecondLevel(t, b, name, f, mods, k, ops, 1);
        var v := SecondStep(t, b, name, f, mods[0], mods[1], ops).value;
        assert r == SecondLevel(v, b, name, f, mods, k, ops, 2);
        assert g in v.byFactors;
      } else {
        var u := SecondStep(t, b, name, f, mods[1], mods[0], ops).value;
        assert g in u.byFactors;
        assert r == SecondLevel(u, b, name, f, mods, k, ops, 1);
      }
    }
  }

  /** One modifier on a base chord: when it applies and the modified chord
      is new to both tables, the chord is registered under the base name
      followed by the modifier's name, listed at the base chord's tier
      plus the modifier's, and then tried with a second modifier.  As
      written that second loop adds nothing, so the modified chord is the
      only factors the step keys. */
  function ModifyOnce(t: Tables, b: BaseChord, baseTier: map<Name, nat>, mods: seq<Modifier>, k: nat, ops: Ops)
    : (r: Result<Tables>)
    requires k < |mods|
    ensures r.Ok? ==> Extends(t, r.value)
    ensures r.Ok? && Coherent(t, ops) ==> Coherent(r.value, ops)
    ensures r.Ok? ==> NewListed(t, r.value)
    ensures Applies(mods[k], b.chord.factors, b, ops) ==>
              var f := ops.plus(b.chord.factors, mods[k].q);
              var name := b.name + mods[k].name;
              ops.keyOf(f).Ok? && !Taken(t, f, ops.keyOf(f).value) ==>
                && (b.name !in baseTier ==> r == Err(MissingKey))
                && (b.name in baseTier && baseTier[b.name] + mods[k].tier !in t.added ==> r == Err(MissingKey))
                && (r.Ok? ==> && b.name in baseTier && baseTier[b.name] + mods[k].tier in r.value.added
                              && f in r.value.byFactors && r.value.byFactors[f] == name && name in r.value.added[baseTier[b.name] + mods[k].tier])
    ensures r.Ok? && !ops.secondByLoop ==>
              forall g :: g in r.value.byFactors && g !in t.byFactors ==> g == ops.plus(b.chord.factors, mods[k].q)
  {
    var m := mods[k];
    if !Applies(m, b.chord.factors, b, ops) then Ok(t)
    else
      var f := ops.plus(b.chord.factors, m.q);
      var p :- TryRegister(t, f, b.name + m.name, ops);
      if !p.1 then Ok(p.0)
      else if b.name !in baseTier then Err(MissingKey)
      else if baseTier[b.name] + m.tier !in p.0.added then Err(MissingKey)
      else
        var tier := baseTier[b.name] + m.tier;
        RegisterCoherent(t, f, b.name + m.name, ops);
        RegisterListed(t, f, ops.keyOf(f).value, b.name + m.name, tier);
        var v := Append(p.0, tier, b.name + m.name).value;
        assert b.name + m.name == v.added[tier][|v.added[tier]| - 1];
        if ops.secondByLoop then SecondLevel(v, b, b.name + m.name, f, mods, k, ops, 0)
        else SecondLevelAsWritten(v, b, b.name + m.name, f, mods, k, ops, 0)
  }

  /** Every modifier, in order, on one base chord; as written, each
      factors it keys is the chord with one modifier added. */
  function ModifyChord(t: Tables, b: BaseChord, baseTier: map<Name, nat>, mods: seq<Modifier>, ops: Ops, k: nat)
    : (r: Result<Tables>)
    ensures r.Ok? ==> Extends(t, r.value)
    ensures r.Ok? && Coherent(t, ops) ==> Coherent(r.value, ops)
    ensures r.Ok? ==> NewListed(t, r.value)
    ensures r.Ok? && !ops.secondByLoop ==>
              forall g :: g in r.value.byFactors && g !in t.byFactors ==>
                exists j :: 0 <= j < |mods| && g == ops.plus(b.chord.factors, mods[j].q)
    decreases |mods| - k
  {
    if k >= |mods| then Ok(t)
    else
      var u :- ModifyOnce(t, b, baseTier, mods, k, ops);
      ModifyChord(u, b, baseTier, mods, ops, k + 1)
  }

  /** The factors are a chord of the table with one modifier added. */
  ghost predicate OnceModified(g: Factors, base: seq<BaseChord>, mods: seq<Modifier>, ops: Ops) {
    exists i, j :: 0 <= i < |base| && 0 <= j < |mods| && g == ops.plus(base[i].chord.factors, mods[j].q)
  }

  /** A chord once modified by a later chord of the table is one of the
      whole table, and so is the first chord's. */
  lemma OnceModifiedCons(g: Factors, base: seq<BaseChord>, mods: seq<Modifier>, ops: Ops)
    requires base != []
    requires OnceModified(g, base[1..], mods, ops) || exists j :: 0 <= j < |mods| && g == ops.plus(base[0].chord.factors, mods[j].q)
    ensures OnceModified(g, base, mods, ops)
  {
    if OnceModified(g, base[1..], mods, ops) {
      var i, j :| 0 <= i < |base[1..]| && 0 <= j < |mods| && g == ops.plus(base[1..][i].chord.factors, mods[j].q);
      assert base[1..][i] == base[i + 1];
    } else {
      var j :| 0 <= j < |mods| && g == ops.plus(base[0].chord.factors, mods[j].q);
      assert g == ops.plus(base[0].chord.factors, mods[j].q);
    }
  }

  /** The second loop over the rarity table: every base chord whose name
      may be modified, with every modifier. */
  function ModifyAll(t: Tables, base: seq<BaseChord>, baseTier: map<Name, nat>, mods: seq<Modifier>, ops: Ops)
    : (r: Result<Tables>)
    ensures r.Ok? ==> Extends(t, r.value)
    ensures r.Ok? && Coherent(t, ops) ==> Coherent(r.value, ops)
    ensures r.Ok? ==> NewListed(t, r.value)
    ensures r.Ok? && !ops.secondByLoop ==>
              forall g :: g in r.value.byFactors && g !in t.byFactors ==> OnceModified(g, base, mods, ops)
    decreases |base|
  {
    if base == [] then Ok(t)
    else
      var u :- if base[0].name in Unmodifiable then Ok(t) else ModifyChord(t, base[0], baseTier, mods, ops, 0);
      var r := ModifyAll(u, base[1..], baseTier, mods, ops);
      assert r.Ok? && !ops.secondByLoop ==>
               forall g :: g in r.value.byFactors && g !in t.byFactors ==> OnceModified(g, base, mods, ops) by {
        if r.Ok? && !ops.secondByLoop {
          forall g | g in r.value.byFactors && g !in t.byFactors ensures OnceModified(g, base, mods, ops) {
            OnceModifiedCons(g, base, mods, ops);
          }
        }
      }
      r
  }

  // ---------------------------------------------------------------------------
  // Rarities

  /** The base chords' names with their tiers, in table order. */
  function BasePairs(base: seq<BaseChord>): (ps: seq<(Name, nat)>)
    ensures |ps| == |base| && forall i :: 0 <= i < |base| ==> ps[i] == (base[i].name, base[i].tier)
  {
    seq(|base|, i requires 0 <= i < |base| => (base[i].name, base[i].tier))
  }

  /** Both loops over the rarity table, starting from empty tables and a
      list of new names for each tier from 0 to 7; a base chord's tier is
      read from the table as it stood before the loops. */
  function Stages(base: seq<BaseChord>, mods: seq<Modifier>, ops: Ops): (r: Result<Tables>)
    ensures r.Ok? ==> forall u :: u in r.value.added ==> u <= TopTier
  {
    var t1 :- BaseLoop(Tables(map[], map[], NoNewNames()), base);
    ModifyAll(t1, base, Reverse(BasePairs(base)), mods, ops)
  }

  /** The registry as written: the two tables the loops build, and the
      rarity of every name read back from the rarity table once each tier
      has been extended by its new names.  Every registered factors is a
      chord of the table, or one with a single modifier added; every
      registered name is a base name or a new one; when every base chord's
      intervals are the ones its factors give, each factors is keyed under
      its intervals by the same name; and when every base tier is one of
      the table's, every registered chord has a rarity. */
  function Build(base: seq<BaseChord>, mods: seq<Modifier>, validOn: (Qualifier, Factors) -> bool)
    : (r: Result<Registry>)
    ensures r.Ok? <==> Stages(base, mods, ModelOps(validOn)).Ok?
    ensures r.Ok? ==> && r.value.byFactors == Stages(base, mods, ModelOps(validOn)).value.byFactors
                      && r.value.byIntervals == Stages(base, mods, ModelOps(validOn)).value.byIntervals
                      && r.value.rarity == Rarities(BasePairs(base), Stages(base, mods, ModelOps(validOn)).value.added)
    ensures r.Ok? ==> forall f :: f in r.value.byFactors ==>
              (exists i :: 0 <= i < |base| && base[i].chord.factors == f) || OnceModified(f, base, mods, ModelOps(validOn))
    ensures r.Ok? ==> Listed(Stages(base, mods, ModelOps(validOn)).value, BaseNames(base))
    ensures r.Ok? && AllNamed(base, ModelOps(validOn)) ==>
              forall f :: f in r.value.byFactors ==>
                KeyOf(f).Ok? && KeyOf(f).value in r.value.byIntervals && r.value.byIntervals[KeyOf(f).value] == r.value.byFactors[f]
    ensures r.Ok? && (forall i :: 0 <= i < |base| ==> base[i].tier <= TopTier) ==>
              forall f :: f in r.value.byFactors ==> RarityOf(r.value, f).Ok?
  {
    var ops := ModelOps(validOn);
    var t :- Stages(base, mods, ops);
    StagesProvenance(base, mods, ops);
    StagesListed(base, mods, ops);
    StagesCoherent(base, mods, ops);
    StagesRarities(base, mods, ops);
    Ok(Registry(t.byFactors, t.byIntervals, Rarities(BasePairs(base), t.added)))
  }

  /** The registry the evidently intended second-level loop would build
      (see `SecondLevel`): every registered name is a base name or a new
      one; when every base chord's intervals are the ones its factors give,
      each factors is keyed under its intervals by the same name; and when
      every base tier is one of the table's, every registered chord has a
      rarity. */
  function BuildIntended(base: seq<BaseChord>, mods: seq<Modifier>, validOn: (Qualifier, Factors) -> bool)
    : (r: Result<Registry>)
    ensures r.Ok? <==> Stages(base, mods, IntendedOps(validOn)).Ok?
    ensures r.Ok? ==> && r.value.byFactors == Stages(base, mods, IntendedOps(validOn)).value.byFactors
                      && r.value.rarity == Rarities(BasePairs(base), Stages(base, mods, IntendedOps(validOn)).value.added)
    ensures r.Ok? ==> Listed(Stages(base, mods, IntendedOps(validOn)).value, BaseNames(base))
    ensures r.Ok? && AllNamed(base, IntendedOps(validOn)) ==>
              forall f :: f in r.value.byFactors ==>
                KeyOf(f).Ok? && KeyOf(f).value in r.value.byIntervals && r.value.byIntervals[KeyOf(f).value] == r.value.byFactors[f]
    ensures r.Ok? && (forall i :: 0 <= i < |base| ==> base[i].tier <= TopTier) ==>
              forall f :: f in r.value.byFactors ==> RarityOf(r.value, f).Ok?
  {
    var ops := IntendedOps(validOn);
    var t :- Stages(base, mods, ops);
    StagesListed(base, mods, ops);
    StagesCoherent(base, mods, ops);
    StagesRarities(base, mods, ops);
    Ok(Registry(t.byFactors, t.byIntervals, Rarities(BasePairs(base), t.added)))
  }

  /** As written, every factors both loops key is a chord of the table or
      one with a single modifier added. */
  lemma StagesProvenance(base: seq<BaseChord>, mods: seq<Modifier>, ops: Ops)
    requires Stages(base, mods, ops).Ok? && !ops.secondByLoop
    ensures forall f :: f in Stages(base, mods, ops).value.byFactors ==>
              (exists i :: 0 <= i < |base| && base[i].chord.factors == f) || OnceModified(f, base, mods, ops)
  {
    var t0 := Tables(map[], map[], NoNewNames());
    var t1 := BaseLoop(t0, base).value;
    forall f | f in Stages(base, mods, ops).value.byFactors && f in t1.byFactors
      ensures exists i :: 0 <= i < |base| && base[i].chord.factors == f
    {
      BaseLoopProvenance(t0, base, f);
    }
  }

  /** When every base chord's intervals are the ones its factors give, the
      finished tables key every factors under their intervals too, by the
      same name. */
  lemma StagesCoherent(base: seq<BaseChord>, mods: seq<Modifier>, ops: Ops)
    requires Stages(base, mods, ops).Ok?
    ensures AllNamed(base, ops) ==> Coherent(Stages(base, mods, ops).value, ops)
  {
    if AllNamed(base, ops) {
      BaseLoopCoherent(Tables(map[], map[], NoNewNames()), base, ops);
    }
  }

  /** The names of the base chords. */
  function BaseNames(base: seq<BaseChord>): (names: set<Name>)
    ensures forall n :: n in names <==> exists i :: 0 <= i < |base| && base[i].name == n
  {
    set i | 0 <= i < |base| :: base[i].name
  }

  /** After both loops every registered name is a base name or a new
      one. */
  lemma StagesListed(base: seq<BaseChord>, mods: seq<Modifier>, ops: Ops)
    requires Stages(base, mods, ops).Ok?
    ensures Listed(Stages(base, mods, ops).value, BaseNames(base))
  {
    var t0 := Tables(map[], map[], NoNewNames());
    BaseLoopListed(t0, base, BaseNames(base));
    ListedGrows(BaseLoop(t0, base).value, Stages(base, mods, ops).value, BaseNames(base));
  }

  /** A listed name has a rarity when every tier is one of the table's. */
  lemma ListedHaveRarities(t: Tables, base: seq<BaseChord>)
    requires Listed(t, BaseNames(base))
    requires forall i :: 0 <= i < |base| ==> base[i].tier <= TopTier
    requires forall u :: u in t.added ==> u <= TopTier
    ensures forall f :: f in t.byFactors ==> t.byFactors[f] in Rarities(BasePairs(base), t.added)
  {
    var table := BasePairs(base);
    forall f | f in t.byFactors ensures t.byFactors[f] in Rarities(table, t.added) {
      var n := t.byFactors[f];
      if n in BaseNames(base) {
        var i :| 0 <= i < |base| && base[i].name == n;
        assert table[i] == (n, base[i].tier);
        RarityOfListed(table, t.added, n, base[i].tier);
      } else {
        var u: nat :| u in t.added && n in t.added[u];
        RarityOfListed(table, t.added, n, u);
      }
    }
  }

  /** When every base chord's tier is one of the table's, every name in
      the finished tables has a rarity. */
  lemma StagesRarities(base: seq<BaseChord>, mods: seq<Modifier>, ops: Ops)
    requires Stages(base, mods, ops).Ok?
    ensures (forall i :: 0 <= i < |base| ==> base[i].tier <= TopTier) ==>
              var t := Stages(base, mods, ops).value;
              forall f :: f in t.byFactors ==> t.byFactors[f] in Rarities(BasePairs(base), t.added)
  {
    if forall i :: 0 <= i < |base| ==> base[i].tier <= TopTier {
      StagesListed(base, mods, ops);
      ListedHaveRarities(Stages(base, mods, ops).value, base);
    }
  }
}
